=== FILE: README.md ===
# nguyenthanhtai.com CMS: a Dafny model of the backend tables and frontend state

This project models the parts of the nguyenthanhtai.com blog/CMS that carry exact rules:

- **The Flask CMS backend** (`cms-backend/app_unified.py`, `cms-backend/routes.py`):
  - each database table is a sequence (or, for comments, a map) field of a `Database` class;
  - each route handler is a method that updates those fields in place and returns the HTTP status;
  - `slugify`, `secure_filename`, the uuid, the clock and password hashing enter as parameters.
- **The legacy single-file blog backend** (`app.py`), with its own `LegacyDb` class.
- **Pure helpers and small state machines from the React frontends.** A pure helper becomes a function. A component's state becomes a class whose fields the handlers reassign. The modelled pieces are:
  - the admin dashboard post form;
  - publish validation and sample tag selection in the post editor;
  - filtering in the media picker;
  - the like toggle and comment form on a post page;
  - the auth context;
  - the category palette;
  - the PDF viewer's page state;
  - the chat window state.

Shared helpers:

- `Wrappers` provides `Option`.
- `Text` covers:
  - ASCII case;
  - trimming;
  - whitespace-run replacement;
  - substring search;
  - splitting and joining on a character;
  - decimal rendering of a counter.
- `Collections` covers:
  - first match;
  - filtering in order;
  - reversal;
  - sortedness.

## Model

| member | source | states |
|---|---|---|
| CmsModels.CandidateDistinct | cms-backend/app_unified.py:187 | every suffixed candidate `base-n` differs from the base and from every other candidate, so the suffix search never revisits a slug |
| CmsModels.GenerateSlug | cms-backend/app_unified.py:180-188 | a post that already has a slug keeps it. Otherwise the result is a slug no stored post uses. It is `slugify(title)` when that is free, else the first free `base-n` with n from 1 |
| CmsModels.AllowedFileOf | cms-backend/app_unified.py:43 | a name `stem.ext` (no '.' in ext) is accepted iff the lower-cased last extension is one of the twelve allowed ones |
| CmsModels.RoleRequired | cms-backend/app_unified.py:346-356 | the handler runs only for a user row that is stored under the JWT identity and has a listed role, and runs for that row. A request whose identity matches no row is refused with 403 |
| CmsModels.RoleRequiredAdmits | cms-backend/app_unified.py:350-353 | with unique user ids, the request passes exactly when the identity's row has a listed role, and the handler runs for that row |
| CmsModels.PostToDict | cms-backend/app_unified.py:190-219 | 'content' is present iff `include_content`, and then holds the post's content. 'comments_count' is the number of comments whose post is this one |
| CmsModels.DefaultSettings | cms-backend/app_unified.py:384-393 | seven settings with distinct keys, in the listed key order; the site_url setting holds the deployment URL |
| CmsModels.PostSlugs | cms-backend/app_unified.py:156 | the set holds exactly the slugs of the stored posts |
| CmsModels.AddAdmin | cms-backend/app_unified.py:364-373 | the admin user is appended with the next id; user ids, names and e-mails stay unique and a user named 'admin' now exists |
| CmsModels.AddUncategorized | cms-backend/app_unified.py:375-381 | the 'uncategorized' category is appended and category slugs stay unique |
| CmsModels.AddDefaultSettings | cms-backend/app_unified.py:383-397 | the seven default settings are appended and setting keys stay unique |
| CmsModels.CreateTables | cms-backend/app_unified.py:359-399 | it seeds the admin user, the 'uncategorized' category and the seven settings only when no user named 'admin' exists and the seed rows do not clash with unique keys. Otherwise nothing changes. Afterwards an 'admin' user exists iff it reports success |
| CmsModels.Database.constructor | cms-backend/app_unified.py:360 | the tables start empty and satisfy the uniqueness invariant |
| CmsRoutes.MayModifyCases | cms-backend/routes.py:151-152 | admins and editors may modify any record; an author only records they own |
| CmsRoutes.UserLookups | cms-backend/app_unified.py:55-56 | the username/email lookups succeed iff the name/email is among the stored ones |
| CmsModels.InsertUser | cms-backend/app_unified.py:54-56 | a user with the next id and a username and e-mail no stored user has is appended, and ids, usernames and e-mails stay unique |
| CmsRoutes.Register | cms-backend/routes.py:31-54 | 400 iff the username or email is taken. 201 iff all three fields are present and both are free; the new user is appended with the given role or 'subscriber'. A missing field is a 500. No other outcome changes the table |
| CmsRoutes.CreateUser | cms-backend/routes.py:87-135 | 403 for a non-admin. 400 for an empty required field, a taken username or email, or a role outside admin/editor/author/subscriber, with nothing stored. Otherwise the user is appended with the given fields |
| CmsRoutes.ApplyUserPatch | cms-backend/routes.py:156-172 | id and username never change. Role and active flag change only for an admin caller. The password hash changes only for a non-empty password. An empty patch changes nothing |
| CmsRoutes.UpdateUser | cms-backend/routes.py:143-177 | only 404, 403, 500 or 200. 404 iff the user is unknown. 403 iff the caller is neither admin nor the user. 500 iff the caller has no row (`current_user.role` raises) or the patched e-mail belongs to another user (commit fails). On 200 only that row is replaced by the patched user and uniqueness is kept. Nothing changes otherwise |
| CmsRoutes.TagLookup | cms-backend/app_unified.py:131 | a tag lookup by name succeeds iff the name is stored |
| CmsRoutes.TagNamesAppend | cms-backend/app_unified.py:131 | appending a tag adds exactly its name to the stored names |
| CmsRoutes.EnsureTags | cms-backend/routes.py:277-283 | existing tags are kept in place. Every requested name ends up stored, exactly once. New tags get `slugify(name)` |
| CmsRoutes.NewPost | cms-backend/routes.py:250-271 | the new post carries the request's title, author and slug. `published_at` is set to now iff the status is 'published'. Tags are as given, or none |
| CmsRoutes.InsertPost | cms-backend/routes.py:273-295 | the new post is appended with the next id and a slug no stored post has. The stored tag rows are kept as a prefix, the tag names become the old names plus the post's, and each new tag row is slugged by `slugify` of its name. One revision of its first text is added, and the tables stay valid |
| CmsRoutes.CreatePost | cms-backend/routes.py:243-297 | 403 for a role outside admin/editor/author and 500 without a title, each leaving the tables as they were. Otherwise the post is appended with `slugify(title)` when no post has it, and otherwise with the first `-n` suffix no post has. The stored tag rows are kept as a prefix, the tag names become the old names plus the post's, new tag rows are slugged by `slugify`, and one revision is added |
| CmsRoutes.ApplyPostPatch | cms-backend/routes.py:324-354 | id, slug, author and view count never change. A set `published_at` is kept. An unset one becomes now iff the new status is 'published'. An incoming tag list replaces the old one |
| CmsRoutes.PublishedAtStable | cms-backend/routes.py:339-344 | over any sequence of updates a post's `published_at`, once set, and its slug never change |
| CmsRoutes.ReplacePostKeepsUnique | cms-backend/app_unified.py:156 | replacing a post by one with the same id and slug keeps post ids and slugs unique |
| CmsRoutes.WritePostUpdate | cms-backend/routes.py:313-357 | one revision of the old title, content and excerpt is appended, and only the edited row becomes its patched version. Without a tag list the tag table is unchanged. With one, the stored tag rows are kept as a prefix, the tag names become the old names plus the requested ones, and each new tag row is slugged by `slugify` of its name. The tables stay valid |
| CmsRoutes.UpdatePost | cms-backend/routes.py:299-359 | 403 iff the role is not a writer, or the caller may not modify this author's post. 404 for an unknown post. On 200 the post becomes its patched version and exactly one revision of the old title/content is appended. The tag table is unchanged without a tag list; with one, the old rows are a kept prefix, the names become the old names plus the requested ones, and new rows are slugged by `slugify`. Nothing changes otherwise |
| CmsRoutes.Lookup | cms-backend/routes.py:541-542 | a key is missing iff no setting row has it |
| CmsRoutes.LookupAt | cms-backend/app_unified.py:309 | with unique keys, looking up a row's key finds that row's value |
| CmsRoutes.LookupUpdate | cms-backend/routes.py:543-544 | overwriting one row's value changes the lookup of that key only |
| CmsRoutes.LookupAppend | cms-backend/routes.py:545-547 | appending a row answers its key only when the key was absent |
| CmsRoutes.Upsert | cms-backend/routes.py:541-548 | after an upsert the key maps to the value and every other key is unchanged. Keys stay unique and existing rows keep their place |
| CmsRoutes.UpsertStep | cms-backend/routes.py:541-548 | one more request key upserted: it now maps to its value, keys still to do and keys outside the request keep their old values, and keys stay unique |
| CmsRoutes.UpdateSettings | cms-backend/routes.py:535-551 | 403 for a non-admin. On 200 every requested key maps to its value, and keys not in the request keep theirs. Existing rows keep their keys and order |
| CmsRoutes.TitleCase | cms-backend/routes.py:892-900 | the generated theme name keeps the slug's length. A letter at the start or after a non-letter is upper-cased, a letter after a letter is lower-cased, and every other character is kept |
| CmsRoutes.TitleCaseIdempotent | cms-backend/routes.py:900 | title-casing an already title-cased name changes nothing |
| CmsRoutes.ThemeNameKeepsHyphens | cms-backend/routes.py:892-900 | a theme created for a slug outside the four known ones is named with the slug's length and with its hyphens in place |
| CmsRoutes.ActiveCountNone | cms-backend/routes.py:885-888 | when only the named theme may be active and it is absent, no theme is active |
| CmsRoutes.ActiveCountOne | cms-backend/routes.py:882-908 | with unique slugs, when only the named theme may be active and it is active, exactly one theme is active |
| CmsRoutes.Deactivated | cms-backend/routes.py:885 | every theme is kept with its active flag cleared |
| CmsRoutes.ActivateExisting | cms-backend/routes.py:907-908 | activating an existing theme after all were cleared leaves it the only active one |
| CmsRoutes.ActivateNew | cms-backend/routes.py:889-906 | appending a new active theme after all were cleared leaves it the only active one, with slugs still unique |
| CmsRoutes.ActivatedOnly | cms-backend/routes.py:885-908 | after activation the slugs are still unique and exactly one theme is active: the one with the requested slug. Every earlier theme is kept with only its flag recomputed, and a new theme, named from its slug, is appended only when none had the slug |
| CmsRoutes.ActivateTheme | cms-backend/routes.py:873-915 | 403 for a non-admin and 400 for a missing theme id, each leaving the themes as they were. On 200 the theme table becomes the activated table |
| CmsRoutes.Classify | cms-backend/routes.py:444-455 | the file type is image, video, audio or document. The folder is 'documents' exactly for documents, 'images' for the rest |
| CmsRoutes.ClassifyAllowed | cms-backend/routes.py:444-455 | among the allowed extensions only mp4 is a video, only mp3 an audio file, and txt/pdf/zip/doc/docx are documents |
| CmsRoutes.UploadMedia | cms-backend/routes.py:428-480 | 400 for a missing or disallowed file, and nothing is stored. On 201 one media row is appended. Its type and folder are those of the lower-cased extension, and its URL is `/uploads/<folder>/<stored name>` |
| CmsRoutes.InsertComment | cms-backend/routes.py:632-633 | a comment is stored under an id no stored comment has, and the table stays valid |
| CmsRoutes.AddPostComment | cms-backend/routes.py:613-634 | 404 for an unknown post and 400 for empty content, with nothing created. Otherwise one approved comment is added, with the author name defaulting to 'Anonymous' |
| CmsRoutes.DeleteWithReplies | cms-backend/routes.py:733-737 | a comment survives iff it is neither deleted nor a direct reply of a deleted comment; survivors are unchanged |
| CmsRoutes.DeleteLeavesDanglingReply | cms-backend/routes.py:733-737 | a reply to a reply of a deleted comment survives while its parent is removed |
| CmsRoutes.DeleteCommentAdmin | cms-backend/routes.py:726-743 | 403 for non-staff and 500 for an unknown id. On 200 exactly the comment and its direct replies are removed |
| CmsRoutes.SetStatuses | cms-backend/routes.py:759-767 | the listed existing comments get the status and every other comment is unchanged |
| CmsRoutes.BulkCommentAction | cms-backend/routes.py:745-780 | 403 for non-staff. 400 for an empty id list or a missing or unknown action, with no comment changed. approve/spam/trash set exactly the listed comments' status. delete removes the listed comments and their direct replies only |
| CmsRoutes.ReplyToComment | cms-backend/routes.py:782-813 | 403 for a non-writer, 500 for an unknown comment and 400 for blank content, with nothing created. Otherwise one approved reply is added whose parent is the target and whose post is the target's post |
| LegacyApp.NormaliseSlug | app.py:168 | the normalised slug has the same length and contains no space and no upper-case letter |
| LegacyApp.NormaliseSlugIdempotent | app.py:168 | normalising twice is normalising once |
| LegacyApp.ReadTags | app.py:137 | a missing or empty stored value reads as no tags |
| LegacyApp.TagsRoundTrip | app.py:137 | storing a list of comma-free tags joined with ',' and splitting it back gives the list, unless the list is the single empty tag |
| LegacyApp.TagsRoundTripEmptyTag | app.py:137 | the list holding one empty tag is stored as "" and reads back as no tags |
| LegacyApp.StoredTags | app.py:179 | a tag list is stored joined with ','. Text is stored as given. An absent field keeps the stored value |
| LegacyApp.CreatePost | app.py:163-187 | 400 iff a post already has the normalised slug, with nothing created. On 201 the post is appended with the normalised slug and the joined tags |
| LegacyApp.ApplyPostUpdate | app.py:189-207 | the id is kept, the slug is the given one or the old one, and the tags follow the stored-tags rule. An empty update changes nothing |
| LegacyApp.UpdatePost | app.py:189-207 | only 404, 500 or 200. 404 iff the id is unknown. 500 iff another post already has the slug the updated row would carry (commit fails). On 200 only that row is replaced by its updated version. Nothing changes otherwise |
| LegacyApp.Replies | app.py:273-280 | exactly the approved comments whose parent is the given comment |
| LegacyApp.TopLevel | app.py:270-272 | exactly the approved parentless comments of the post |
| LegacyApp.Threads | app.py:270-284 | one thread per top-level comment, each carrying that comment's approved direct replies |
| LegacyApp.GetComments | app.py:265-285 | a missing post is reported as such. Otherwise 'total' equals the number of top-level entries |
| LegacyApp.ThreadsOrdered | app.py:270-284 | with comments stored oldest first, top-level comments come newest first and every reply list oldest first |
| LegacyApp.CreateComment | app.py:287-311 | 404 for an unknown post and 400 for a missing author name or content, with nothing created. Otherwise the comment is appended approved, with `parent_id` as given |
| LegacyApp.ApproveComment | app.py:329-335 | 404 for an unknown comment. Otherwise that comment becomes approved and nothing else changes |
| LegacyApp.Register | app.py:235-255 | 400 iff the username is taken. On 201 the user is appended, and is admin iff the user table was empty |
| LegacyApp.InitDb | app.py:468-476 | the admin is seeded only into an empty user table |
| LegacyApp.AdminCountAppend | app.py:245 | appending a user raises the admin count by one exactly when the user is an admin |
| LegacyApp.RegisterAdmins | app.py:241-249 | registration keeps at most one admin, and the first user is the admin |
| LegacyApp.AllowedImageOf | app.py:44 | `stem.ext` is accepted iff the lower-cased last extension is png, jpg, jpeg, gif or webp |
| LegacyApp.UploadImage | app.py:348-393 | 400 for a missing or disallowed file, with nothing stored. Otherwise one image row `<hex>.<ext>` is appended under the images URL, with the lower-cased extension and with the browser's content type, or `image/<ext>` when there is none |
| LegacyApp.LegacyDb.constructor | app.py:468-470 | all tables start empty |
| AdminDashboard.EmptyForm | frontend/src/pages/AdminDashboard.js:13-23 | eight empty text fields and an unticked 'published' box |
| AdminDashboard.ParseTags | frontend/src/pages/AdminDashboard.js:82 | every parsed tag is non-empty and has no surrounding whitespace |
| AdminDashboard.ParseShowTags | frontend/src/pages/AdminDashboard.js:82 | parsing the ', '-joined text of a list of plain tags gives the list back |
| AdminDashboard.DefaultSlug | frontend/src/pages/AdminDashboard.js:88-90 | the default slug has no whitespace and no upper-case letter |
| AdminDashboard.DefaultSlugIsNormal | frontend/src/pages/AdminDashboard.js:88-90 | the legacy backend's slug normalisation leaves a default slug unchanged |
| AdminDashboard.DefaultSlugOfSlugLike | frontend/src/pages/AdminDashboard.js:88-90 | a title that is already lower-case without whitespace is its own default slug |
| AdminDashboard.Payload | frontend/src/pages/AdminDashboard.js:77-100 | 'tags' is the parsed tag text. A new post with an empty slug gets the default slug of its title; otherwise the slug is kept |
| AdminDashboard.PayloadKeepsFields | frontend/src/pages/AdminDashboard.js:80-83 | every other form field is submitted unchanged, and no field is added besides 'tags' and 'slug' |
| AdminDashboard.EditFormFields | frontend/src/pages/AdminDashboard.js:102-115 | the edit form has the fields of the empty form and shows the post's title, slug and published flag |
| AdminDashboard.EditFormOptional | frontend/src/pages/AdminDashboard.js:102-115 | in the edit form, a missing summary, author, category or image becomes "", and the tags are joined with ', ' |
| AdminDashboard.EditSubmitRoundTrip | frontend/src/pages/AdminDashboard.js:82 | opening a post with plain tags and saving it unchanged sends back the same tag list and slug |
| AdminDashboard.Dashboard.constructor | frontend/src/pages/AdminDashboard.js:10-23 | the form starts empty, with no post being edited and the form hidden |
| AdminDashboard.Dashboard.HandleChange | frontend/src/pages/AdminDashboard.js:44-50 | a checkbox writes its checked state, any other input its value, and every other field is kept |
| AdminDashboard.Dashboard.HandleEdit | frontend/src/pages/AdminDashboard.js:102-115 | the form holds the post's edit form, the post is being edited and the form is shown |
| AdminDashboard.Dashboard.ResetForm | frontend/src/pages/AdminDashboard.js:129-143 | all nine fields return to their defaults, no post is being edited and the form is hidden |
| AdminDashboard.Dashboard.HandleSubmit | frontend/src/pages/AdminDashboard.js:77-100 | the body sent is the payload of the form, as an update of the edited post or a new post. A saved request resets the form; a failed one leaves it as it was |
| PostEditor.Spread | cms-frontend/src/pages/admin/PostEditor.js:229-230 | the spread request holds exactly the form's fields and values |
| PostEditor.PublishRequest | cms-frontend/src/pages/admin/PostEditor.js:229-234 | the publish request carries the chosen content, status 'published' and the selected tags |
| PostEditor.PublishRequestKeepsFields | cms-frontend/src/pages/admin/PostEditor.js:229-234 | the publish request keeps every field except content, status and tags, and adds nothing else |
| PostEditor.HandlePublish | cms-frontend/src/pages/admin/PostEditor.js:195-234 | publishing stops iff title or slug is empty. Otherwise it is refused iff the chosen content trims to "" or '<p></p>'. A publish request carries that content, status 'published' and the selected tags |
| PostEditor.DrawnAppend | cms-frontend/src/pages/admin/PostEditor.js:757-762 | one more draw adds exactly that name to the drawn set |
| PostEditor.SelectTagNames | cms-frontend/src/pages/admin/PostEditor.js:754-762 | 3 to 5 draws give 1 to that many names, with no duplicates, holding exactly the drawn names and starting with the first draw |
| PostEditor.RowNames | cms-frontend/src/pages/admin/PostEditor.js:776 | the names of the tag rows, in order |
| PostEditor.SelectedTagListNames | cms-frontend/src/pages/admin/PostEditor.js:765-776 | a name is in the final tag list iff it was selected |
| PostEditor.SelectedTagListNoDuplicates | cms-frontend/src/pages/admin/PostEditor.js:765-776 | with unique stored tag names the final tag list has no duplicates |
| PostEditor.MediaOfKind | cms-frontend/src/pages/admin/PostEditor.js:305-328 | the list keeps exactly the media whose lower-cased filename contains one of the extensions |
| PostEditor.WordMatchesDoc | cms-frontend/src/pages/admin/PostEditor.js:317-320 | the Word list is the list of names containing '.doc'; the '.docx' test adds nothing |
| PostEditor.KindsOverlap | cms-frontend/src/pages/admin/PostEditor.js:314-328 | the kinds overlap: an entry whose lower-cased name contains both '.pdf' and '.zip' (e.g. 'notes.pdf.zip') is listed both as a PDF and as a download |
| MediaLibraryPicker.MainTypeOf | cms-frontend/src/components/MediaLibraryPicker.js:72 | the main type of `main/sub` is `main` |
| MediaLibraryPicker.AllowedMedia | cms-frontend/src/components/MediaLibraryPicker.js:69-75 | the filter is skipped when `allowedTypes` is empty or holds 'all'. Otherwise it keeps exactly the items whose main type is allowed, in order |
| MediaLibraryPicker.SearchMedia | cms-frontend/src/components/MediaLibraryPicker.js:121-124 | it keeps exactly the items whose lower-cased title or alt text contains the lower-cased term |
| MediaLibraryPicker.SearchEmptyTerm | cms-frontend/src/components/MediaLibraryPicker.js:121-124 | with an empty term it keeps exactly the items that have a title or alt text |
| MediaLibraryPicker.SearchIgnoresTermCase | cms-frontend/src/components/MediaLibraryPicker.js:122-123 | searching for a term and for its lower-case form gives the same items |
| MediaLibraryPicker.FilterOptions | cms-frontend/src/components/MediaLibraryPicker.js:126-143 | 'all' comes first. image, video, audio and document are each present iff allowed. Options come in that fixed order with their fixed captions |
| MediaLibraryPicker.Picker.constructor | cms-frontend/src/components/MediaLibraryPicker.js:41-61 | the selection starts as the `selectedMedia` prop and the media list is the empty array |
| MediaLibraryPicker.Picker.FetchMedia | cms-frontend/src/components/MediaLibraryPicker.js:63-83 | the new list and the error toast are those of `Fetched` on the old list and the answer |
| MediaLibraryPicker.Fetched | cms-frontend/src/components/MediaLibraryPicker.js:63-83 | the toast shows iff the type filter is active and the answer is the backend's object, and then the list is kept. An array answer is replaced by its allowed items, and without a filter the answer itself becomes the list |
| MediaLibraryPicker.EnvelopeNeverListed | cms-frontend/src/components/MediaLibraryPicker.js:66-83 | the backend's object answer never reaches the screen: under a type filter the fetch fails and the rendered list is unchanged, and without one the render has nothing to list |
| MediaLibraryPicker.ImagePickerStaysEmpty | cms-frontend/src/pages/admin/PostEditor.js:1318-1327 | the picker the post editor opens, for images only, stays empty with the backend's answer |
| MediaLibraryPicker.Picker.HandleMediaSelect | cms-frontend/src/components/MediaLibraryPicker.js:103-107 | clicking selects the item only when `maxSelection` is 1; otherwise the selection is kept |
| MediaLibraryPicker.Picker.HandleConfirmSelection | cms-frontend/src/components/MediaLibraryPicker.js:109-114 | the selection is handed on, and the dialog closes, iff something is selected |
| MediaLibraryPicker.Picker.HandleClose | cms-frontend/src/components/MediaLibraryPicker.js:116-119 | cancelling restores the selection to the prop and closes |
| PostPage.RemoveFirst | cms-frontend/src/pages/public/PostPage.js:133-136 | an absent slug leaves the list unchanged. A present one is removed exactly once, so the list loses one element and its multiset loses exactly that slug |
| PostPage.RemoveFirstSplicesFirst | cms-frontend/src/pages/public/PostPage.js:133-136 | the occurrence removed is the first one (`indexOf`, then `splice(index, 1)`): at the earliest index holding the slug, the result is the list before it followed by the list after it |
| PostPage.RemoveFirstAppended | cms-frontend/src/pages/public/PostPage.js:133-141 | removing a slug just appended to a list without it restores the list |
| PostPage.InitialConsistent | cms-frontend/src/pages/public/PostPage.js:67-79 | when the stored list holds the slug at most once, the opening state agrees with it. The count is non-negative iff the view count is missing or non-negative |
| PostPage.ToggleLike | cms-frontend/src/pages/public/PostPage.js:129-145 | every call flips `liked`. A like appends the slug and adds 1. An unlike splices out the slug's first occurrence (RemoveFirst) and subtracts 1, never going below 0 |
| PostPage.ToggleKeepsConsistent | cms-frontend/src/pages/public/PostPage.js:129-145 | when the slug is stored at most once and `liked` matches its presence, a toggle keeps it so |
| PostPage.ClicksKeepConsistent | cms-frontend/src/pages/public/PostPage.js:129-145 | from the opening state, any number of clicks leaves the button agreeing with the stored list |
| PostPage.LikeThenUnlike | cms-frontend/src/pages/public/PostPage.js:129-145 | liking then unliking returns to the starting state |
| PostPage.Navigated | cms-frontend/src/pages/public/PostPage.js:60-79 | when the slug changes on a mounted page, the button is liked iff it was liked or the new slug is stored. The stored list is unchanged, and the count is reloaded from the new post's view count |
| PostPage.NavigateFromUnliked | cms-frontend/src/pages/public/PostPage.js:60-79 | leaving a post that is not liked gives exactly the state of opening the new post afresh |
| PostPage.StaleLikeAfterNavigate | cms-frontend/src/pages/public/PostPage.js:60-71 | leaving a liked post for one that is not stored leaves the button liked, which disagrees with the stored list. The next click unlikes, splices nothing out of the list, and still lowers the count |
| PostPage.PostView.constructor | cms-frontend/src/pages/public/PostPage.js:67-79 | the like state starts as the initial like state, and the comment draft is empty |
| PostPage.PostView.Navigate | cms-frontend/src/pages/public/PostPage.js:60-79 | following a link to another post (the `post/:slug` route keeps the page mounted) sets the slug, makes the like state `Navigated` of the old one, and replaces the comments; the draft is kept |
| PostPage.PostView.HandleLike | cms-frontend/src/pages/public/PostPage.js:129-145 | the like state becomes its toggle |
| PostPage.PostView.HandleCommentSubmit | cms-frontend/src/pages/public/PostPage.js:172-186 | it sends iff the content is not blank. A sent comment is always prepended and the draft reset: the server's reply, or after a failed request a stand-in with the draft's name and content. Blank content changes nothing |
| PostPage.AddCommentResult | cms-frontend/src/services/api.js:177-190 | the reply is the saved comment; a failed request resolves to a stand-in with the draft's name and content and the clock reading as its id |
| AuthContext.HasRoleMonotone | cms-frontend/src/contexts/AuthContext.js:81 | a role found in a list is found in every larger list |
| AuthContext.FlagsNested | cms-frontend/src/contexts/AuthContext.js:76-100 | each flag is the `hasRole` check for its roles. isAdmin implies isEditor, which implies isAuthor, which implies isAuthenticated |
| AuthContext.Session.constructor | cms-frontend/src/contexts/AuthContext.js:16-17 | there is no user at start, and storage is as found |
| AuthContext.Session.Login | cms-frontend/src/contexts/AuthContext.js:39-55 | success iff the call answered. On success the user is set and token and user are stored. A 401 (wrong credentials, cms-backend/routes.py:29) clears both stored entries and leaves nobody signed in, through the interceptor. Any other failure changes nothing |
| AuthContext.Session.Logout | cms-frontend/src/contexts/AuthContext.js:69-74 | the user, the stored token and the stored user are cleared |
| AuthContext.Session.UpdateUser | cms-frontend/src/contexts/AuthContext.js:84-87 | the user and the stored user become the updated user |
| AuthContext.Session.Reject | cms-frontend/src/services/api.js:22-31 | the response interceptor: a rejected 401 clears the stored token and user and leaves nobody signed in after the redirect to /login; any other rejection changes nothing |
| AuthContext.Session.InitializeAuth | cms-frontend/src/contexts/AuthContext.js:23-37 | with a stored token and user, the answer of /auth/me becomes the user and storage is kept. This includes its `null` for a token whose user row is gone (cms-backend/routes.py:57-61), which leaves storage set and nobody signed in. A rejected call clears the user and both stored entries. Without both entries nothing changes |
| CategoryColors.JsRem | cms-frontend/src/utils/categoryColors.js:5 | JavaScript `%` agrees with the mathematical remainder on non-negative numbers; on negative ones it lies in (-b, 0] |
| CategoryColors.JsRemOdd | cms-frontend/src/utils/categoryColors.js:5 | JavaScript `%` is odd in its first operand |
| CategoryColors.GenerateRandomColor | cms-frontend/src/utils/categoryColors.js:25-49 | for seeds ≥ 0 the lightnesses lie in 85..94, 15..39 and 45..59, and the saturations in their ranges. The hover text is white iff the hover lightness is below 50 |
| CategoryColors.NegativeSeedOutOfRange | cms-frontend/src/utils/categoryColors.js:27-30 | a negative seed can push the background lightness below 85 (seed -6 gives 76) |
| CategoryColors.NonNegativeIdUsesPalette | cms-frontend/src/utils/categoryColors.js:51-62 | a non-negative id (0 included) gets palette entry id mod 18 |
| CategoryColors.GeneratorUnreachable | cms-frontend/src/utils/categoryColors.js:56-61 | no integer id reaches the generator. A negative id gives `undefined` unless it is a multiple of 18 |
| CategoryColors.CongruentIdsShareColor | cms-frontend/src/utils/categoryColors.js:54-57 | non-negative ids congruent mod 18 get the same colour |
| PdfViewer.PageCount | cms-frontend/src/components/PDFViewer.js:46 | the page count is at least 1, and is the document's when that is known and positive |
| PdfViewer.ChangedPage | cms-frontend/src/components/PDFViewer.js:45-47 | the new page lies in [1, page count]. It moves by exactly the offset when the target is in range, and is clamped to the nearer end otherwise |
| PdfViewer.EnabledButtonsMoveOnePage | cms-frontend/src/components/PDFViewer.js:113 | from a valid page an enabled previous/next button moves exactly one page, and a disabled one leaves the page where it is |
| PdfViewer.NextThenPrev | cms-frontend/src/components/PDFViewer.js:125 | an enabled next followed by previous returns to the page |
| PdfViewer.Viewer.constructor | cms-frontend/src/components/PDFViewer.js:27-30 | no page count, page 1, loading, no error |
| PdfViewer.Viewer.OnLoadSuccess | cms-frontend/src/components/PDFViewer.js:33-37 | the page count is set, loading and the error are cleared, and the page number is kept |
| PdfViewer.Viewer.OnLoadError | cms-frontend/src/components/PDFViewer.js:39-43 | the error message is set and loading cleared |
| PdfViewer.Viewer.ChangePage | cms-frontend/src/components/PDFViewer.js:45-47 | the page becomes the clamped target, so it is in range afterwards |
| ChatHeader.Toggle | frontend/src/components/ChatHeader.js:8-17 | from closed the chat opens unminimised. When open, `isMinimized` flips and the chat stays open |
| ChatHeader.Close | frontend/src/components/ChatHeader.js:19-22 | closed and not minimised, from any state |
| ChatHeader.FlipMinimized | frontend/src/components/ChatHeader.js:55 | the minimise button, only shown while open, flips `isMinimized` and keeps the chat open |
| ChatHeader.TransitionsKeepValid | frontend/src/components/ChatHeader.js:45 | toggle, close and the minimise button preserve "minimised implies open" |
| ChatHeader.ToggleTwiceOpen | frontend/src/components/ChatHeader.js:8-13 | from an open state two toggles return to it, and a toggle acts like the minimise button |
| ChatHeader.ToggleTwiceClosed | frontend/src/components/ChatHeader.js:8-17 | from closed two toggles leave the chat open and minimised |
| ChatHeader.Chat.constructor | frontend/src/components/ChatHeader.js:5-6 | closed and not minimised |
| ChatHeader.Chat.ToggleChat | frontend/src/components/ChatHeader.js:8-17 | the state becomes its toggle |
| ChatHeader.Chat.CloseChat | frontend/src/components/ChatHeader.js:19-22 | the state becomes closed and unminimised |
| ChatHeader.Chat.MinimizeButton | frontend/src/components/ChatHeader.js:55 | while open, `isMinimized` flips |

## Left out

- HTTP, JSON and JWT are not modelled. Request bodies become records of optional fields, responses become status values, and the caller is passed in as the JWT's user id.
- Password hashing, `slugify`, `secure_filename`, `uuid4`, the clock and `Math.random` are parameters.
- Saving, removing and sizing files is not modelled. An upload only records its metadata row.
- Pagination, `order_by` and the listing/search routes are not modelled. Tables keep insertion order, and "newest first" is proved under the hypothesis that the table is stored oldest first.
- `get_post`'s `view_count += 1` is not modelled. The public read routes are outside the modelled handlers.
- ORM cascades are not modelled.
- Four commit-time unique-constraint failures are modelled, each as a failure that stores nothing: a seed clashing with a unique key in `create_tables`, an e-mail already used by another user in `update_user` (500), and a slug another post already has in the legacy `create_post` and `update_post` (500). The `unique=True` constraint on `Tag.slug` (cms-backend/app_unified.py:132) is not modelled: the tag table keeps no slug-uniqueness invariant, so a new tag whose `slugify(name)` equals a stored tag's slug, or another new tag's, is stored by `CmsRoutes.EnsureTags`, `CmsRoutes.CreatePost` and `CmsRoutes.UpdatePost`, where the source fails at commit with a 500 and stores nothing. A tag name listed twice in one request, which repeats a `post_tags` primary key (cms-backend/app_unified.py:146-149) and also fails at commit, is not modelled either.
- A handler that raises on a missing JSON key inside its `try` is modelled as its 500 response.
- Case handling and whitespace are ASCII only. Python's and JavaScript's Unicode case mapping and whitespace classes are wider.
- app.py's `delete_comment`, `delete_post`, `delete_image`, `get_images` and `login` are not modelled: they are plain deletes or reads with no rule beyond the lookup.
- `register` in the CMS backend accepts any role, including 'admin', from the request; the model keeps this as written.
- The default-slug suffix loop in `create_post` is modelled through `CmsModels.GenerateSlug`. On update the retitle branch is dead code: the title is compared after it has been assigned. The model therefore never changes the slug.
- AdminDashboard's `fetchPosts`, `handleDelete`, `handleLogout`, the rich-text and image-upload callbacks and navigation are not modelled: they only set one field or call the API.
- PostEditor: the rest of the sample generator is not modelled (random title, content and HTML), nor the Draft.js conversion, the API calls, the toasts or navigation. The random draws enter as parameters (a count roll below 3 and picks below 16).
- CmsRoutes.ApplyUserPatch: a key sent with JSON `null` is treated like an absent key, so the old value is kept. In the source `data.get(k, old)` writes `None`: it clears the nullable columns (first_name, last_name, bio, website, avatar_url, and for an admin role and is_active), and a null e-mail fails the NOT NULL constraint at commit with a 500. Request fields are two-valued (absent or a value) throughout the model.
- CmsRoutes.ApplyPostPatch: a key sent with JSON `null` is treated like an absent key, so the old value is kept. In the source it clears the nullable columns (featured_image, category_id, the meta fields, excerpt, content, status, comment_status), and a null title fails the NOT NULL constraint at commit with a 500. A `"tags": null` raises a TypeError in the tag loop (cms-backend/routes.py:347-349), so the source answers 500 and commits nothing, where the model keeps the old tags and answers 200.
- LegacyApp.ApplyPostUpdate: a key sent with JSON `null` is treated like an absent key, so the old value is kept. In the source it clears summary, author, category, image_url and published, and a null title, slug or content fails the NOT NULL constraint at commit with a 500.
- PostEditor.SelectTagNames: states the set of selected names and the first one, not the full first-occurrence order.
- MediaLibraryPicker: the effect that resyncs the selection from the prop, `formatFileSize` (floating point), `getFileIcon` and the loading flag are not modelled. The `type` query parameter is not modelled: the backend reads `file_type`, so it filters nothing.
- PostPage: fetching the post, categories, tags and comments is not modelled. A failed comment request is the `None` answer, for which `addComment` builds a stand-in; its e-mail and creation time are not modelled. The stored like list is a field, not JSON in localStorage. Another tab writing the same list concurrently can break the at-most-once invariant, which the model assumes.
- PostPage.ClicksKeepConsistent: holds from a freshly opened page only. The `post/:slug` route keeps the page mounted when a recent-post link is followed (cms-frontend/src/pages/public/PostPage.js:688), and the effect never turns `liked` off, so after leaving a liked post for an unliked one the button and the stored list disagree (PostPage.StaleLikeAfterNavigate).
- AuthContext: `register`, the toasts, the loading flag and the error messages are not modelled. How each API call settles is a parameter (`Answer`). The 401 interceptor is modelled for `login` and `initializeAuth` only. Its redirect to /login is modelled as the reloaded app with nobody signed in; the navigation itself is not modelled.
- CategoryColors: the hue, which is floating point, and the HSL string formatting are not modelled. Ids are integers; `null`, `undefined` and non-integer ids are not modelled except as the falsy id 0.
- CategoryColors.GenerateRandomColor: states the ranges for non-negative seeds only. For a negative seed `NegativeSeedOutOfRange` shows that the ranges fail.
- CategoryColors.JsRem: for a negative dividend, states the range of the remainder, not its exact value.
- PdfViewer: zoom (floating-point scale), download and full-screen are not modelled. `OnLoadSuccess` keeps the page number, as the source does, so a shorter new document can leave the page out of range until the next `changePage`.

=== FILE: admin_dashboard.dfy ===
/** The post form of the first blog's admin dashboard (frontend/src/pages/AdminDashboard.js):
    the form's field values, the post being edited and whether the form is shown. The tag
    list travels as one text field, joined with ", " for editing and parsed back on
    submit. */
module AdminDashboard {
  import opened Wrappers
  import opened Text
  import opened Collections
  import LegacyApp

  /** A form value: text, a checkbox state, or the parsed tag list of a submission. */
  datatype FieldValue = Text(text: string) | Flag(on: bool) | Names(names: seq<string>)

  type Form = map<string, FieldValue>

  /** The text in field `name`, "" when the field is missing or not text. */
  function TextOf(form: Form, name: string): string {
    if name in form && form[name].Text? then form[name].text else ""
  }

  const TextFields: seq<string> := ["title", "slug", "content", "summary", "author", "category", "tags", "image_url"]

  /** The empty form: eight empty text fields and an unticked 'published' box. */
  function EmptyForm(): (f: Form)
    ensures f.Keys == (set n | n in TextFields) + {"published"}
    ensures forall n :: n in TextFields ==> f[n] == Text("")
    ensures f["published"] == Flag(false)
  {
    map["title" := Text(""), "slug" := Text(""), "content" := Text(""), "summary" := Text(""),
        "author" := Text(""), "category" := Text(""), "tags" := Text(""), "image_url" := Text(""),
        "published" := Flag(false)]
  }

  /** The trimmed pieces of a split. */
  function TrimAll(parts: seq<string>): (r: seq<string>)
    ensures |r| == |parts| && forall k :: 0 <= k < |parts| ==> r[k] == Trim(parts[k])
  {
    seq(|parts|, k requires 0 <= k < |parts| => Trim(parts[k]))
  }

  predicate NonEmpty(t: string) { t != "" }

  /** `tags.split(',').map(tag => tag.trim()).filter(tag => tag)`. */
  function ParseTags(s: string): (r: seq<string>)
    ensures forall k :: 0 <= k < |r| ==> r[k] != "" && !IsSpace(r[k][0]) && !IsSpace(r[k][|r[k]| - 1])
  {
    Filter(TrimAll(Split(s, ',')), NonEmpty)
  }

  /** `tags.join(', ')`, the text the edit form shows. */
  function ShowTags(tags: seq<string>): string {
    Join(tags, ", ")
  }

  /** A tag that survives the edit form unchanged: non-empty, comma-free, already trimmed. */
  predicate PlainTag(t: string) {
    t != "" && ',' !in t && Trim(t) == t
  }

  /** Space-prefixing plain tags puts no comma in any part, and trimming the parts gives
      the tags back. */
  lemma TrimSpacePrefixed(tags: seq<string>)
    requires |tags| >= 1 && forall k :: 0 <= k < |tags| ==> PlainTag(tags[k])
    ensures forall k :: 0 <= k < |tags| ==> ',' !in SpacePrefixed(tags)[k]
    ensures TrimAll(SpacePrefixed(tags)) == tags
  {
    var sp := SpacePrefixed(tags);
    forall k | 0 <= k < |tags| ensures ',' !in sp[k] && Trim(sp[k]) == tags[k] {
      if k >= 1 {
        assert sp[k] == " " + tags[k];
        TrimSpacePrefix(tags[k]);
      }
    }
    var t := TrimAll(sp);
    assert |t| == |tags|;
    assert forall k :: 0 <= k < |tags| ==> t[k] == tags[k];
  }

  /** Showing a list of plain tags in the edit form and parsing the text back gives the
      list again. */
  lemma ParseShowTags(tags: seq<string>)
    requires forall k :: 0 <= k < |tags| ==> PlainTag(tags[k])
    ensures ParseTags(ShowTags(tags)) == tags
  {
    if |tags| == 0 {
      assert Split("", ',') == [""];
      assert TrimAll([""]) == [""];
    } else {
      JoinSpaced(tags);
      TrimSpacePrefixed(tags);
      SplitJoin(SpacePrefixed(tags), ',');
      FilterAll(tags, NonEmpty);
    }
  }

  /** The slug a new post gets when none was typed: the lower-cased title with every run
      of whitespace turned into '-'. */
  function DefaultSlug(title: string): (r: string)
    ensures NoSpace(r) && NoUpper(r)
  {
    LowerNoUpper(title);
    ReplaceSpaceRunsNoSpace(Lower(title), '-');
    ReplaceSpaceRunsNoUpper(Lower(title), '-');
    ReplaceSpaceRuns(Lower(title), '-')
  }

  /** The legacy backend's slug normalisation leaves a default slug as it is. */
  lemma DefaultSlugIsNormal(title: string)
    ensures LegacyApp.NormaliseSlug(DefaultSlug(title)) == DefaultSlug(title)
  {
    var s := DefaultSlug(title);
    assert forall i :: 0 <= i < |s| ==> LowerChar(s[i]) == s[i] && s[i] != ' ';
  }

  /** A title that is already lower-case without whitespace is its own default slug. */
  lemma DefaultSlugOfSlugLike(title: string)
    requires NoSpace(title) && NoUpper(title)
    ensures DefaultSlug(title) == title
  {
    assert Lower(title) == title;
    ReplaceSpaceRunsNoOp(title, '-');
  }

  /** A new post whose slug field is empty gets the default slug. */
  predicate NeedsDefaultSlug(form: Form, editing: bool) {
    !editing && TextOf(form, "slug") == ""
  }

  /** The form with the tag list in place of the tag text and, when given, a new slug. */
  function Submitted(form: Form, tags: seq<string>, slug: Option<string>): Form {
    var withTags := form["tags" := Names(tags)];
    if slug.Some? then withTags["slug" := Text(slug.value)] else withTags
  }

  /** Replacing 'tags' and perhaps 'slug' keeps every other field and adds none. */
  lemma SubmittedKeepsFields(form: Form, tags: seq<string>, slug: Option<string>, n: string)
    ensures n in form && n != "tags" && n != "slug" ==> n in Submitted(form, tags, slug) && Submitted(form, tags, slug)[n] == form[n]
    ensures n in Submitted(form, tags, slug) ==> n in form || n == "tags" || n == "slug"
  {
  }

  /** The body `handleSubmit` sends: the form with the tags parsed and, for a new post
      with no slug, the default slug. */
  function Payload(form: Form, editing: bool): (r: Form)
    ensures "tags" in r && r["tags"] == Names(ParseTags(TextOf(form, "tags")))
    ensures NeedsDefaultSlug(form, editing) ==> "slug" in r && r["slug"] == Text(DefaultSlug(TextOf(form, "title")))
    ensures !NeedsDefaultSlug(form, editing) && "slug" in form ==> "slug" in r && r["slug"] == form["slug"]
  {
    Submitted(form, ParseTags(TextOf(form, "tags")),
      if NeedsDefaultSlug(form, editing) then Some(DefaultSlug(TextOf(form, "title"))) else None)
  }

  /** Every other field of the form is submitted as it is, and no field is added
      besides 'tags' and 'slug'. */
  lemma PayloadKeepsFields(form: Form, editing: bool, n: string)
    ensures n in form && n != "tags" && n != "slug" ==> n in Payload(form, editing) && Payload(form, editing)[n] == form[n]
    ensures n in Payload(form, editing) ==> n in form || n == "tags" || n == "slug"
  {
    SubmittedKeepsFields(form, ParseTags(TextOf(form, "tags")),
      if NeedsDefaultSlug(form, editing) then Some(DefaultSlug(TextOf(form, "title"))) else None, n);
  }

  /** A post as the API lists it. */
  datatype ListedPost = ListedPost(
    id: int, title: string, slug: string, content: string,
    summary: Option<string>, author: Option<string>, category: Option<string>,
    tags: Option<seq<string>>, imageUrl: Option<string>, published: bool)

  /** The form `handleEdit` fills in. */
  function EditForm(post: ListedPost): Form {
    map["title" := Text(post.title), "slug" := Text(post.slug), "content" := Text(post.content),
        "summary" := Text(post.summary.GetOr("")), "author" := Text(post.author.GetOr("")),
        "category" := Text(post.category.GetOr("")), "tags" := Text(ShowTags(post.tags.GetOr([]))),
        "image_url" := Text(post.imageUrl.GetOr("")), "published" := Flag(post.published)]
  }

  /** The edit form has exactly the fields of the empty form, and shows the post's title,
      slug and published flag as they are. */
  lemma EditFormFields(post: ListedPost)
    ensures EditForm(post).Keys == EmptyForm().Keys
    ensures EditForm(post)["title"] == Text(post.title) && EditForm(post)["slug"] == Text(post.slug)
    ensures EditForm(post)["published"] == Flag(post.published)
  {
  }

  /** In the edit form, a field the post lacks shows as "", and the tag list shows joined
      with ", ". */
  lemma EditFormOptional(post: ListedPost)
    ensures TextOf(EditForm(post), "summary") == post.summary.GetOr("")
    ensures TextOf(EditForm(post), "author") == post.author.GetOr("")
    ensures TextOf(EditForm(post), "category") == post.category.GetOr("")
    ensures TextOf(EditForm(post), "image_url") == post.imageUrl.GetOr("")
    ensures TextOf(EditForm(post), "tags") == ShowTags(post.tags.GetOr([]))
  {
  }

  /** Opening a post for editing and saving it unchanged sends back its tag list, when
      every tag is plain, and keeps its slug. */
  lemma EditSubmitRoundTrip(post: ListedPost)
    requires forall k :: 0 <= k < |post.tags.GetOr([])| ==> PlainTag(post.tags.GetOr([])[k])
    ensures Payload(EditForm(post), true)["tags"] == Names(post.tags.GetOr([]))
    ensures Payload(EditForm(post), true)["slug"] == Text(post.slug)
  {
    EditFormFields(post);
    EditFormOptional(post);
    ParseShowTags(post.tags.GetOr([]));
  }

  /** The dashboard's form state. */
  class Dashboard {
    var formData: Form
    var editingPost: Option<ListedPost>
    var showForm: bool

    constructor ()
      ensures formData == EmptyForm() && editingPost.None? && !showForm
    {
      formData := EmptyForm();
      editingPost := None;
      showForm := false;
    }

    /** `handleChange`: a checkbox writes its checked state, any other input its value;
        the other fields are kept. */
    method HandleChange(name: string, value: string, inputType: string, checked: bool)
      modifies this`formData
      ensures formData.Keys == old(formData).Keys + {name}
      ensures formData[name] == if inputType == "checkbox" then Flag(checked) else Text(value)
      ensures forall n :: n in old(formData) && n != name ==> formData[n] == old(formData)[n]
    {
      formData := formData[name := if inputType == "checkbox" then Flag(checked) else Text(value)];
    }

    /** `handleEdit`: load a post into the form and show it. */
    method HandleEdit(post: ListedPost)
      modifies this
      ensures formData == EditForm(post) && editingPost == Some(post) && showForm
    {
      editingPost := Some(post);
      formData := EditForm(post);
      showForm := true;
    }

    /** `resetForm`: empty the form, forget the edited post, hide the form. */
    method ResetForm()
      modifies this
      ensures formData == EmptyForm() && editingPost.None? && !showForm
    {
      formData := EmptyForm();
      editingPost := None;
      showForm := false;
    }

    /** `handleSubmit`: build the body, send it as an update of the edited post or as a
        new post, and reset the form when the request succeeded (`saved`). */
    method HandleSubmit(saved: bool) returns (body: Form, updateOf: Option<int>)
      modifies this
      ensures body == Payload(old(formData), old(editingPost).Some?)
      ensures updateOf == if old(editingPost).Some? then Some(old(editingPost).value.id) else None
      ensures saved ==> formData == EmptyForm() && editingPost.None? && !showForm
      ensures !saved ==> formData == old(formData) && editingPost == old(editingPost) && showForm == old(showForm)
    {
      body := Payload(formData, editingPost.Some?);
      updateOf := if editingPost.Some? then Some(editingPost.value.id) else None;
      if saved {
        ResetForm();
      }
    }
  }
}

=== FILE: auth_context.dfy ===
/** The CMS frontend's session (cms-frontend/src/contexts/AuthContext.js): the signed-in
    user, the token and user copy kept in the browser's storage, and the role checks the
    pages use. */
module AuthContext {
  import opened Wrappers

  /** The signed-in user as the API returns it; only the role matters here. */
  datatype AuthUser = AuthUser(id: int, username: string, role: string)

  /** The argument of `hasRole`: one role name, or a list of them. */
  datatype RequiredRoles = One(role: string) | AnyOf(roles: seq<string>)

  /** `hasRole`: false when nobody is signed in; otherwise the role equals the one
      required, or is in the list. */
  function HasRole(user: Option<AuthUser>, required: RequiredRoles): bool {
    user.Some? &&
    match required
    case One(r) => user.value.role == r
    case AnyOf(rs) => user.value.role in rs
  }

  /** Allowing more roles never turns a passing check into a failing one. */
  lemma HasRoleMonotone(user: Option<AuthUser>, roles: seq<string>, more: seq<string>)
    requires forall r :: r in roles ==> r in more
    ensures HasRole(user, AnyOf(roles)) ==> HasRole(user, AnyOf(more))
  {
  }

  predicate IsAuthenticated(user: Option<AuthUser>) { user.Some? }

  predicate IsAdmin(user: Option<AuthUser>) { user.Some? && user.value.role == "admin" }

  predicate IsEditor(user: Option<AuthUser>) {
    user.Some? && (user.value.role == "editor" || user.value.role == "admin")
  }

  predicate IsAuthor(user: Option<AuthUser>) {
    user.Some? && user.value.role in ["author", "editor", "admin"]
  }

  /** The flags are nested (every admin is an editor, every editor an author, every
      author signed in), and each is the matching `hasRole` check. */
  lemma FlagsNested(user: Option<AuthUser>)
    ensures IsAdmin(user) ==> IsEditor(user)
    ensures IsEditor(user) ==> IsAuthor(user)
    ensures IsAuthor(user) ==> IsAuthenticated(user)
    ensures IsAdmin(user) == HasRole(user, One("admin"))
    ensures IsEditor(user) == HasRole(user, AnyOf(["editor", "admin"]))
    ensures IsAuthor(user) == HasRole(user, AnyOf(["author", "editor", "admin"]))
  {
  }

  /** What the login endpoint answers on success. */
  datatype LoginResponse = LoginResponse(accessToken: string, user: AuthUser)

  /** How an API call settles: with the response body, or rejected, where `unauthorized`
      says whether the server answered 401. */
  datatype Answer<T> = Answered(body: T) | Rejected(unauthorized: bool)

  /** The session state: the user and the two entries of the browser's storage. */
  class Session {
    var user: Option<AuthUser>
    var storedToken: Option<string>
    var storedUser: Option<AuthUser>

    constructor (storedToken: Option<string>, storedUser: Option<AuthUser>)
      ensures user.None? && this.storedToken == storedToken && this.storedUser == storedUser
    {
      user := None;
      this.storedToken := storedToken;
      this.storedUser := storedUser;
    }

    /** The API client's response interceptor on a rejected call: a 401 removes the
        stored token and user and sends the browser to /login, which reloads the app
        with nobody signed in; any other rejection changes nothing. */
    method Reject(unauthorized: bool)
      modifies this
      ensures unauthorized ==> user.None? && storedToken.None? && storedUser.None?
      ensures !unauthorized ==> user == old(user) && storedToken == old(storedToken) && storedUser == old(storedUser)
    {
      if unauthorized {
        storedToken := None;
        storedUser := None;
        user := None;
      }
    }

    /** `login`, given how the endpoint's call settled. A success stores the token and
        the user and signs the user in. A 401 (wrong credentials) goes through the
        interceptor, which clears the storage before `login`'s own catch runs; any other
        failure changes nothing. */
    method Login(response: Answer<LoginResponse>) returns (success: bool)
      modifies this
      ensures success <==> response.Answered?
      ensures response.Answered? ==>
        user == Some(response.body.user) &&
        storedToken == Some(response.body.accessToken) &&
        storedUser == Some(response.body.user)
      ensures response == Rejected(true) ==> user.None? && storedToken.None? && storedUser.None?
      ensures response == Rejected(false) ==>
        user == old(user) && storedToken == old(storedToken) && storedUser == old(storedUser)
    {
      if response.Rejected? {
        Reject(response.unauthorized);
        return false;
      }
      storedToken := Some(response.body.accessToken);
      storedUser := Some(response.body.user);
      user := Some(response.body.user);
      success := true;
    }

    /** `logout`: clear the storage and the user. */
    method Logout()
      modifies this
      ensures user.None? && storedToken.None? && storedUser.None?
    {
      storedToken := None;
      storedUser := None;
      user := None;
    }

    /** `updateUser`: replace the user and its stored copy. */
    method UpdateUser(updated: AuthUser)
      modifies this`user, this`storedUser
      ensures user == Some(updated) && storedUser == Some(updated)
    {
      user := Some(updated);
      storedUser := Some(updated);
    }

    /** `initializeAuth`: with a token and a user stored, ask the API who is signed in.
        The endpoint answers the user, or `null` when the token's user no longer exists;
        either is taken as the user and the storage is kept. A rejected call logs out
        (after the interceptor, on a 401, has already cleared the storage). Without both
        entries nothing changes. */
    method InitializeAuth(current: Answer<Option<AuthUser>>)
      modifies this
      ensures old(storedToken).Some? && old(storedUser).Some? && current.Answered? ==>
        user == current.body && storedToken == old(storedToken) && storedUser == old(storedUser)
      ensures old(storedToken).Some? && old(storedUser).Some? && current.Rejected? ==>
        user.None? && storedToken.None? && storedUser.None?
      ensures !(old(storedToken).Some? && old(storedUser).Some?) ==>
        user == old(user) && storedToken == old(storedToken) && storedUser == old(storedUser)
    {
      if storedToken.Some? && storedUser.Some? {
        if current.Answered? {
          user := current.body;
        } else {
          Reject(current.unauthorized);
          Logout();
        }
      }
    }
  }
}

=== FILE: category_colors.dfy ===
/** Category colours (cms-frontend/src/utils/categoryColors.js): a fixed palette of 18
    colour sets indexed by category id, and a seeded generator for colours outside it.
    JavaScript's `%` keeps the sign of the dividend, which is spelled out here. */
module CategoryColors {
  import opened Wrappers

  /** A background, a text colour, a hover background and a hover text colour. */
  datatype ColorSet = ColorSet(bg: string, text: string, hover: string, hoverText: string)

  const Palette: seq<ColorSet> := [
    ColorSet("#E3F2FD", "#0D47A1", "#1976D2", "#FFFFFF"),
    ColorSet("#F3E5F5", "#4A148C", "#7B1FA2", "#FFFFFF"),
    ColorSet("#E8F5E8", "#1B5E20", "#388E3C", "#FFFFFF"),
    ColorSet("#FFF3E0", "#E65100", "#FF9800", "#FFFFFF"),
    ColorSet("#FCE4EC", "#880E4F", "#E91E63", "#FFFFFF"),
    ColorSet("#F1F8E9", "#33691E", "#689F38", "#FFFFFF"),
    ColorSet("#E0F2F1", "#004D40", "#00695C", "#FFFFFF"),
    ColorSet("#FFF8E1", "#F57F17", "#FFC107", "#000000"),
    ColorSet("#EFEBE9", "#3E2723", "#795548", "#FFFFFF"),
    ColorSet("#F9FBE7", "#1B5E20", "#8BC34A", "#FFFFFF"),
    ColorSet("#E8EAF6", "#1A237E", "#3F51B5", "#FFFFFF"),
    ColorSet("#FFEBEE", "#B71C1C", "#F44336", "#FFFFFF"),
    ColorSet("#E1F5FE", "#01579B", "#03A9F4", "#FFFFFF"),
    ColorSet("#FFF2E5", "#FF6F00", "#FF9800", "#FFFFFF"),
    ColorSet("#F8E8FF", "#6A1B9A", "#9C27B0", "#FFFFFF"),
    ColorSet("#E8F6E8", "#2E7D32", "#4CAF50", "#FFFFFF"),
    ColorSet("#FFF0F5", "#C2185B", "#E91E63", "#FFFFFF"),
    ColorSet("#E0F7FA", "#00838F", "#00BCD4", "#FFFFFF")]

  /** JavaScript's `a % b` on integers: the remainder of division truncated toward zero,
      with the sign of `a`. */
  function JsRem(a: int, b: int): (r: int)
    requires b > 0
    ensures a >= 0 ==> r == a % b
    ensures a < 0 ==> -b < r <= 0
  {
    if a >= 0 then a % b else -((-a) % b)
  }

  /** Truncation treats a value and its negation alike. */
  lemma JsRemOdd(a: int, b: int)
    requires b > 0
    ensures JsRem(-a, b) == -JsRem(a, b)
  {
  }

  /** The integer parts of a generated colour (the hue is a fraction and is left out). */
  datatype Generated = Generated(
    random: int, bgSaturation: int, bgLightness: int, textSaturation: int,
    textLightness: int, hoverSaturation: int, hoverLightness: int, hoverText: string)

  /** `generateRandomColor`. */
  function GenerateRandomColor(seed: int): (r: Generated)
    ensures r.hoverText == (if r.hoverLightness < 50 then "#FFFFFF" else "#000000")
    ensures seed >= 0 ==> 0 <= r.random < 233280
    ensures seed >= 0 ==> 85 <= r.bgLightness <= 94 && 15 <= r.textLightness <= 39 && 45 <= r.hoverLightness <= 59
    ensures seed >= 0 ==> 20 <= r.bgSaturation <= 49 && 70 <= r.textSaturation <= 99 && 50 <= r.hoverSaturation <= 79
  {
    var random := JsRem(seed * 9301 + 49297, 233280);
    var hoverLightness := 45 + JsRem(random, 15);
    Generated(random, 20 + JsRem(random, 30), 85 + JsRem(random, 10), 70 + JsRem(random, 30),
      15 + JsRem(random, 25), 50 + JsRem(random, 30), hoverLightness,
      if hoverLightness < 50 then "#FFFFFF" else "#000000")
  }

  /** The bounds need a non-negative seed: seed -6 gives a background lightness of 76. */
  lemma NegativeSeedOutOfRange()
    ensures GenerateRandomColor(-6).bgLightness == 76
  {
    assert -6 * 9301 + 49297 == -6509;
    assert JsRem(-6509, 233280) == -6509;
    assert JsRem(-6509, 10) == -9;
  }

  /** What `getCategoryColor` returns: a palette entry, a generated colour, or
      `undefined` (a negative index into the palette). */
  datatype CategoryColor = FromPalette(colors: ColorSet) | FromGenerator(generated: Generated) | Undefined

  /** `getCategoryColor`: the first entry for a falsy id (0), otherwise the entry at the
      id's remainder by 18 while that remainder is below 18, else a generated colour. */
  function GetCategoryColor(categoryId: int): CategoryColor {
    if categoryId == 0 then FromPalette(Palette[0])
    else
      var predefinedIndex := JsRem(categoryId, |Palette|);
      if predefinedIndex < |Palette| then
        (if predefinedIndex >= 0 then FromPalette(Palette[predefinedIndex]) else Undefined)
      else FromGenerator(GenerateRandomColor(categoryId))
  }

  /** For a non-negative id the palette index is always in range, so the generator is
      never used: id 0 gets the first entry and a positive id the entry at id mod 18. */
  lemma NonNegativeIdUsesPalette(categoryId: int)
    requires categoryId >= 0
    ensures GetCategoryColor(categoryId) == FromPalette(Palette[categoryId % 18])
  {
  }

  /** No integer id reaches the generator; a negative id reads past the start of the
      palette (`undefined`) unless it is a multiple of 18. */
  lemma GeneratorUnreachable(categoryId: int)
    ensures !GetCategoryColor(categoryId).FromGenerator?
    ensures categoryId < 0 ==> (GetCategoryColor(categoryId).Undefined? <==> categoryId % 18 != 0)
  {
    if categoryId < 0 {
      assert (-categoryId) % 18 == 0 <==> categoryId % 18 == 0;
    }
  }

  /** Ids that agree modulo 18 get the same colours. */
  lemma CongruentIdsShareColor(a: int, b: int)
    requires a >= 0 && b >= 0 && a % 18 == b % 18
    ensures GetCategoryColor(a) == GetCategoryColor(b)
  {
    NonNegativeIdUsesPalette(a);
    NonNegativeIdUsesPalette(b);
  }
}

=== FILE: chat_header.dfy ===
/** The chat button of the first blog (frontend/src/components/ChatHeader.js): a window
    that is closed, open, or open and minimised. */
module ChatHeader {

  datatype ChatState = ChatState(isOpen: bool, isMinimized: bool)

  /** Only an open window can be minimised. */
  predicate Valid(s: ChatState) { s.isMinimized ==> s.isOpen }

  /** `toggleChat`: an open window is minimised or restored; a closed one opens. */
  function Toggle(s: ChatState): (r: ChatState)
    ensures !s.isOpen ==> r == ChatState(true, false)
    ensures s.isOpen ==> r.isOpen && r.isMinimized == !s.isMinimized
    ensures Valid(r)
  {
    if s.isOpen && !s.isMinimized then ChatState(s.isOpen, true)
    else if s.isOpen && s.isMinimized then ChatState(s.isOpen, false)
    else ChatState(true, false)
  }

  /** `closeChat`: closed and not minimised, from any state. */
  function Close(s: ChatState): (r: ChatState)
    ensures !r.isOpen && !r.isMinimized && Valid(r)
  {
    ChatState(false, false)
  }

  /** The minimise button flips the minimised flag; it is only shown while open. */
  function FlipMinimized(s: ChatState): (r: ChatState)
    requires s.isOpen
    ensures r.isOpen && r.isMinimized == !s.isMinimized && Valid(r)
  {
    ChatState(s.isOpen, !s.isMinimized)
  }

  /** Every transition keeps the window valid. */
  lemma TransitionsKeepValid(s: ChatState)
    requires Valid(s)
    ensures Valid(Toggle(s)) && Valid(Close(s))
    ensures s.isOpen ==> Valid(FlipMinimized(s))
  {
  }

  /** On an open window, toggling twice returns to where it started, and toggling is the
      minimise button. */
  lemma ToggleTwiceOpen(s: ChatState)
    requires s.isOpen
    ensures Toggle(Toggle(s)) == s
    ensures Toggle(s) == FlipMinimized(s)
  {
  }

  /** From a closed window, two toggles leave it open and minimised. */
  lemma ToggleTwiceClosed(s: ChatState)
    requires !s.isOpen
    ensures Toggle(Toggle(s)) == ChatState(true, true)
  {
  }

  /** The component's state. */
  class Chat {
    var isOpen: bool
    var isMinimized: bool

    constructor ()
      ensures !isOpen && !isMinimized
    {
      isOpen := false;
      isMinimized := false;
    }

    function State(): ChatState
      reads this
    {
      ChatState(isOpen, isMinimized)
    }

    method ToggleChat()
      modifies this
      ensures State() == Toggle(old(State()))
    {
      if isOpen && !isMinimized {
        isMinimized := true;
      } else if isOpen && isMinimized {
        isMinimized := false;
      } else {
        isOpen := true;
        isMinimized := false;
      }
    }

    method CloseChat()
      modifies this
      ensures State() == Close(old(State()))
    {
      isOpen := false;
      isMinimized := false;
    }

    /** The minimise button, rendered only inside the open window. */
    method MinimizeButton()
      requires isOpen
      modifies this`isMinimized
      ensures State() == FlipMinimized(old(State()))
    {
      isMinimized := !isMinimized;
    }
  }
}

=== FILE: cms_models.dfy ===
/** The entities of the unified CMS backend and the helpers declared beside them
    (cms-backend/app_unified.py): the tables, slug generation with a numeric suffix,
    the upload allow-list, the role guard, the serialised post and the first-run
    seeding of the database. Every table is an in-memory collection held by one
    `Database` object; an ORM query becomes a search of that collection. */
module CmsModels {
  import opened Wrappers
  import opened Text
  import opened Collections

  // ---------------------------------------------------------------- rows

  /** Timestamps are opaque, totally ordered values supplied by the caller's clock. */
  type Timestamp = int

  datatype User = User(
    id: int, username: string, email: string, passwordHash: string,
    firstName: string, lastName: string, role: string,
    bio: string, website: string, avatarUrl: string, socialLinks: string,
    isActive: bool)

  datatype Post = Post(
    id: int, title: string, slug: string, content: string, excerpt: string,
    featuredImage: Option<string>, status: string, postType: string, authorId: int,
    categoryId: Option<int>, commentStatus: string,
    metaTitle: Option<string>, metaDescription: Option<string>, metaKeywords: Option<string>,
    customFields: string,
    tags: seq<string>,          // names of the associated Tag rows, in association order
    viewCount: nat, publishedAt: Option<Timestamp>, updatedAt: Timestamp)

  /** A snapshot of the editable text of a post. */
  datatype Revision = Revision(postId: int, title: string, content: string, excerpt: string, createdBy: int)

  /** A comment; the key of the `comments` map is its id. */
  datatype Comment = Comment(
    postId: int, authorId: Option<int>, authorName: Option<string>, authorEmail: Option<string>,
    content: string, status: string, parentId: Option<int>)

  datatype Category = Category(name: string, slug: string, description: string)
  datatype Tag = Tag(name: string, slug: string)
  datatype Setting = Setting(key: string, value: string)
  datatype Theme = Theme(name: string, slug: string, version: string, author: string, isActive: bool)
  datatype Media = Media(
    title: string, filename: string, originalFilename: string, url: string,
    fileType: string, mimeType: string, altText: string, caption: string, description: string,
    uploadedBy: int)

  // ---------------------------------------------------------------- table invariants

  predicate UsersUnique(users: seq<User>) {
    forall i, j :: 0 <= i < j < |users| ==>
      users[i].id != users[j].id && users[i].username != users[j].username && users[i].email != users[j].email
  }

  predicate PostsUnique(posts: seq<Post>) {
    forall i, j :: 0 <= i < j < |posts| ==> posts[i].id != posts[j].id && posts[i].slug != posts[j].slug
  }

  predicate TagNamesUnique(tags: seq<Tag>) {
    forall i, j :: 0 <= i < j < |tags| ==> tags[i].name != tags[j].name
  }

  predicate SettingKeysUnique(settings: seq<Setting>) {
    forall i, j :: 0 <= i < j < |settings| ==> settings[i].key != settings[j].key
  }

  predicate ThemeSlugsUnique(themes: seq<Theme>) {
    forall i, j :: 0 <= i < j < |themes| ==> themes[i].slug != themes[j].slug
  }

  predicate CategorySlugsUnique(categories: seq<Category>) {
    forall i, j :: 0 <= i < j < |categories| ==> categories[i].slug != categories[j].slug
  }

  /** Lookups, as `Model.query.filter_by(...).first()` performs them. */
  function UserById(users: seq<User>, id: int): Option<nat> { FirstIndex(users, (u: User) => u.id == id) }
  function UserByName(users: seq<User>, name: string): Option<nat> { FirstIndex(users, (u: User) => u.username == name) }
  function UserByEmail(users: seq<User>, email: string): Option<nat> { FirstIndex(users, (u: User) => u.email == email) }
  function PostById(posts: seq<Post>, id: int): Option<nat> { FirstIndex(posts, (p: Post) => p.id == id) }
  function PostBySlug(posts: seq<Post>, slug: string): Option<nat> { FirstIndex(posts, (p: Post) => p.slug == slug) }
  function TagByName(tags: seq<Tag>, name: string): Option<nat> { FirstIndex(tags, (t: Tag) => t.name == name) }
  function SettingByKey(settings: seq<Setting>, key: string): Option<nat> { FirstIndex(settings, (s: Setting) => s.key == key) }
  function ThemeBySlug(themes: seq<Theme>, slug: string): Option<nat> { FirstIndex(themes, (t: Theme) => t.slug == slug) }
  function CategoryBySlug(categories: seq<Category>, slug: string): Option<nat> {
    FirstIndex(categories, (c: Category) => c.slug == slug)
  }

  /** The slugs every stored post uses. */
  function PostSlugs(posts: seq<Post>): (r: set<string>)
    ensures forall i :: 0 <= i < |posts| ==> posts[i].slug in r
    ensures forall s :: s in r ==> exists i :: 0 <= i < |posts| && posts[i].slug == s
  {
    set i | 0 <= i < |posts| :: posts[i].slug
  }

  /** The whole database: one collection per table and the next autoincrement ids. */
  class Database {
    var users: seq<User>
    var nextUserId: int
    var posts: seq<Post>
    var nextPostId: int
    var revisions: seq<Revision>
    var comments: map<int, Comment>
    var nextCommentId: int
    var categories: seq<Category>
    var tags: seq<Tag>
    var settings: seq<Setting>
    var themes: seq<Theme>
    var media: seq<Media>

    /** The unique constraints of the schema, and autoincrement ids above every stored id. */
    ghost predicate Valid()
      reads this
    {
      && UsersUnique(users) && (forall i :: 0 <= i < |users| ==> users[i].id < nextUserId)
      && PostsUnique(posts) && (forall i :: 0 <= i < |posts| ==> posts[i].id < nextPostId)
      && (forall id :: id in comments ==> id < nextCommentId)
      && TagNamesUnique(tags) && SettingKeysUnique(settings)
      && ThemeSlugsUnique(themes) && CategorySlugsUnique(categories)
    }

    /** `db.create_all()` on an empty database. */
    constructor ()
      ensures Valid()
      ensures users == [] && posts == [] && revisions == [] && comments == map[]
      ensures categories == [] && tags == [] && settings == [] && themes == [] && media == []
    {
      users, nextUserId := [], 1;
      posts, nextPostId := [], 1;
      revisions := [];
      comments, nextCommentId := map[], 1;
      categories, tags, settings, themes, media := [], [], [], [], [];
    }
  }

  // ---------------------------------------------------------------- slugs

  /** The `n`-th fallback slug: `f"{base}-{n}"`. */
  function Candidate(base: string, n: nat): string {
    base + "-" + NatToString(n)
  }

  /** Different counters give different fallback slugs, and none is the base itself. */
  lemma CandidateDistinct(base: string, j: nat, k: nat)
    ensures Candidate(base, j) != base
    ensures Candidate(base, j) == Candidate(base, k) ==> j == k
  {
    if Candidate(base, j) == Candidate(base, k) {
      var n := |base| + 1;
      assert Candidate(base, j)[n..] == NatToString(j);
      assert Candidate(base, k)[n..] == NatToString(k);
      NatToStringInjective(j, k);
    }
  }

  /** `Post.generate_slug`: keep a non-empty slug; otherwise take `slugify(title)` and,
      while a stored post uses the candidate, try `base-1`, `base-2`, ... . `titleSlug` is
      `slugify(title)` and `taken` the slugs of the stored posts. */
  method GenerateSlug(current: string, titleSlug: string, taken: set<string>) returns (slug: string)
    ensures current != "" ==> slug == current
    ensures current == "" ==> slug !in taken
    ensures current == "" && titleSlug !in taken ==> slug == titleSlug
    ensures current == "" && titleSlug in taken ==>
      exists n :: n >= 1 && slug == Candidate(titleSlug, n) &&
        forall k :: 1 <= k < n ==> Candidate(titleSlug, k) in taken
  {
    if current != "" {
      return current;
    }
    slug := titleSlug;
    var counter: nat := 1;
    ghost var tried: set<string> := {};
    while slug in taken
      invariant counter >= 1
      invariant slug == if counter == 1 then titleSlug else Candidate(titleSlug, counter - 1)
      invariant counter > 1 ==> titleSlug in taken
      invariant forall k :: 1 <= k < counter - 1 ==> Candidate(titleSlug, k) in taken
      invariant tried <= taken && slug !in tried
      invariant forall k :: k >= counter ==> Candidate(titleSlug, k) !in tried
      decreases |taken - tried|
    {
      assert taken - (tried + {slug}) == (taken - tried) - {slug};
      forall k | k >= counter + 1
        ensures Candidate(titleSlug, k) != slug && Candidate(titleSlug, k) != Candidate(titleSlug, counter)
      {
        CandidateDistinct(titleSlug, k, counter);
        if counter > 1 { CandidateDistinct(titleSlug, k, counter - 1); }
      }
      CandidateDistinct(titleSlug, counter, counter);
      if counter > 1 { CandidateDistinct(titleSlug, counter, counter - 1); }
      tried := tried + {slug};
      slug := Candidate(titleSlug, counter);
      counter := counter + 1;
    }
  }

  // ---------------------------------------------------------------- uploads

  const AllowedExtensions: set<string> :=
    {"txt", "pdf", "png", "jpg", "jpeg", "gif", "webp", "mp4", "mp3", "zip", "doc", "docx"}

  /** `allowed_file`: the name has a '.' and its lower-cased last extension is listed. */
  predicate AllowedFile(filename: string) {
    '.' in filename && Lower(AfterLast(filename, '.')) in AllowedExtensions
  }

  /** For a name split as `stem.ext` with no '.' in `ext`, the verdict depends on `ext`
      alone, case-insensitively; a name without a '.' is refused. */
  lemma AllowedFileOf(stem: string, ext: string)
    requires '.' !in ext
    ensures AllowedFile(stem + "." + ext) <==> Lower(ext) in AllowedExtensions
  {
    AfterLastOf(stem, '.', ext);
  }

  // ---------------------------------------------------------------- access control

  /** `role_required(roles)`: the JWT identity is looked up in the users table, and the
      wrapped handler runs only for a stored user whose role is listed; a missing user or
      an unlisted role is answered with 403 and the handler does not run. The result is
      the user the handler runs for, or None for the 403. */
  function RoleRequired(users: seq<User>, identity: int, roles: seq<string>): (r: Option<User>)
    ensures r.Some? ==> r.value in users && r.value.id == identity && r.value.role in roles
    ensures (forall i :: 0 <= i < |users| ==> users[i].id != identity) ==> r.None?
  {
    match UserById(users, identity)
    case None => None
    case Some(i) => if users[i].role in roles then Some(users[i]) else None
  }

  /** With the primary key unique, a request passes the guard exactly when the identity's
      row exists and has a listed role, and the handler then runs for that row. */
  lemma RoleRequiredAdmits(users: seq<User>, identity: int, roles: seq<string>, k: nat)
    requires UsersUnique(users)
    requires k < |users| && users[k].id == identity
    ensures RoleRequired(users, identity, roles) == if users[k].role in roles then Some(users[k]) else None
  {
    var i := UserById(users, identity);
    assert i.Some?;
  }

  // ---------------------------------------------------------------- serialisation

  /** The fields of `Post.to_dict` this model keeps. */
  datatype PostDict = PostDict(
    id: int, title: string, slug: string, status: string, tags: seq<string>,
    viewCount: nat, publishedAt: Option<Timestamp>,
    commentsCount: nat, content: Option<string>)

  /** The ids of the comments that belong to post `postId`. */
  function CommentsOf(comments: map<int, Comment>, postId: int): set<int> {
    set id | id in comments && comments[id].postId == postId
  }

  /** `Post.to_dict(include_content)`. */
  function PostToDict(post: Post, comments: map<int, Comment>, includeContent: bool): (r: PostDict)
    ensures r.content.Some? <==> includeContent
    ensures r.content.Some? ==> r.content.value == post.content
    ensures r.commentsCount == |CommentsOf(comments, post.id)|
    ensures r.slug == post.slug && r.tags == post.tags
  {
    PostDict(post.id, post.title, post.slug, post.status, post.tags, post.viewCount, post.publishedAt,
             |CommentsOf(comments, post.id)|, if includeContent then Some(post.content) else None)
  }

  // ---------------------------------------------------------------- first run

  const DefaultSettingKeys: seq<string> :=
    ["site_title", "site_description", "site_url", "admin_email", "posts_per_page", "comment_moderation", "timezone"]

  /** No default key is listed twice. */
  lemma DefaultKeysDistinct()
    ensures forall i, j :: 0 <= i < j < |DefaultSettingKeys| ==> DefaultSettingKeys[i] != DefaultSettingKeys[j]
  {
  }

  /** The value seeded under a default key; `siteUrl` is the deployment's external URL. */
  function DefaultValue(key: string, siteUrl: string): string {
    if key == "site_title" then "My Blog"
    else if key == "site_description" then
      "Sharing insights, experiences, and knowledge about technology, life, and everything in between"
    else if key == "site_url" then siteUrl
    else if key == "admin_email" then "admin@myblog.com"
    else if key == "posts_per_page" then "10"
    else if key == "comment_moderation" then "true"
    else "UTC"
  }

  /** The seven default settings, in the order they are added. */
  function DefaultSettings(siteUrl: string): (r: seq<Setting>)
    ensures |r| == 7 && SettingKeysUnique(r)
    ensures forall i :: 0 <= i < 7 ==> r[i].key == DefaultSettingKeys[i]
    ensures r[2] == Setting("site_url", siteUrl)
  {
    DefaultKeysDistinct();
    seq(7, i requires 0 <= i < 7 => Setting(DefaultSettingKeys[i], DefaultValue(DefaultSettingKeys[i], siteUrl)))
  }

  /** The seeded rows would break a unique constraint: the commit fails and adds nothing. */
  predicate SeedConflicts(db_users: seq<User>, categories: seq<Category>, settings: seq<Setting>) {
    || UserByEmail(db_users, "admin@cms.com").Some?
    || CategoryBySlug(categories, "uncategorized").Some?
    || exists j :: 0 <= j < |DefaultSettingKeys| && SettingByKey(settings, DefaultSettingKeys[j]).Some?
  }

  /** A user whose id, username and e-mail are all new keeps the user table valid. */
  lemma AppendUserUnique(users: seq<User>, nextId: int, u: User)
    requires UsersUnique(users) && forall i :: 0 <= i < |users| ==> users[i].id < nextId
    requires u.id == nextId && UserByName(users, u.username).None? && UserByEmail(users, u.email).None?
    ensures UsersUnique(users + [u]) && forall i :: 0 <= i < |users + [u]| ==> (users + [u])[i].id < nextId + 1
  {
  }

  /** Storing a user under the next user id, with a username and an e-mail no stored user
      has, keeps the table valid. */
  method InsertUser(db: Database, u: User)
    requires db.Valid() && u.id == db.nextUserId
    requires UserByName(db.users, u.username).None? && UserByEmail(db.users, u.email).None?
    modifies db`users, db`nextUserId
    ensures db.Valid() && db.users == old(db.users) + [u]
  {
    AppendUserUnique(db.users, db.nextUserId, u);
    db.users := db.users + [u];
    db.nextUserId := db.nextUserId + 1;
  }

  /** A category with a new slug keeps category slugs unique. */
  lemma AppendCategoryUnique(categories: seq<Category>, c: Category)
    requires CategorySlugsUnique(categories) && CategoryBySlug(categories, c.slug).None?
    ensures CategorySlugsUnique(categories + [c])
  {
  }

  /** Rows with distinct keys, none of them stored yet, keep setting keys unique. */
  lemma AppendSettingsUnique(settings: seq<Setting>, extra: seq<Setting>)
    requires SettingKeysUnique(settings) && SettingKeysUnique(extra)
    requires forall j :: 0 <= j < |extra| ==> SettingByKey(settings, extra[j].key).None?
    ensures SettingKeysUnique(settings + extra)
  {
    var all := settings + extra;
    forall i, j | 0 <= i < j < |all| ensures all[i].key != all[j].key {
      if i < |settings| && j >= |settings| {
        assert extra[j - |settings|] == all[j];
      }
    }
  }

  /** The administrator account `create_tables` seeds. */
  function AdminUser(id: int, passwordHash: string): User {
    User(id, "admin", "admin@cms.com", passwordHash, "System", "Administrator", "admin", "", "", "", "", true)
  }

  /** The category posts fall back to. */
  function Uncategorized(): Category {
    Category("Uncategorized", "uncategorized", "Default category for posts")
  }

  /** Seeding, first row: the admin user takes the next user id. */
  method AddAdmin(db: Database, adminPasswordHash: string)
    requires db.Valid() && UserByName(db.users, "admin").None? && UserByEmail(db.users, "admin@cms.com").None?
    modifies db`users, db`nextUserId
    ensures db.Valid() && UserByName(db.users, "admin").Some?
    ensures db.users == old(db.users) + [AdminUser(old(db.nextUserId), adminPasswordHash)]
  {
    var admin := AdminUser(db.nextUserId, adminPasswordHash);
    InsertUser(db, admin);
    assert db.users[|db.users| - 1] == admin;
  }

  /** Seeding, second row: the 'uncategorized' category. */
  method AddUncategorized(db: Database)
    requires db.Valid() && CategoryBySlug(db.categories, "uncategorized").None?
    modifies db`categories
    ensures db.Valid() && db.categories == old(db.categories) + [Uncategorized()]
  {
    AppendCategoryUnique(db.categories, Uncategorized());
    db.categories := db.categories + [Uncategorized()];
  }

  /** Seeding, last rows: the default settings. */
  method AddDefaultSettings(db: Database, siteUrl: string)
    requires db.Valid()
    requires forall j :: 0 <= j < |DefaultSettingKeys| ==> SettingByKey(db.settings, DefaultSettingKeys[j]).None?
    modifies db`settings
    ensures db.Valid() && db.settings == old(db.settings) + DefaultSettings(siteUrl)
  {
    AppendSettingsUnique(db.settings, DefaultSettings(siteUrl));
    db.settings := db.settings + DefaultSettings(siteUrl);
  }

  /** `create_tables`: when no user is named 'admin', add the admin user, the
      'uncategorized' category and the default settings in one commit. Returns whether
      the database now holds a user named 'admin'. */
  method CreateTables(db: Database, siteUrl: string, adminPasswordHash: string) returns (seeded: bool)
    requires db.Valid()
    modifies db`users, db`nextUserId, db`categories, db`settings
    ensures db.Valid()
    ensures seeded <==> UserByName(db.users, "admin").Some?
    ensures UserByName(old(db.users), "admin").Some? || SeedConflicts(old(db.users), old(db.categories), old(db.settings)) ==>
      db.users == old(db.users) && db.categories == old(db.categories) && db.settings == old(db.settings)
    ensures UserByName(old(db.users), "admin").None? && !SeedConflicts(old(db.users), old(db.categories), old(db.settings)) ==>
      && db.users == old(db.users) + [AdminUser(old(db.nextUserId), adminPasswordHash)]
      && db.categories == old(db.categories) + [Uncategorized()]
      && db.settings == old(db.settings) + DefaultSettings(siteUrl)
  {
    if UserByName(db.users, "admin").Some? {
      return true;
    }
    if SeedConflicts(db.users, db.categories, db.settings) {
      return false;
    }
    AddAdmin(db, adminPasswordHash);
    AddUncategorized(db);
    AddDefaultSettings(db, siteUrl);
    seeded := true;
  }
}

=== FILE: cms_routes.dfy ===
/** The request handlers of the unified CMS backend (cms-backend/routes.py) that change
    the tables: user registration and editing, post creation and update, the settings
    upsert, theme activation, uploads and comment moderation. Each handler is a method on
    the `Database`; the parsed JSON body is a request datatype whose `Option` fields are
    keys that may be absent, and `identity` is the user id of the request's JWT, which
    `role_required` looks up before the handler runs. */
module CmsRoutes {
  import opened Wrappers
  import opened Text
  import opened Collections
  import opened CmsModels

  /** The HTTP status a handler answers with. */
  datatype Status = Ok200 | Created201 | BadRequest400 | Forbidden403 | NotFound404 | ServerError500

  /** Python truthiness of an optional string field: present and non-empty. */
  predicate Truthy(v: Option<string>) {
    v.Some? && v.value != ""
  }

  const AdminOnly: seq<string> := ["admin"]
  const StaffRoles: seq<string> := ["admin", "editor"]
  const WriterRoles: seq<string> := ["admin", "editor", "author"]
  const ValidRoles: seq<string> := ["admin", "editor", "author", "subscriber"]

  /** The owner check of the post and media handlers: staff may edit anything, an author
      only what they own. */
  predicate MayModify(caller: User, ownerId: int) {
    caller.role in StaffRoles || ownerId == caller.id
  }

  /** An author who does not own the row is refused; an editor or admin never is. */
  lemma MayModifyCases(caller: User, ownerId: int)
    ensures caller.role == "admin" || caller.role == "editor" ==> MayModify(caller, ownerId)
    ensures caller.role == "author" ==> (MayModify(caller, ownerId) <==> ownerId == caller.id)
  {
  }

  // ---------------------------------------------------------------- users

  /** The set of the stored usernames and e-mail addresses. */
  function Usernames(users: seq<User>): set<string> { set i | 0 <= i < |users| :: users[i].username }
  function Emails(users: seq<User>): set<string> { set i | 0 <= i < |users| :: users[i].email }

  lemma UserLookups(users: seq<User>, name: string, email: string)
    ensures UserByName(users, name).Some? <==> name in Usernames(users)
    ensures UserByEmail(users, email).Some? <==> email in Emails(users)
  {
    if name in Usernames(users) {
      var i :| 0 <= i < |users| && users[i].username == name;
    }
    if email in Emails(users) {
      var i :| 0 <= i < |users| && users[i].email == email;
    }
  }

  datatype RegisterRequest = RegisterRequest(
    username: Option<string>, email: Option<string>, password: Option<string>,
    firstName: Option<string>, lastName: Option<string>, role: Option<string>)

  /** `register`: the public sign-up. A missing username, e-mail or password is a
      `KeyError` (500); a taken username or e-mail is a 400; the requested role is
      stored as given, 'subscriber' when absent. `hash` is the password hashing. */
  method Register(db: Database, req: RegisterRequest, hash: string -> string) returns (status: Status)
    requires db.Valid()
    modifies db`users, db`nextUserId
    ensures db.Valid()
    ensures status == BadRequest400 <==>
      req.username.Some? &&
      (req.username.value in Usernames(old(db.users)) ||
       (req.email.Some? && req.email.value in Emails(old(db.users))))
    ensures status == Created201 <==>
      req.username.Some? && req.email.Some? && req.password.Some? &&
      req.username.value !in Usernames(old(db.users)) && req.email.value !in Emails(old(db.users))
    ensures status == BadRequest400 || status == Created201 || status == ServerError500
    ensures status != Created201 ==> db.users == old(db.users)
    ensures status == Created201 ==>
      db.users == old(db.users) + [User(old(db.nextUserId), req.username.value, req.email.value,
        hash(req.password.value), req.firstName.GetOr(""), req.lastName.GetOr(""),
        req.role.GetOr("subscriber"), "", "", "", "", true)]
  {
    if req.username.None? {
      return ServerError500;
    }
    UserLookups(db.users, req.username.value, req.email.GetOr(""));
    if UserByName(db.users, req.username.value).Some? {
      return BadRequest400;
    }
    if req.email.None? {
      return ServerError500;
    }
    if UserByEmail(db.users, req.email.value).Some? {
      return BadRequest400;
    }
    if req.password.None? {
      return ServerError500;
    }
    var u := User(db.nextUserId, req.username.value, req.email.value, hash(req.password.value),
                  req.firstName.GetOr(""), req.lastName.GetOr(""), req.role.GetOr("subscriber"),
                  "", "", "", "", true);
    InsertUser(db, u);
    status := Created201;
  }

  datatype NewUserRequest = NewUserRequest(
    username: Option<string>, email: Option<string>, password: Option<string>,
    firstName: Option<string>, lastName: Option<string>, role: Option<string>,
    bio: Option<string>, website: Option<string>, avatarUrl: Option<string>,
    isActive: Option<bool>,
    socialLinks: string)   // the JSON text of `social_links`, "{}" when absent

  /** One of the six required fields is absent or empty. */
  predicate MissingField(req: NewUserRequest) {
    !Truthy(req.username) || !Truthy(req.email) || !Truthy(req.password) ||
    !Truthy(req.firstName) || !Truthy(req.lastName) || !Truthy(req.role)
  }

  /** `create_user`: an admin adds a user; every required field must be non-empty, the
      username and e-mail free and the role one of the four known roles. */
  method CreateUser(db: Database, identity: int, req: NewUserRequest, hash: string -> string)
    returns (status: Status)
    requires db.Valid()
    modifies db`users, db`nextUserId
    ensures db.Valid()
    ensures status == Forbidden403 <==> RoleRequired(old(db.users), identity, AdminOnly).None?
    ensures status == BadRequest400 <==>
      RoleRequired(old(db.users), identity, AdminOnly).Some? &&
      (MissingField(req) || req.username.value in Usernames(old(db.users)) ||
       req.email.value in Emails(old(db.users)) || req.role.value !in ValidRoles)
    ensures status == Forbidden403 || status == BadRequest400 || status == Created201
    ensures status != Created201 ==> db.users == old(db.users)
    ensures status == Created201 ==>
      db.users == old(db.users) + [User(old(db.nextUserId), req.username.value, req.email.value,
        hash(req.password.value), req.firstName.value, req.lastName.value, req.role.value,
        req.bio.GetOr(""), req.website.GetOr(""), req.avatarUrl.GetOr(""), req.socialLinks,
        req.isActive.GetOr(true))]
    ensures status == Created201 ==> db.users[|db.users| - 1].role in ValidRoles
  {
    var caller := RoleRequired(db.users, identity, AdminOnly);
    if caller.None? {
      return Forbidden403;
    }
    if MissingField(req) {
      return BadRequest400;
    }
    UserLookups(db.users, req.username.value, req.email.value);
    if UserByName(db.users, req.username.value).Some? || UserByEmail(db.users, req.email.value).Some? {
      return BadRequest400;
    }
    if req.role.value !in ValidRoles {
      return BadRequest400;
    }
    var u := User(db.nextUserId, req.username.value, req.email.value, hash(req.password.value),
                  req.firstName.value, req.lastName.value, req.role.value,
                  req.bio.GetOr(""), req.website.GetOr(""), req.avatarUrl.GetOr(""), req.socialLinks,
                  req.isActive.GetOr(true));
    InsertUser(db, u);
    status := Created201;
  }

  datatype UserPatch = UserPatch(
    firstName: Option<string>, lastName: Option<string>, email: Option<string>,
    bio: Option<string>, website: Option<string>, avatarUrl: Option<string>,
    socialLinks: Option<string>,   // the JSON text, present only when the request's value is truthy
    role: Option<string>, isActive: Option<bool>, password: Option<string>)

  /** The row `update_user` writes: every present field replaces the stored one, except
      that role and activation change only for an admin caller and the password only
      for a non-empty new password. */
  function ApplyUserPatch(u: User, p: UserPatch, asAdmin: bool, hash: string -> string): (r: User)
    ensures r.id == u.id && r.username == u.username
    ensures !asAdmin ==> r.role == u.role && r.isActive == u.isActive
    ensures asAdmin && p.role.Some? ==> r.role == p.role.value
    ensures !Truthy(p.password) ==> r.passwordHash == u.passwordHash
    ensures p.email.None? ==> r.email == u.email
    ensures p == UserPatch(None, None, None, None, None, None, None, None, None, None) ==> r == u
  {
    u.(firstName := p.firstName.GetOr(u.firstName),
       lastName := p.lastName.GetOr(u.lastName),
       email := p.email.GetOr(u.email),
       bio := p.bio.GetOr(u.bio),
       website := p.website.GetOr(u.website),
       avatarUrl := p.avatarUrl.GetOr(u.avatarUrl),
       socialLinks := p.socialLinks.GetOr(u.socialLinks),
       role := if asAdmin then p.role.GetOr(u.role) else u.role,
       isActive := if asAdmin then p.isActive.GetOr(u.isActive) else u.isActive,
       passwordHash := if Truthy(p.password) then hash(p.password.value) else u.passwordHash)
  }

  /** Another user already has the e-mail address `email`. */
  predicate EmailTakenByOther(users: seq<User>, target: nat, email: string)
    requires target < |users|
  {
    exists j :: 0 <= j < |users| && j != target && users[j].email == email
  }

  /** `update_user`: a user edits their own profile, or an admin edits anyone's. A
      missing target is a 404, a missing caller row a 500; an e-mail already used by
      another user breaks the unique constraint at commit (500, nothing stored). */
  method UpdateUser(db: Database, callerId: int, userId: int, patch: UserPatch, hash: string -> string)
    returns (status: Status)
    requires db.Valid()
    modifies db`users
    ensures db.Valid()
    ensures status in {NotFound404, Forbidden403, ServerError500, Ok200}
    ensures status == NotFound404 <==> UserById(old(db.users), userId).None?
    // `current_user.role` on a missing caller raises, and so does the commit of a taken e-mail
    ensures status == ServerError500 <==>
      UserById(old(db.users), userId).Some? &&
      (UserById(old(db.users), callerId).None? ||
       var t := UserById(old(db.users), userId).value;
       var asAdmin := old(db.users)[UserById(old(db.users), callerId).value].role == "admin";
       (asAdmin || callerId == userId) &&
       EmailTakenByOther(old(db.users), t, ApplyUserPatch(old(db.users)[t], patch, asAdmin, hash).email))
    ensures status == Forbidden403 <==>
      UserById(old(db.users), userId).Some? && UserById(old(db.users), callerId).Some? &&
      old(db.users)[UserById(old(db.users), callerId).value].role != "admin" && callerId != userId
    ensures status != Ok200 ==> db.users == old(db.users)
    ensures status == Ok200 ==>
      UserById(old(db.users), userId).Some? && UserById(old(db.users), callerId).Some? &&
      var t := UserById(old(db.users), userId).value;
      var asAdmin := old(db.users)[UserById(old(db.users), callerId).value].role == "admin";
      db.users == old(db.users)[t := ApplyUserPatch(old(db.users)[t], patch, asAdmin, hash)]
  {
    var caller := UserById(db.users, callerId);
    var target := UserById(db.users, userId);
    if target.None? {
      return NotFound404;
    }
    if caller.None? {
      return ServerError500;
    }
    var asAdmin := db.users[caller.value].role == "admin";
    if !asAdmin && callerId != userId {
      return Forbidden403;
    }
    var t := target.value;
    var updated := ApplyUserPatch(db.users[t], patch, asAdmin, hash);
    if EmailTakenByOther(db.users, t, updated.email) {
      return ServerError500;
    }
    db.users := db.users[t := updated];
    status := Ok200;
  }

  // ---------------------------------------------------------------- posts

  /** The JSON body of `create_post` and `update_post`. */
  datatype PostRequest = PostRequest(
    title: Option<string>, content: Option<string>, excerpt: Option<string>,
    featuredImage: Option<string>, status: Option<string>, postType: Option<string>,
    categoryId: Option<int>, commentStatus: Option<string>,
    metaTitle: Option<string>, metaDescription: Option<string>, metaKeywords: Option<string>,
    customFields: Option<string>,   // the JSON text, present only when the request's value is truthy
    tags: Option<seq<string>>)

  function TagNames(tags: seq<Tag>): set<string> { set i | 0 <= i < |tags| :: tags[i].name }

  lemma TagLookup(tags: seq<Tag>, name: string)
    ensures TagByName(tags, name).Some? <==> name in TagNames(tags)
  {
    if name in TagNames(tags) {
      var i :| 0 <= i < |tags| && tags[i].name == name;
    }
  }

  lemma TagNamesAppend(tags: seq<Tag>, t: Tag)
    ensures TagNames(tags + [t]) == TagNames(tags) + {t.name}
  {
    var a, b := TagNames(tags + [t]), TagNames(tags) + {t.name};
    forall n | n in b ensures n in a {
      if n != t.name {
        var i :| 0 <= i < |tags| && tags[i].name == n;
        assert (tags + [t])[i] == tags[i];
      } else {
        assert (tags + [t])[|tags|] == t;
      }
    }
  }

  /** The loop that attaches a list of tag names to a post: a name without a Tag row
      gets one, slugged by `slugify`; rows already there are kept as they are. */
  method EnsureTags(db: Database, names: seq<string>, slugify: string -> string)
    requires TagNamesUnique(db.tags)
    modifies db`tags
    ensures TagNamesUnique(db.tags)
    ensures |db.tags| >= |old(db.tags)| && db.tags[..|old(db.tags)|] == old(db.tags)
    ensures TagNames(db.tags) == TagNames(old(db.tags)) + set n | n in names
    ensures forall i :: |old(db.tags)| <= i < |db.tags| ==> db.tags[i].slug == slugify(db.tags[i].name)
  {
    var k := 0;
    while k < |names|
      invariant 0 <= k <= |names|
      invariant TagNamesUnique(db.tags)
      invariant |db.tags| >= |old(db.tags)| && db.tags[..|old(db.tags)|] == old(db.tags)
      invariant TagNames(db.tags) == TagNames(old(db.tags)) + set n | n in names[..k]
      invariant forall i :: |old(db.tags)| <= i < |db.tags| ==> db.tags[i].slug == slugify(db.tags[i].name)
    {
      var name := names[k];
      TagLookup(db.tags, name);
      if TagByName(db.tags, name).None? {
        var t := Tag(name, slugify(name));
        forall i | 0 <= i < |db.tags| ensures db.tags[i].name != name {
          assert db.tags[i].name in TagNames(db.tags);
        }
        TagNamesAppend(db.tags, t);
        db.tags := db.tags + [t];
      }
      assert names[..k + 1] == names[..k] + [name];
      k := k + 1;
    }
    assert names[..k] == names;
  }

  /** The post `create_post` builds before it is stored. */
  function NewPost(req: PostRequest, id: int, authorId: int, slug: string, now: Timestamp): (p: Post)
    requires req.title.Some?
    ensures p.id == id && p.authorId == authorId && p.slug == slug && p.title == req.title.value
    ensures p.publishedAt.Some? <==> p.status == "published"
    ensures p.publishedAt.Some? ==> p.publishedAt.value == now
    ensures p.tags == req.tags.GetOr([]) && p.viewCount == 0
  {
    var status := req.status.GetOr("draft");
    Post(id, req.title.value, slug, req.content.GetOr(""), req.excerpt.GetOr(""), req.featuredImage,
         status, req.postType.GetOr("post"), authorId, req.categoryId, req.commentStatus.GetOr("open"),
         req.metaTitle, req.metaDescription, req.metaKeywords, req.customFields.GetOr("{}"),
         req.tags.GetOr([]), 0, if status == "published" then Some(now) else None, now)
  }

  /** The writes of `create_post`: the new row with the next post id and a fresh slug,
      its tags, and its first revision. */
  method InsertPost(db: Database, post: Post, editorId: int, slugify: string -> string)
    requires db.Valid() && post.id == db.nextPostId && post.slug !in PostSlugs(db.posts)
    modifies db`posts, db`nextPostId, db`tags, db`revisions
    ensures db.Valid()
    ensures db.posts == old(db.posts) + [post]
    ensures |db.tags| >= |old(db.tags)| && db.tags[..|old(db.tags)|] == old(db.tags)
    ensures TagNames(db.tags) == TagNames(old(db.tags)) + set n | n in post.tags
    ensures forall i :: |old(db.tags)| <= i < |db.tags| ==> db.tags[i].slug == slugify(db.tags[i].name)
    ensures db.revisions == old(db.revisions) + [Revision(post.id, post.title, post.content, post.excerpt, editorId)]
  {
    forall i | 0 <= i < |db.posts| ensures db.posts[i].slug != post.slug {
      assert db.posts[i].slug in PostSlugs(db.posts);
    }
    db.posts := db.posts + [post];
    db.nextPostId := db.nextPostId + 1;
    EnsureTags(db, post.tags, slugify);
    db.revisions := db.revisions + [Revision(post.id, post.title, post.content, post.excerpt, editorId)];
  }

  /** `create_post`: a writer adds a post. The slug comes from `slugify(title)` made
      unique by a numeric suffix, `published_at` is the clock reading when the post is
      created as published, the requested tags are attached (creating missing Tag rows)
      and one revision records the first version. A missing title is a `KeyError` (500). */
  method CreatePost(db: Database, identity: int, req: PostRequest, slugify: string -> string, now: Timestamp)
    returns (status: Status)
    requires db.Valid()
    modifies db`posts, db`nextPostId, db`tags, db`revisions
    ensures db.Valid()
    ensures status == Forbidden403 <==> RoleRequired(old(db.users), identity, WriterRoles).None?
    ensures status == ServerError500 <==> RoleRequired(old(db.users), identity, WriterRoles).Some? && req.title.None?
    ensures status == Forbidden403 || status == ServerError500 || status == Created201
    ensures status != Created201 ==>
      db.posts == old(db.posts) && db.tags == old(db.tags) && db.revisions == old(db.revisions)
    ensures status == Created201 ==>
      && |db.posts| == |old(db.posts)| + 1 && db.posts[..|old(db.posts)|] == old(db.posts)
      && var p := db.posts[|old(db.posts)|];
      && p == NewPost(req, old(db.nextPostId), identity, p.slug, now)
      && p.slug !in PostSlugs(old(db.posts))
      && var base := slugify(req.title.value);
      && (base !in PostSlugs(old(db.posts)) ==> p.slug == base)
      && (base in PostSlugs(old(db.posts)) ==>
            exists n :: n >= 1 && p.slug == Candidate(base, n) &&
              forall k :: 1 <= k < n ==> Candidate(base, k) in PostSlugs(old(db.posts)))
      && |db.tags| >= |old(db.tags)| && db.tags[..|old(db.tags)|] == old(db.tags)
      && TagNames(db.tags) == TagNames(old(db.tags)) + set n | n in p.tags
      && (forall i :: |old(db.tags)| <= i < |db.tags| ==> db.tags[i].slug == slugify(db.tags[i].name))
      && db.revisions == old(db.revisions) + [Revision(p.id, p.title, p.content, p.excerpt, identity)]
  {
    var caller := RoleRequired(db.users, identity, WriterRoles);
    if caller.None? {
      return Forbidden403;
    }
    if req.title.None? {
      return ServerError500;
    }
    var slug := GenerateSlug("", slugify(req.title.value), PostSlugs(db.posts));
    var post := NewPost(req, db.nextPostId, caller.value.id, slug, now);
    InsertPost(db, post, caller.value.id, slugify);
    status := Created201;
  }

  /** The row `update_post` writes: present fields replace the stored ones, the JSON
      custom fields only when given, the tag list is replaced when the request has one,
      and `published_at` is filled in only when it is empty and the post is now
      published. */
  function ApplyPostPatch(p: Post, req: PostRequest, now: Timestamp): (r: Post)
    ensures r.id == p.id && r.slug == p.slug && r.authorId == p.authorId && r.viewCount == p.viewCount
    ensures p.publishedAt.Some? ==> r.publishedAt == p.publishedAt
    ensures p.publishedAt.None? ==> (r.publishedAt.Some? <==> r.status == "published")
    ensures r.publishedAt.Some? && p.publishedAt.None? ==> r.publishedAt.value == now
    ensures r.tags == req.tags.GetOr(p.tags)
    ensures r.updatedAt == now
  {
    var status := req.status.GetOr(p.status);
    Post(p.id, req.title.GetOr(p.title), p.slug, req.content.GetOr(p.content), req.excerpt.GetOr(p.excerpt),
         if req.featuredImage.Some? then req.featuredImage else p.featuredImage,
         status, p.postType, p.authorId,
         if req.categoryId.Some? then req.categoryId else p.categoryId,
         req.commentStatus.GetOr(p.commentStatus),
         if req.metaTitle.Some? then req.metaTitle else p.metaTitle,
         if req.metaDescription.Some? then req.metaDescription else p.metaDescription,
         if req.metaKeywords.Some? then req.metaKeywords else p.metaKeywords,
         req.customFields.GetOr(p.customFields), req.tags.GetOr(p.tags), p.viewCount,
         if status == "published" && p.publishedAt.None? then Some(now) else p.publishedAt,
         now)
  }

  /** A published post keeps its first publication time through any number of updates. */
  lemma {:induction false} PublishedAtStable(p: Post, reqs: seq<PostRequest>, nows: seq<Timestamp>)
    requires |reqs| == |nows| && p.publishedAt.Some?
    ensures ApplyAll(p, reqs, nows).publishedAt == p.publishedAt
    ensures ApplyAll(p, reqs, nows).slug == p.slug
    decreases |reqs|
  {
    if |reqs| > 0 {
      PublishedAtStable(ApplyPostPatch(p, reqs[0], nows[0]), reqs[1..], nows[1..]);
    }
  }

  /** A sequence of updates applied one after another. */
  function ApplyAll(p: Post, reqs: seq<PostRequest>, nows: seq<Timestamp>): Post
    requires |reqs| == |nows|
    decreases |reqs|
  {
    if |reqs| == 0 then p else ApplyAll(ApplyPostPatch(p, reqs[0], nows[0]), reqs[1..], nows[1..])
  }

  /** Rewriting a post row without touching its id or slug keeps the table valid. */
  lemma ReplacePostKeepsUnique(posts: seq<Post>, next: int, i: nat, posts': seq<Post>)
    requires PostsUnique(posts) && forall j :: 0 <= j < |posts| ==> posts[j].id < next
    requires i < |posts| == |posts'| && posts' == posts[i := posts'[i]]
    requires posts'[i].id == posts[i].id && posts'[i].slug == posts[i].slug
    ensures PostsUnique(posts') && forall j :: 0 <= j < |posts'| ==> posts'[j].id < next
  {
  }

  /** The writes of `update_post` once the caller may edit post `i`: a revision holding
      the text as it was, the patched row and the request's tags. The slug is never
      regenerated, because the title comparison that would trigger it runs after the
      title was assigned. */
  method WritePostUpdate(db: Database, i: nat, req: PostRequest, editorId: int,
                         slugify: string -> string, now: Timestamp)
    requires db.Valid() && i < |db.posts|
    modifies db`posts, db`tags, db`revisions
    ensures db.Valid()
    ensures db.posts == old(db.posts)[i := ApplyPostPatch(old(db.posts)[i], req, now)]
    ensures db.revisions == old(db.revisions) +
      [Revision(old(db.posts)[i].id, old(db.posts)[i].title, old(db.posts)[i].content, old(db.posts)[i].excerpt, editorId)]
    ensures req.tags.None? ==> db.tags == old(db.tags)
    ensures |db.tags| >= |old(db.tags)| && db.tags[..|old(db.tags)|] == old(db.tags)
    ensures TagNames(db.tags) == TagNames(old(db.tags)) + set n | n in req.tags.GetOr([])
    ensures forall k :: |old(db.tags)| <= k < |db.tags| ==> db.tags[k].slug == slugify(db.tags[k].name)
  {
    var p := db.posts[i];
    db.revisions := db.revisions + [Revision(p.id, p.title, p.content, p.excerpt, editorId)];
    var updated := ApplyPostPatch(p, req, now);
    if Truthy(req.title) && req.title.value != updated.title {
      // The retitle branch of the handler: unreachable, since the title was just assigned.
      assert false;
    }
    db.posts := db.posts[i := updated];
    ReplacePostKeepsUnique(old(db.posts), db.nextPostId, i, db.posts);
    if req.tags.Some? {
      EnsureTags(db, req.tags.value, slugify);
    }
  }

  /** `update_post`: the owner, an editor or an admin edits a post; anyone else is
      refused, and a missing post is reported. */
  method UpdatePost(db: Database, identity: int, postId: int, req: PostRequest,
                    slugify: string -> string, now: Timestamp)
    returns (status: Status)
    requires db.Valid()
    modifies db`posts, db`tags, db`revisions
    ensures db.Valid()
    ensures status == Forbidden403 <==>
      RoleRequired(old(db.users), identity, WriterRoles).None? ||
      (PostById(old(db.posts), postId).Some? &&
       !MayModify(RoleRequired(old(db.users), identity, WriterRoles).value, old(db.posts)[PostById(old(db.posts), postId).value].authorId))
    ensures status == NotFound404 <==> RoleRequired(old(db.users), identity, WriterRoles).Some? && PostById(old(db.posts), postId).None?
    ensures status == Forbidden403 || status == NotFound404 || status == Ok200
    ensures status != Ok200 ==>
      db.posts == old(db.posts) && db.tags == old(db.tags) && db.revisions == old(db.revisions)
    ensures status == Ok200 ==>
      PostById(old(db.posts), postId).Some? &&
      var i := PostById(old(db.posts), postId).value;
      var p := old(db.posts)[i];
      && db.posts == old(db.posts)[i := ApplyPostPatch(p, req, now)]
      && db.revisions == old(db.revisions) + [Revision(p.id, p.title, p.content, p.excerpt, identity)]
      && (req.tags.None? ==> db.tags == old(db.tags))
      && |db.tags| >= |old(db.tags)| && db.tags[..|old(db.tags)|] == old(db.tags)
      && TagNames(db.tags) == TagNames(old(db.tags)) + set n | n in req.tags.GetOr([])
      && (forall k :: |old(db.tags)| <= k < |db.tags| ==> db.tags[k].slug == slugify(db.tags[k].name))
  {
    var caller := RoleRequired(db.users, identity, WriterRoles);
    if caller.None? {
      return Forbidden403;
    }
    var found := PostById(db.posts, postId);
    if found.None? {
      return NotFound404;
    }
    var i := found.value;
    if !MayModify(caller.value, db.posts[i].authorId) {
      return Forbidden403;
    }
    WritePostUpdate(db, i, req, caller.value.id, slugify, now);
    status := Ok200;
  }

  // ---------------------------------------------------------------- settings

  /** The value stored under `key`, if any. */
  function Lookup(settings: seq<Setting>, key: string): (r: Option<string>)
    ensures r.None? <==> forall i :: 0 <= i < |settings| ==> settings[i].key != key
  {
    if settings == [] then None
    else if settings[0].key == key then Some(settings[0].value)
    else Lookup(settings[1..], key)
  }

  /** With unique keys, every row is what a lookup of its key finds. */
  lemma {:induction false} LookupAt(settings: seq<Setting>, i: nat)
    requires SettingKeysUnique(settings) && i < |settings|
    ensures Lookup(settings, settings[i].key) == Some(settings[i].value)
  {
    if i > 0 {
      LookupAt(settings[1..], i - 1);
    }
  }

  /** Rewriting the value of row `i` changes the lookup of that row's key only. */
  lemma {:induction false} LookupUpdate(settings: seq<Setting>, i: nat, v: string, key: string)
    requires SettingKeysUnique(settings) && i < |settings|
    ensures Lookup(settings[i := settings[i].(value := v)], key) ==
      if key == settings[i].key then Some(v) else Lookup(settings, key)
  {
    var s' := settings[i := settings[i].(value := v)];
    if i == 0 {
      assert s'[1..] == settings[1..];
    } else {
      assert s'[1..] == settings[1..][i - 1 := settings[i].(value := v)];
      LookupUpdate(settings[1..], i - 1, v, key);
    }
  }

  /** Appending a row changes only the lookup of a key that was absent. */
  lemma {:induction false} LookupAppend(settings: seq<Setting>, row: Setting, key: string)
    ensures Lookup(settings + [row], key) ==
      if Lookup(settings, key).Some? then Lookup(settings, key)
      else if row.key == key then Some(row.value) else None
  {
    if settings != [] {
      assert (settings + [row])[1..] == settings[1..] + [row];
      LookupAppend(settings[1..], row, key);
    }
  }

  /** One step of the settings loop: update the row with key `key`, or append one. */
  function Upsert(settings: seq<Setting>, key: string, value: string): (r: seq<Setting>)
    requires SettingKeysUnique(settings)
    ensures SettingKeysUnique(r)
    ensures |r| >= |settings| && forall i :: 0 <= i < |settings| ==> r[i].key == settings[i].key
    ensures forall k :: Lookup(r, k) == if k == key then Some(value) else Lookup(settings, k)
  {
    match SettingByKey(settings, key)
    case Some(i) =>
      assert settings[i].key == key;
      var r := settings[i := settings[i].(value := value)];
      forall k ensures Lookup(r, k) == if k == key then Some(value) else Lookup(settings, k) {
        LookupUpdate(settings, i, value, k);
      }
      r
    case None =>
      var r := settings + [Setting(key, value)];
      assert Lookup(settings, key).None?;
      forall k ensures Lookup(r, k) == if k == key then Some(value) else Lookup(settings, k) {
        LookupAppend(settings, Setting(key, value), k);
      }
      r
  }

  /** The settings loop so far: the keys of `data` outside `rest` hold their new values,
      every other key looks up as in `base`, and the rows of `base` keep their keys. */
  ghost predicate UpsertedExcept(settings: seq<Setting>, base: seq<Setting>, data: map<string, string>, rest: set<string>) {
    && SettingKeysUnique(settings)
    && |settings| >= |base| && (forall i :: 0 <= i < |base| ==> settings[i].key == base[i].key)
    && (forall key :: key in data && key !in rest ==> Lookup(settings, key) == Some(data[key]))
    && (forall key :: key !in data || key in rest ==> Lookup(settings, key) == Lookup(base, key))
  }

  /** Upserting one more key of `data` moves it out of the keys still to do. */
  lemma UpsertStep(settings: seq<Setting>, base: seq<Setting>, data: map<string, string>, rest: set<string>, key: string)
    requires UpsertedExcept(settings, base, data, rest) && key in rest && key in data
    ensures UpsertedExcept(Upsert(settings, key, data[key]), base, data, rest - {key})
  {
  }

  /** `update_settings`: for every key of the request body, update the row with that key
      or insert a new one. Values arrive already converted with `str`. */
  method UpdateSettings(db: Database, identity: int, data: map<string, string>) returns (status: Status)
    requires db.Valid()
    modifies db`settings
    ensures db.Valid()
    ensures status == Forbidden403 <==> RoleRequired(old(db.users), identity, AdminOnly).None?
    ensures status == Forbidden403 || status == Ok200
    ensures status == Forbidden403 ==> db.settings == old(db.settings)
    ensures status == Ok200 ==> forall key :: key in data ==> Lookup(db.settings, key) == Some(data[key])
    ensures status == Ok200 ==> forall key :: key !in data ==> Lookup(db.settings, key) == Lookup(old(db.settings), key)
    ensures |db.settings| >= |old(db.settings)|
    ensures forall i :: 0 <= i < |old(db.settings)| ==> db.settings[i].key == old(db.settings)[i].key
  {
    var caller := RoleRequired(db.users, identity, AdminOnly);
    if caller.None? {
      return Forbidden403;
    }
    var settings, rest := db.settings, data.Keys;
    while rest != {}
      invariant rest <= data.Keys
      invariant UpsertedExcept(settings, old(db.settings), data, rest)
      decreases rest
    {
      var key :| key in rest;
      UpsertStep(settings, old(db.settings), data, rest, key);
      settings := Upsert(settings, key, data[key]);
      rest := rest - {key};
    }
    db.settings := settings;
    status := Ok200;
  }

  // ---------------------------------------------------------------- themes

  predicate IsLetter(c: char) { 'a' <= c <= 'z' || 'A' <= c <= 'Z' }

  function UpperChar(c: char): (r: char)
    ensures 'a' <= c <= 'z' ==> r as int == c as int - 32
    ensures !('a' <= c <= 'z') ==> r == c
  {
    if 'a' <= c <= 'z' then (c as int - 32) as char else c
  }

  /** A character as `str.title()` writes it: lower-cased after a letter, upper-cased
      anywhere else. */
  function TitleChar(afterLetter: bool, c: char): (r: char)
    ensures IsLetter(r) == IsLetter(c)
    ensures !IsLetter(c) ==> r == c
  {
    if afterLetter then LowerChar(c) else UpperChar(c)
  }

  /** Python's `str.title()` on ASCII: a letter that starts the string or follows a
      non-letter is upper-cased, a letter that follows a letter is lower-cased, and every
      other character is kept. */
  function TitleCase(s: string): (r: string)
    ensures |r| == |s|
    ensures forall i :: 0 <= i < |s| ==> r[i] == TitleChar(AfterLetter(s, i, false), s[i])
    ensures forall i :: 0 <= i < |s| && !IsLetter(s[i]) ==> r[i] == s[i]
  {
    TitleFrom(s, false)
  }

  /** Character `i` of `s` follows a letter; `before` says whether the character before
      `s` was one. */
  predicate AfterLetter(s: string, i: nat, before: bool)
    requires i < |s|
  {
    if i == 0 then before else IsLetter(s[i - 1])
  }

  /** The title-cased rest of a string whose previous character was a letter iff
      `afterLetter`. */
  function TitleFrom(s: string, afterLetter: bool): (r: string)
    ensures |r| == |s|
    ensures forall i :: 0 <= i < |s| ==> r[i] == TitleChar(AfterLetter(s, i, afterLetter), s[i])
  {
    if s == [] then []
    else [TitleChar(afterLetter, s[0])] + TitleFrom(s[1..], IsLetter(s[0]))
  }

  /** Case changes keep letters letters and non-letters as they are. */
  lemma CaseKeepsLetters(c: char)
    ensures IsLetter(LowerChar(c)) == IsLetter(c) && IsLetter(UpperChar(c)) == IsLetter(c)
    ensures LowerChar(UpperChar(c)) == LowerChar(c) && UpperChar(LowerChar(c)) == UpperChar(c)
    ensures UpperChar(UpperChar(c)) == UpperChar(c) && LowerChar(LowerChar(c)) == LowerChar(c)
  {
  }

  /** Title-casing a title-cased name changes nothing. */
  lemma TitleCaseIdempotent(s: string)
    ensures TitleCase(TitleCase(s)) == TitleCase(s)
  {
    var r := TitleCase(s);
    forall i | 0 <= i < |s| ensures TitleCase(r)[i] == r[i] {
      CaseKeepsLetters(s[i]);
      if i > 0 {
        CaseKeepsLetters(s[i - 1]);
      }
    }
  }

  /** The display name given to a theme row created on activation. */
  function ThemeName(slug: string): string {
    if slug == "default" then "Default Theme"
    else if slug == "dark" then "Dark Theme"
    else if slug == "minimal" then "Minimal Theme"
    else if slug == "blog" then "Blog Theme"
    else TitleCase(slug)
  }

  /** A theme created for an unknown slug is named after it with the hyphens kept, as
      `str.title()` leaves them: 'my-theme' becomes 'My-Theme'. */
  lemma ThemeNameKeepsHyphens(slug: string)
    requires slug !in {"default", "dark", "minimal", "blog"}
    ensures |ThemeName(slug)| == |slug|
    ensures forall i :: 0 <= i < |slug| && slug[i] == '-' ==> ThemeName(slug)[i] == '-'
  {
  }

  /** Exactly the themes with slug `slug` are active. */
  predicate OnlyActive(themes: seq<Theme>, slug: string) {
    forall i :: 0 <= i < |themes| ==> (themes[i].isActive <==> themes[i].slug == slug)
  }

  /** The number of active themes. */
  function ActiveCount(themes: seq<Theme>): nat {
    if themes == [] then 0 else (if themes[0].isActive then 1 else 0) + ActiveCount(themes[1..])
  }

  lemma {:induction false} ActiveCountNone(themes: seq<Theme>, slug: string)
    requires OnlyActive(themes, slug) && ThemeBySlug(themes, slug).None?
    ensures ActiveCount(themes) == 0
  {
    if themes != [] {
      assert !themes[0].isActive;
      ActiveCountNone(themes[1..], slug);
    }
  }

  /** With unique slugs, "only the themes with this slug are active" and "a theme has
      this slug" mean that exactly one theme is active. */
  lemma {:induction false} ActiveCountOne(themes: seq<Theme>, slug: string)
    requires ThemeSlugsUnique(themes) && OnlyActive(themes, slug) && ThemeBySlug(themes, slug).Some?
    ensures ActiveCount(themes) == 1
  {
    if themes[0].slug == slug {
      assert forall i :: 0 <= i < |themes[1..]| ==> themes[1..][i].slug != slug by {
        forall i | 0 <= i < |themes[1..]| ensures themes[1..][i].slug != slug {
          assert themes[1..][i] == themes[i + 1];
        }
      }
      ActiveCountNone(themes[1..], slug);
    } else {
      ActiveCountOne(themes[1..], slug);
    }
  }

  /** `Theme.query.update({'is_active': False})`. */
  function Deactivated(themes: seq<Theme>): (r: seq<Theme>)
    ensures |r| == |themes|
    ensures forall i :: 0 <= i < |themes| ==> r[i] == themes[i].(isActive := false)
  {
    seq(|themes|, i requires 0 <= i < |themes| => themes[i].(isActive := false))
  }

  /** Activating the row at index `i` of a fully deactivated table leaves that row the
      only active one. */
  lemma ActivateExisting(themes: seq<Theme>, i: nat, slug: string)
    requires ThemeSlugsUnique(themes) && i < |themes| && themes[i].slug == slug
    requires forall j :: 0 <= j < |themes| ==> !themes[j].isActive
    ensures OnlyActive(themes[i := themes[i].(isActive := true)], slug)
  {
    var r := themes[i := themes[i].(isActive := true)];
    forall j | 0 <= j < |r| ensures r[j].isActive <==> r[j].slug == slug {
      if j != i {
        if j < i { assert themes[j].slug != themes[i].slug; }
        else { assert themes[i].slug != themes[j].slug; }
      }
    }
  }

  /** Appending an active row with a new slug to a fully deactivated table leaves that row
      the only active one, and the slugs unique. */
  lemma ActivateNew(themes: seq<Theme>, t: Theme)
    requires ThemeSlugsUnique(themes) && ThemeBySlug(themes, t.slug).None? && t.isActive
    requires forall j :: 0 <= j < |themes| ==> !themes[j].isActive
    ensures OnlyActive(themes + [t], t.slug) && ThemeSlugsUnique(themes + [t])
    ensures ThemeBySlug(themes + [t], t.slug).Some?
  {
    assert (themes + [t])[|themes|] == t;
  }

  /** The theme row created when the requested theme has none. */
  function NewTheme(slug: string): Theme {
    Theme(ThemeName(slug), slug, "1.0.0", "CMS Team", true)
  }

  /** The theme table after activating `slug`: every row deactivated, then the row with
      that slug re-activated, or a new active row appended when there is none. */
  function Activated(themes: seq<Theme>, slug: string): seq<Theme> {
    var off := Deactivated(themes);
    match ThemeBySlug(off, slug)
    case None => off + [NewTheme(slug)]
    case Some(i) => off[i := off[i].(isActive := true)]
  }

  /** Activation keeps the slugs unique and leaves exactly one theme active, the one with
      the requested slug; every earlier row is kept with its flag recomputed, and a new
      row is added only when no row had the slug. */
  lemma ActivatedOnly(themes: seq<Theme>, slug: string)
    requires ThemeSlugsUnique(themes)
    ensures ThemeSlugsUnique(Activated(themes, slug))
    ensures OnlyActive(Activated(themes, slug), slug) && ThemeBySlug(Activated(themes, slug), slug).Some?
    ensures ActiveCount(Activated(themes, slug)) == 1
    ensures |Activated(themes, slug)| >= |themes|
    ensures forall i :: 0 <= i < |themes| ==>
      Activated(themes, slug)[i] == themes[i].(isActive := themes[i].slug == slug)
    ensures ThemeBySlug(themes, slug).Some? ==> |Activated(themes, slug)| == |themes|
    ensures ThemeBySlug(themes, slug).None? ==>
      Activated(themes, slug) == Activated(themes, slug)[..|themes|] + [NewTheme(slug)]
  {
    var off := Deactivated(themes);
    var r := Activated(themes, slug);
    assert forall i :: 0 <= i < |off| ==> off[i].slug == themes[i].slug;
    match ThemeBySlug(off, slug)
    case None =>
      ActivateNew(off, NewTheme(slug));
      assert r[..|off|] == off;
      ActiveCountOne(r, slug);
    case Some(k) =>
      ActivateExisting(off, k, slug);
      assert r[k].slug == slug;
      ActiveCountOne(r, slug);
  }

  /** `activate_theme`: deactivate every theme, then activate the one whose slug is the
      requested id, creating its row when it is missing. */
  method ActivateTheme(db: Database, identity: int, themeId: Option<string>) returns (status: Status)
    requires db.Valid()
    modifies db`themes
    ensures db.Valid()
    ensures status == Forbidden403 <==> RoleRequired(old(db.users), identity, AdminOnly).None?
    ensures status == BadRequest400 <==> RoleRequired(old(db.users), identity, AdminOnly).Some? && !Truthy(themeId)
    ensures status == Forbidden403 || status == BadRequest400 || status == Ok200
    ensures status != Ok200 ==> db.themes == old(db.themes)
    ensures status == Ok200 ==> db.themes == Activated(old(db.themes), themeId.value)
  {
    var caller := RoleRequired(db.users, identity, AdminOnly);
    if caller.None? {
      return Forbidden403;
    }
    if !Truthy(themeId) {
      return BadRequest400;
    }
    ActivatedOnly(db.themes, themeId.value);
    db.themes := Activated(db.themes, themeId.value);
    status := Ok200;
  }

  // ---------------------------------------------------------------- uploads

  /** What kind of file an extension names, and the folder it is stored under. */
  datatype Kind = Kind(fileType: string, folder: string)

  /** The classification of `upload_media`. */
  function Classify(ext: string): (k: Kind)
    ensures k.fileType in {"image", "video", "audio", "document"}
    ensures k.folder == "documents" <==> k.fileType == "document"
    ensures k.folder == "images" <==> k.fileType != "document"
  {
    if ext in ["jpg", "jpeg", "png", "gif", "webp"] then Kind("image", "images")
    else if ext in ["mp4", "avi", "mov"] then Kind("video", "images")
    else if ext in ["mp3", "wav", "ogg"] then Kind("audio", "images")
    else Kind("document", "documents")
  }

  /** Among the extensions the allow-list accepts, only mp4 is a video and only mp3 an
      audio file; txt, pdf, zip, doc and docx are documents. */
  lemma ClassifyAllowed(ext: string)
    requires ext in AllowedExtensions
    ensures Classify(ext).fileType == "video" <==> ext == "mp4"
    ensures Classify(ext).fileType == "audio" <==> ext == "mp3"
    ensures Classify(ext).fileType == "document" <==> ext in {"txt", "pdf", "zip", "doc", "docx"}
  {
  }

  lemma LowerNoDot(s: string)
    requires '.' !in s
    ensures '.' !in Lower(s)
  {
    forall i | 0 <= i < |s| ensures Lower(s)[i] != '.' {
      assert s[i] != '.';
    }
  }

  datatype Upload = Upload(filename: string, contentType: string)
  datatype UploadForm = UploadForm(title: Option<string>, altText: Option<string>,
                                   caption: Option<string>, description: Option<string>)

  /** `upload_media`: an allowed file is stored as `<hex>.<ext>` in the folder of its
      kind and recorded in the media table. `secure` is `secure_filename` and `hex` the
      random uuid; a secured name that lost its '.' makes the extension split fail (500). */
  method UploadMedia(db: Database, callerId: int, file: Option<Upload>, form: UploadForm,
                     secure: string -> string, hex: string)
    returns (status: Status)
    modifies db`media
    ensures status == BadRequest400 <==> file.None? || !AllowedFile(file.value.filename)
    ensures status == ServerError500 <==> file.Some? && AllowedFile(file.value.filename) && '.' !in secure(file.value.filename)
    ensures status == BadRequest400 || status == ServerError500 || status == Created201
    ensures status != Created201 ==> db.media == old(db.media)
    ensures status == Created201 ==>
      var name := secure(file.value.filename);
      && '.' in name
      && var ext := Lower(AfterLast(name, '.'));
      && |db.media| == |old(db.media)| + 1 && db.media[..|old(db.media)|] == old(db.media)
      && var m := db.media[|old(db.media)|];
      && m.filename == hex + "." + ext && AfterLast(m.filename, '.') == ext
      && m.url == "/uploads/" + Classify(ext).folder + "/" + m.filename
      && m.fileType == Classify(ext).fileType
      && m.originalFilename == name && m.title == form.title.GetOr(name)
      && m.mimeType == file.value.contentType && m.uploadedBy == callerId
  {
    if file.None? || file.value.filename == "" || !AllowedFile(file.value.filename) {
      return BadRequest400;
    }
    var name := secure(file.value.filename);
    if '.' !in name {
      return ServerError500;
    }
    var ext := Lower(AfterLast(name, '.'));
    LowerNoDot(AfterLast(name, '.'));
    AfterLastOf(hex, '.', ext);
    var stored := hex + "." + ext;
    var kind := Classify(ext);
    var m := Media(form.title.GetOr(name), stored, name, "/uploads/" + kind.folder + "/" + stored,
                   kind.fileType, file.value.contentType, form.altText.GetOr(""), form.caption.GetOr(""),
                   form.description.GetOr(""), callerId);
    db.media := db.media + [m];
    status := Created201;
  }

  // ---------------------------------------------------------------- comments

  datatype CommentRequest = CommentRequest(content: Option<string>, name: Option<string>, email: Option<string>)

  /** Storing a comment under the next comment id, which no stored comment uses. */
  method InsertComment(db: Database, c: Comment) returns (id: int)
    requires db.Valid()
    modifies db`comments, db`nextCommentId
    ensures db.Valid() && id !in old(db.comments)
    ensures db.comments == old(db.comments)[id := c]
  {
    id := db.nextCommentId;
    db.comments := db.comments[id := c];
    db.nextCommentId := db.nextCommentId + 1;
  }

  /** `add_post_comment`: the public comment form. Content is required; the comment is
      published at once, under 'Anonymous' when no name key is sent. */
  method AddPostComment(db: Database, slug: string, req: CommentRequest) returns (status: Status, id: int)
    requires db.Valid()
    modifies db`comments, db`nextCommentId
    ensures db.Valid()
    ensures status == NotFound404 <==> PostBySlug(db.posts, slug).None?
    ensures status == BadRequest400 <==> PostBySlug(db.posts, slug).Some? && !Truthy(req.content)
    ensures status == NotFound404 || status == BadRequest400 || status == Created201
    ensures status != Created201 ==> db.comments == old(db.comments)
    ensures status == Created201 ==>
      && PostBySlug(db.posts, slug).Some? && req.content.Some?
      && id !in old(db.comments)
      && db.comments == old(db.comments)[id := Comment(db.posts[PostBySlug(db.posts, slug).value].id, None,
           Some(req.name.GetOr("Anonymous")), Some(req.email.GetOr("")), req.content.value, "approved", None)]
  {
    id := 0;
    var found := PostBySlug(db.posts, slug);
    if found.None? {
      return NotFound404, id;
    }
    if !Truthy(req.content) {
      return BadRequest400, id;
    }
    id := InsertComment(db, Comment(db.posts[found.value].id, None, Some(req.name.GetOr("Anonymous")),
                                    Some(req.email.GetOr("")), req.content.value, "approved", None));
    status := Created201;
  }

  /** The comments left after deleting the comments `ids` together with their direct
      replies; a reply to a reply stays. */
  function DeleteWithReplies(comments: map<int, Comment>, ids: set<int>): (r: map<int, Comment>)
    ensures forall k :: k in r <==> k in comments && k !in ids && !(comments[k].parentId.Some? && comments[k].parentId.value in ids)
    ensures forall k :: k in r ==> r[k] == comments[k]
  {
    map k | k in comments && k !in ids && !(comments[k].parentId.Some? && comments[k].parentId.value in ids) :: comments[k]
  }

  /** Deletion goes one level deep: a reply to a deleted comment's reply survives, with a
      parent id that no longer names a stored comment. */
  lemma DeleteLeavesDanglingReply(comments: map<int, Comment>, ids: set<int>, reply: int, parent: int)
    requires reply in comments && reply !in ids && comments[reply].parentId == Some(parent)
    requires parent in comments && parent !in ids && comments[parent].parentId.Some?
    requires comments[parent].parentId.value in ids
    ensures reply in DeleteWithReplies(comments, ids)
    ensures parent !in DeleteWithReplies(comments, ids)
  {
  }

  /** `delete_comment_admin`: delete a comment and its direct replies. The not-found
      error raised inside the handler's `try` is caught and answered with 500. */
  method DeleteCommentAdmin(db: Database, identity: int, id: int) returns (status: Status)
    requires db.Valid()
    modifies db`comments
    ensures db.Valid()
    ensures status == Forbidden403 <==> RoleRequired(old(db.users), identity, StaffRoles).None?
    ensures status == ServerError500 <==> RoleRequired(old(db.users), identity, StaffRoles).Some? && id !in old(db.comments)
    ensures status == Forbidden403 || status == ServerError500 || status == Ok200
    ensures status != Ok200 ==> db.comments == old(db.comments)
    ensures status == Ok200 ==> db.comments == DeleteWithReplies(old(db.comments), {id})
  {
    var caller := RoleRequired(db.users, identity, StaffRoles);
    if caller.None? {
      return Forbidden403;
    }
    if id !in db.comments {
      return ServerError500;
    }
    db.comments := DeleteWithReplies(db.comments, {id});
    status := Ok200;
  }

  /** The status each moderation action writes. */
  function ActionStatus(action: string): Option<string> {
    if action == "approve" then Some("approved")
    else if action == "spam" then Some("spam")
    else if action == "trash" then Some("trash")
    else None
  }

  /** The loop of the status actions: every listed comment that exists gets `status`. */
  method SetStatuses(db: Database, ids: seq<int>, status: string)
    modifies db`comments
    ensures db.comments.Keys == old(db.comments).Keys
    ensures forall k :: k in db.comments ==>
      db.comments[k] == if k in ids then old(db.comments)[k].(status := status) else old(db.comments)[k]
  {
    var i := 0;
    while i < |ids|
      invariant 0 <= i <= |ids|
      invariant db.comments.Keys == old(db.comments).Keys
      invariant forall k :: k in db.comments ==>
        db.comments[k] == if k in ids[..i] then old(db.comments)[k].(status := status) else old(db.comments)[k]
    {
      if ids[i] in db.comments {
        db.comments := db.comments[ids[i] := db.comments[ids[i]].(status := status)];
      }
      assert ids[..i + 1] == ids[..i] + [ids[i]];
      i := i + 1;
    }
    assert ids[..i] == ids;
  }

  /** `bulk_comment_action`: approve, mark as spam, trash or delete a list of comments.
      An empty list, a missing action or an unknown action is a 400 that changes nothing;
      delete removes the listed comments and their direct replies. */
  method BulkCommentAction(db: Database, identity: int, ids: seq<int>, action: Option<string>)
    returns (status: Status)
    requires db.Valid()
    modifies db`comments
    ensures db.Valid()
    ensures status == Forbidden403 <==> RoleRequired(old(db.users), identity, StaffRoles).None?
    ensures status == BadRequest400 <==>
      RoleRequired(old(db.users), identity, StaffRoles).Some? &&
      (ids == [] || !Truthy(action) || (ActionStatus(action.value).None? && action.value != "delete"))
    ensures status == Forbidden403 || status == BadRequest400 || status == Ok200
    ensures status != Ok200 ==> db.comments == old(db.comments)
    ensures status == Ok200 && ActionStatus(action.value).Some? ==>
      && db.comments.Keys == old(db.comments).Keys
      && forall k :: k in db.comments ==>
           db.comments[k] == if k in ids then old(db.comments)[k].(status := ActionStatus(action.value).value)
                             else old(db.comments)[k]
    ensures status == Ok200 && action.value == "delete" ==>
      db.comments == DeleteWithReplies(old(db.comments), set k | k in ids)
  {
    var caller := RoleRequired(db.users, identity, StaffRoles);
    if caller.None? {
      return Forbidden403;
    }
    if ids == [] || !Truthy(action) {
      return BadRequest400;
    }
    var a := action.value;
    if ActionStatus(a).Some? {
      SetStatuses(db, ids, ActionStatus(a).value);
    } else if a == "delete" {
      db.comments := DeleteWithReplies(db.comments, set k | k in ids);
    } else {
      return BadRequest400;
    }
    status := Ok200;
  }

  /** `reply_to_comment`: staff answer a comment. The reply belongs to the same post,
      names the parent, carries the caller's name and e-mail and the stripped content,
      and is published at once. A missing parent is caught by the handler's `try` (500). */
  method ReplyToComment(db: Database, identity: int, commentId: int, content: Option<string>)
    returns (status: Status, id: int)
    requires db.Valid()
    modifies db`comments, db`nextCommentId
    ensures db.Valid()
    ensures status == Forbidden403 <==> RoleRequired(old(db.users), identity, WriterRoles).None?
    ensures status == ServerError500 <==> RoleRequired(old(db.users), identity, WriterRoles).Some? && commentId !in old(db.comments)
    ensures status == BadRequest400 <==>
      RoleRequired(old(db.users), identity, WriterRoles).Some? && commentId in old(db.comments) && IsBlank(content.GetOr(""))
    ensures status == Forbidden403 || status == ServerError500 || status == BadRequest400 || status == Created201
    ensures status != Created201 ==> db.comments == old(db.comments)
    ensures status == Created201 ==>
      && RoleRequired(old(db.users), identity, WriterRoles).Some? && commentId in old(db.comments) && id !in old(db.comments)
      && db.comments == old(db.comments)[id := Comment(old(db.comments)[commentId].postId, Some(identity),
           Some(RoleRequired(old(db.users), identity, WriterRoles).value.firstName + " " + RoleRequired(old(db.users), identity, WriterRoles).value.lastName), Some(RoleRequired(old(db.users), identity, WriterRoles).value.email),
           Trim(content.GetOr("")), "approved", Some(commentId))]
      && db.comments[id].content != [] && !IsSpace(db.comments[id].content[0])
  {
    id := 0;
    var caller := RoleRequired(db.users, identity, WriterRoles);
    if caller.None? {
      return Forbidden403, id;
    }
    if commentId !in db.comments {
      return ServerError500, id;
    }
    var text := Trim(content.GetOr(""));
    TrimBlank(content.GetOr(""));
    if text == "" {
      return BadRequest400, id;
    }
    var parent := db.comments[commentId];
    var u := caller.value;
    id := InsertComment(db, Comment(parent.postId, Some(u.id), Some(u.firstName + " " + u.lastName),
                                    Some(u.email), text, "approved", Some(commentId)));
    status := Created201;
  }
}

=== FILE: collections.dfy ===
/** Sequence queries shared by the table models: the first row matching a condition (an
    ORM query's `.first()`), filtering in order (a list comprehension or JavaScript's
    `filter`), and duplicate-freedom. */
module Collections {
  import opened Wrappers

  /** The index of the first element satisfying `p`, or None. */
  function FirstIndex<T>(s: seq<T>, p: T -> bool): (r: Option<nat>)
    ensures r.Some? ==> r.value < |s| && p(s[r.value])
    ensures r.Some? ==> forall i :: 0 <= i < r.value ==> !p(s[i])
    ensures r.None? ==> forall i :: 0 <= i < |s| ==> !p(s[i])
  {
    if |s| == 0 then None
    else if p(s[0]) then Some(0)
    else match FirstIndex(s[1..], p)
      case None => None
      case Some(i) => Some(i + 1)
  }

  /** The elements satisfying `p`, in their original order. */
  function Filter<T>(s: seq<T>, p: T -> bool): (r: seq<T>)
    ensures |r| <= |s|
    ensures forall i :: 0 <= i < |r| ==> r[i] in s && p(r[i])
    ensures forall i :: 0 <= i < |s| && p(s[i]) ==> s[i] in r
  {
    if |s| == 0 then []
    else (if p(s[0]) then [s[0]] else []) + Filter(s[1..], p)
  }

  lemma {:induction false} FilterAppend<T>(a: seq<T>, b: seq<T>, p: T -> bool)
    ensures Filter(a + b, p) == Filter(a, p) + Filter(b, p)
  {
    if |a| == 0 {
      assert a + b == b;
    } else {
      var head := if p(a[0]) then [a[0]] else [];
      calc {
        Filter(a + b, p);
      == { assert (a + b)[0] == a[0] && (a + b)[1..] == a[1..] + b; }
        head + Filter(a[1..] + b, p);
      == { FilterAppend(a[1..], b, p); }
        head + (Filter(a[1..], p) + Filter(b, p));
      ==
        (head + Filter(a[1..], p)) + Filter(b, p);
      }
    }
  }

  /** A filter that every element passes keeps the sequence as it is. */
  lemma {:induction false} FilterAll<T>(s: seq<T>, p: T -> bool)
    requires forall i :: 0 <= i < |s| ==> p(s[i])
    ensures Filter(s, p) == s
  {
    if |s| > 0 {
      FilterAll(s[1..], p);
      assert [s[0]] + s[1..] == s;
    }
  }

  /** Filters whose conditions agree on every element give the same result. */
  lemma {:induction false} FilterSame<T>(s: seq<T>, p: T -> bool, q: T -> bool)
    requires forall i :: 0 <= i < |s| ==> p(s[i]) == q(s[i])
    ensures Filter(s, p) == Filter(s, q)
  {
    if |s| > 0 {
      FilterSame(s[1..], p, q);
    }
  }

  /** Elements told apart by `key` stay told apart by it after filtering. */
  lemma {:induction false} FilterDistinctBy<T, K>(s: seq<T>, p: T -> bool, key: T -> K)
    requires forall i, j :: 0 <= i < j < |s| ==> key(s[i]) != key(s[j])
    ensures forall i, j :: 0 <= i < j < |Filter(s, p)| ==> key(Filter(s, p)[i]) != key(Filter(s, p)[j])
  {
    if |s| > 0 {
      var rest := Filter(s[1..], p);
      FilterDistinctBy(s[1..], p, key);
      forall j | 0 <= j < |rest| ensures key(s[0]) != key(rest[j]) {
        var k :| 0 <= k < |s[1..]| && s[1..][k] == rest[j];
        assert s[k + 1] == rest[j];
      }
    }
  }

  /** No element occurs twice. */
  predicate NoDuplicates<T(==)>(s: seq<T>) {
    forall i, j :: 0 <= i < j < |s| ==> s[i] != s[j]
  }

  /** The elements in reverse order. */
  function Reverse<T>(s: seq<T>): (r: seq<T>)
    ensures |r| == |s|
    ensures forall i :: 0 <= i < |s| ==> r[i] == s[|s| - 1 - i]
  {
    if |s| == 0 then [] else Reverse(s[1..]) + [s[0]]
  }

  /** `s` is in non-decreasing order of `key` (oldest first, for a timestamp). */
  predicate SortedBy<T>(s: seq<T>, key: T -> int) {
    forall i, j :: 0 <= i < j < |s| ==> key(s[i]) <= key(s[j])
  }

  /** `s` is in non-increasing order of `key` (newest first). */
  predicate SortedDescBy<T>(s: seq<T>, key: T -> int) {
    forall i, j :: 0 <= i < j < |s| ==> key(s[i]) >= key(s[j])
  }

  /** A lower bound on the keys of a sequence bounds the keys of what a filter keeps. */
  lemma {:induction false} FilterKeysFrom<T>(s: seq<T>, p: T -> bool, key: T -> int, m: int)
    requires forall i :: 0 <= i < |s| ==> m <= key(s[i])
    ensures forall i :: 0 <= i < |Filter(s, p)| ==> m <= key(Filter(s, p)[i])
  {
    if |s| > 0 {
      FilterKeysFrom(s[1..], p, key, m);
    }
  }

  /** An element no greater than anything in a sorted sequence can go in front of it. */
  lemma ConsSortedBy<T>(x: T, rest: seq<T>, key: T -> int)
    requires SortedBy(rest, key)
    requires forall i :: 0 <= i < |rest| ==> key(x) <= key(rest[i])
    ensures SortedBy([x] + rest, key)
  {
    var r := [x] + rest;
    forall i, j | 0 <= i < j < |r| ensures key(r[i]) <= key(r[j]) {
      assert r[j] == rest[j - 1];
      if i > 0 {
        assert r[i] == rest[i - 1];
      }
    }
  }

  /** Filtering keeps the order of what it keeps. */
  lemma {:induction false} FilterSortedBy<T>(s: seq<T>, p: T -> bool, key: T -> int)
    requires SortedBy(s, key)
    ensures SortedBy(Filter(s, p), key)
  {
    if |s| > 0 {
      var rest := Filter(s[1..], p);
      assert SortedBy(s[1..], key);
      FilterSortedBy(s[1..], p, key);
      FilterKeysFrom(s[1..], p, key, key(s[0]));
      if p(s[0]) {
        ConsSortedBy(s[0], rest, key);
        assert Filter(s, p) == [s[0]] + rest;
      } else {
        assert Filter(s, p) == rest;
      }
    }
  }

  /** Reversing an oldest-first sequence gives a newest-first one. */
  lemma ReverseSortedBy<T>(s: seq<T>, key: T -> int)
    requires SortedBy(s, key)
    ensures SortedDescBy(Reverse(s), key)
  {
    var r := Reverse(s);
    forall i, j | 0 <= i < j < |r| ensures key(r[i]) >= key(r[j]) {
      assert r[i] == s[|s| - 1 - i] && r[j] == s[|s| - 1 - j];
    }
  }
}

=== FILE: legacy_app.dfy ===
/** The first, single-file blog backend (app.py): posts whose tags are one
    comma-joined column, threaded comments, users whose first member becomes the admin,
    and image uploads. The tables live in one `LegacyDb` object, each in insertion
    order. */
module LegacyApp {
  import opened Wrappers
  import opened Text
  import opened Collections

  type Timestamp = int

  datatype Status = Ok200 | Created201 | BadRequest400 | NotFound404 | ServerError500

  datatype LegacyUser = LegacyUser(id: int, username: string, passwordHash: string, isAdmin: bool)

  datatype BlogPost = BlogPost(
    id: int, title: string, slug: string, content: string,
    summary: Option<string>, author: Option<string>, category: Option<string>,
    tags: Option<string>,      // the tag names joined with ','
    imageUrl: Option<string>, published: bool)

  datatype LegacyComment = LegacyComment(
    id: int, postId: int, authorName: string, authorEmail: Option<string>,
    authorAvatar: Option<string>, socialProvider: Option<string>, socialId: Option<string>,
    content: string, parentId: Option<int>, isApproved: bool, createdAt: Timestamp)

  datatype Image = Image(id: int, filename: string, originalFilename: string, url: string,
                         mimeType: string, uploadedBy: int)

  predicate Truthy(v: Option<string>) {
    v.Some? && v.value != ""
  }

  // ---------------------------------------------------------------- slugs and tags

  /** `create_post`'s slug rule: lower-case the requested slug and turn each space into
      a hyphen. */
  function NormaliseSlug(s: string): (r: string)
    ensures |r| == |s|
    ensures forall i :: 0 <= i < |r| ==> r[i] != ' ' && !IsUpper(r[i])
  {
    ReplaceChar(Lower(s), ' ', '-')
  }

  /** Normalising an already normalised slug changes nothing. */
  lemma NormaliseSlugIdempotent(s: string)
    ensures NormaliseSlug(NormaliseSlug(s)) == NormaliseSlug(s)
  {
    var t := NormaliseSlug(s);
    assert forall i :: 0 <= i < |t| ==> LowerChar(t[i]) == t[i];
  }

  /** The stored text of a tag list: `','.join(tags)`. */
  function StoreTags(tags: seq<string>): string {
    Join(tags, ",")
  }

  /** `BlogPost.to_dict`'s tag list: the stored text split on ',', nothing when the
      column is empty or null. */
  function ReadTags(stored: Option<string>): (r: seq<string>)
    ensures stored.None? || stored.value == "" ==> r == []
    ensures Truthy(stored) ==> |r| >= 1
  {
    if stored.None? || stored.value == "" then [] else Split(stored.value, ',')
  }

  /** A stored list of comma-free tags reads back as itself, unless it is the one-element
      list holding the empty tag, which is stored as "" and reads back as []. */
  lemma TagsRoundTrip(tags: seq<string>)
    requires forall k :: 0 <= k < |tags| ==> ',' !in tags[k]
    requires tags != [""]
    ensures ReadTags(Some(StoreTags(tags))) == tags
  {
    if |tags| == 1 {
      assert StoreTags(tags) == tags[0];
      SplitJoin(tags, ',');
    } else if |tags| > 1 {
      assert StoreTags(tags) == tags[0] + "," + Join(tags[1..], ",");
      assert StoreTags(tags) != "" by {
        assert |StoreTags(tags)| >= 1;
      }
      SplitJoin(tags, ',');
    }
  }

  /** The exception: a single empty tag does not survive. */
  lemma TagsRoundTripEmptyTag()
    ensures ReadTags(Some(StoreTags([""]))) == []
  {
  }

  /** How the request's `tags` value is stored: a list is joined; any other value (a
      string, null, or, on update, no key) is stored as it is. */
  datatype TagsValue = TagsList(names: seq<string>) | TagsText(text: Option<string>) | TagsAbsent

  function StoredTags(v: TagsValue, current: Option<string>): (r: Option<string>)
    ensures v.TagsList? ==> r == Some(StoreTags(v.names))
    ensures v.TagsText? ==> r == v.text
    ensures v.TagsAbsent? ==> r == current
  {
    match v
    case TagsList(names) => Some(StoreTags(names))
    case TagsText(text) => text
    case TagsAbsent => current
  }

  // ---------------------------------------------------------------- the tables

  predicate SlugsUnique(posts: seq<BlogPost>) {
    forall i, j :: 0 <= i < j < |posts| ==> posts[i].slug != posts[j].slug
  }

  function PostBySlug(posts: seq<BlogPost>, slug: string): Option<nat> {
    FirstIndex(posts, (p: BlogPost) => p.slug == slug)
  }

  function PostById(posts: seq<BlogPost>, id: int): Option<nat> {
    FirstIndex(posts, (p: BlogPost) => p.id == id)
  }

  function UserByName(users: seq<LegacyUser>, name: string): Option<nat> {
    FirstIndex(users, (u: LegacyUser) => u.username == name)
  }

  function CommentById(comments: seq<LegacyComment>, id: int): Option<nat> {
    FirstIndex(comments, (c: LegacyComment) => c.id == id)
  }

  class LegacyDb {
    var users: seq<LegacyUser>
    var posts: seq<BlogPost>
    var comments: seq<LegacyComment>
    var images: seq<Image>
    var nextUserId: int
    var nextPostId: int
    var nextCommentId: int
    var nextImageId: int

    /** Unique usernames and post slugs; autoincrement ids above the stored ones. */
    ghost predicate Valid()
      reads this
    {
      && (forall i, j :: 0 <= i < j < |users| ==> users[i].username != users[j].username)
      && (forall i :: 0 <= i < |users| ==> users[i].id < nextUserId)
      && SlugsUnique(posts) && (forall i :: 0 <= i < |posts| ==> posts[i].id < nextPostId)
      && (forall i :: 0 <= i < |comments| ==> comments[i].id < nextCommentId)
    }

    constructor ()
      ensures Valid() && users == [] && posts == [] && comments == [] && images == []
    {
      users, posts, comments, images := [], [], [], [];
      nextUserId, nextPostId, nextCommentId, nextImageId := 1, 1, 1, 1;
    }
  }

  // ---------------------------------------------------------------- posts

  datatype PostRequest = PostRequest(
    title: Option<string>, slug: Option<string>, content: Option<string>,
    summary: Option<string>, author: Option<string>, category: Option<string>,
    tags: TagsValue, imageUrl: Option<string>, published: Option<bool>)

  /** `create_post`: the slug is normalised and must be free (400); a missing title or
      content is a `KeyError` (500). */
  method CreatePost(db: LegacyDb, req: PostRequest) returns (status: Status)
    requires db.Valid()
    modifies db`posts, db`nextPostId
    ensures db.Valid()
    ensures status == BadRequest400 <==> PostBySlug(old(db.posts), NormaliseSlug(req.slug.GetOr(""))).Some?
    ensures status == Created201 <==>
      PostBySlug(old(db.posts), NormaliseSlug(req.slug.GetOr(""))).None? && req.title.Some? && req.content.Some?
    ensures status == BadRequest400 || status == ServerError500 || status == Created201
    ensures status != Created201 ==> db.posts == old(db.posts)
    ensures status == Created201 ==>
      db.posts == old(db.posts) + [BlogPost(old(db.nextPostId), req.title.value, NormaliseSlug(req.slug.GetOr("")),
        req.content.value, req.summary, req.author, req.category,
        StoredTags(if req.tags.TagsAbsent? then TagsText(None) else req.tags, None),
        req.imageUrl, req.published.GetOr(false))]
  {
    var slug := NormaliseSlug(req.slug.GetOr(""));
    if PostBySlug(db.posts, slug).Some? {
      return BadRequest400;
    }
    if req.title.None? || req.content.None? {
      return ServerError500;
    }
    var post := BlogPost(db.nextPostId, req.title.value, slug, req.content.value, req.summary, req.author,
                         req.category, StoredTags(if req.tags.TagsAbsent? then TagsText(None) else req.tags, None),
                         req.imageUrl, req.published.GetOr(false));
    db.posts := db.posts + [post];
    db.nextPostId := db.nextPostId + 1;
    status := Created201;
  }

  /** The row `update_post` writes. Unlike creation, the new slug is stored exactly as
      sent. */
  function ApplyPostUpdate(p: BlogPost, req: PostRequest): (r: BlogPost)
    ensures r.id == p.id
    ensures r.slug == req.slug.GetOr(p.slug)
    ensures r.tags == StoredTags(req.tags, p.tags)
    ensures req == PostRequest(None, None, None, None, None, None, TagsAbsent, None, None) ==> r == p
  {
    p.(title := req.title.GetOr(p.title), slug := req.slug.GetOr(p.slug), content := req.content.GetOr(p.content),
       summary := if req.summary.Some? then req.summary else p.summary,
       author := if req.author.Some? then req.author else p.author,
       category := if req.category.Some? then req.category else p.category,
       tags := StoredTags(req.tags, p.tags),
       imageUrl := if req.imageUrl.Some? then req.imageUrl else p.imageUrl,
       published := req.published.GetOr(p.published))
  }

  /** `update_post`: a missing post is a 404; a slug that another post already uses
      breaks the unique constraint at commit (500, nothing stored). */
  method UpdatePost(db: LegacyDb, id: int, req: PostRequest) returns (status: Status)
    requires db.Valid()
    modifies db`posts
    ensures db.Valid()
    ensures status == NotFound404 <==> PostById(old(db.posts), id).None?
    ensures status == NotFound404 || status == ServerError500 || status == Ok200
    ensures status != Ok200 ==> db.posts == old(db.posts)
    ensures status == Ok200 ==>
      PostById(old(db.posts), id).Some? &&
      var i := PostById(old(db.posts), id).value;
      db.posts == old(db.posts)[i := ApplyPostUpdate(old(db.posts)[i], req)]
    ensures status == ServerError500 <==>
      PostById(old(db.posts), id).Some? &&
      var i := PostById(old(db.posts), id).value;
      exists j :: 0 <= j < |old(db.posts)| && j != i &&
        old(db.posts)[j].slug == ApplyPostUpdate(old(db.posts)[i], req).slug
  {
    var found := PostById(db.posts, id);
    if found.None? {
      return NotFound404;
    }
    var i := found.value;
    var updated := ApplyPostUpdate(db.posts[i], req);
    if exists j :: 0 <= j < |db.posts| && j != i && db.posts[j].slug == updated.slug {
      return ServerError500;
    }
    db.posts := db.posts[i := updated];
    status := Ok200;
  }

  // ---------------------------------------------------------------- comments

  /** A top-level comment with its replies, as `get_comments` returns it. */
  datatype Thread = Thread(comment: LegacyComment, replies: seq<LegacyComment>)

  function CreatedAt(c: LegacyComment): int { c.createdAt }

  predicate IsTopLevel(c: LegacyComment, postId: int) {
    c.postId == postId && c.parentId.None? && c.isApproved
  }

  /** The approved direct replies of comment `id`, in table order. */
  function Replies(comments: seq<LegacyComment>, id: int): (r: seq<LegacyComment>)
    ensures forall i :: 0 <= i < |r| ==> r[i] in comments && r[i].parentId == Some(id) && r[i].isApproved
    ensures forall c :: c in comments && c.parentId == Some(id) && c.isApproved ==> c in r
  {
    Filter(comments, (c: LegacyComment) => c.parentId == Some(id) && c.isApproved)
  }

  /** The approved top-level comments of the post, newest first: the table is kept in
      creation order, so the newest is the last one stored. */
  function TopLevel(comments: seq<LegacyComment>, postId: int): (r: seq<LegacyComment>)
    ensures forall i :: 0 <= i < |r| ==> r[i] in comments && IsTopLevel(r[i], postId)
    ensures forall c :: c in comments && IsTopLevel(c, postId) ==> c in r
  {
    var f := Filter(comments, (c: LegacyComment) => IsTopLevel(c, postId));
    var r := Reverse(f);
    assert forall c :: c in comments && IsTopLevel(c, postId) ==> c in r by {
      forall c | c in comments && IsTopLevel(c, postId) ensures c in r {
        var i :| 0 <= i < |comments| && comments[i] == c;
        var j :| 0 <= j < |f| && f[j] == c;
        assert r[|f| - 1 - j] == c;
      }
    }
    r
  }

  /** `get_comments` for a stored post: every approved top-level comment, each with its
      approved replies. */
  function Threads(comments: seq<LegacyComment>, postId: int): (r: seq<Thread>)
    ensures |r| == |TopLevel(comments, postId)|
    ensures forall i :: 0 <= i < |r| ==>
      r[i].comment == TopLevel(comments, postId)[i] && r[i].replies == Replies(comments, r[i].comment.id)
  {
    var top := TopLevel(comments, postId);
    seq(|top|, i requires 0 <= i < |top| => Thread(top[i], Replies(comments, top[i].id)))
  }

  datatype CommentsPage = PostMissing | CommentsPage(threads: seq<Thread>, total: nat)

  /** `get_comments(slug)`. */
  function GetComments(posts: seq<BlogPost>, comments: seq<LegacyComment>, slug: string): (r: CommentsPage)
    ensures r.PostMissing? <==> PostBySlug(posts, slug).None?
    ensures r.CommentsPage? ==> r.total == |r.threads|
  {
    match PostBySlug(posts, slug)
    case None => PostMissing
    case Some(i) =>
      var threads := Threads(comments, posts[i].id);
      CommentsPage(threads, |threads|)
  }

  /** When comments were stored in the order of their timestamps, the threads come
      newest first and each thread's replies oldest first. */
  lemma ThreadsOrdered(comments: seq<LegacyComment>, postId: int)
    requires SortedBy(comments, CreatedAt)
    ensures SortedDescBy(TopLevel(comments, postId), CreatedAt)
    ensures forall t :: t in Threads(comments, postId) ==> SortedBy(t.replies, CreatedAt)
  {
    var p := (c: LegacyComment) => IsTopLevel(c, postId);
    FilterSortedBy(comments, p, CreatedAt);
    ReverseSortedBy(Filter(comments, p), CreatedAt);
    forall t | t in Threads(comments, postId) ensures SortedBy(t.replies, CreatedAt) {
      FilterSortedBy(comments, (c: LegacyComment) => c.parentId == Some(t.comment.id) && c.isApproved, CreatedAt);
    }
  }

  datatype NewComment = NewComment(
    authorName: Option<string>, authorEmail: Option<string>, authorAvatar: Option<string>,
    socialProvider: Option<string>, socialId: Option<string>, content: Option<string>,
    parentId: Option<int>)

  /** `create_comment`: name and content are required; the comment is approved by the
      column default, and the parent id is stored as sent, unchecked. */
  method CreateComment(db: LegacyDb, slug: string, req: NewComment, now: Timestamp) returns (status: Status)
    requires db.Valid()
    modifies db`comments, db`nextCommentId
    ensures db.Valid()
    ensures status == NotFound404 <==> PostBySlug(db.posts, slug).None?
    ensures status == BadRequest400 <==>
      PostBySlug(db.posts, slug).Some? && (!Truthy(req.authorName) || !Truthy(req.content))
    ensures status == NotFound404 || status == BadRequest400 || status == Created201
    ensures status != Created201 ==> db.comments == old(db.comments)
    ensures status == Created201 ==>
      PostBySlug(db.posts, slug).Some? && Truthy(req.authorName) && Truthy(req.content) &&
      db.comments == old(db.comments) + [LegacyComment(old(db.nextCommentId), db.posts[PostBySlug(db.posts, slug).value].id,
        req.authorName.value, req.authorEmail, req.authorAvatar, req.socialProvider, req.socialId,
        req.content.value, req.parentId, true, now)]
  {
    var found := PostBySlug(db.posts, slug);
    if found.None? {
      return NotFound404;
    }
    if !Truthy(req.authorName) || !Truthy(req.content) {
      return BadRequest400;
    }
    var c := LegacyComment(db.nextCommentId, db.posts[found.value].id, req.authorName.value, req.authorEmail,
                           req.authorAvatar, req.socialProvider, req.socialId, req.content.value,
                           req.parentId, true, now);
    db.comments := db.comments + [c];
    db.nextCommentId := db.nextCommentId + 1;
    status := Created201;
  }

  /** `approve_comment`: mark one comment approved and change nothing else. */
  method ApproveComment(db: LegacyDb, id: int) returns (status: Status)
    requires db.Valid()
    modifies db`comments
    ensures db.Valid()
    ensures status == NotFound404 <==> CommentById(old(db.comments), id).None?
    ensures status == NotFound404 || status == Ok200
    ensures status == NotFound404 ==> db.comments == old(db.comments)
    ensures status == Ok200 ==>
      |db.comments| == |old(db.comments)| &&
      forall i :: 0 <= i < |db.comments| ==>
        db.comments[i] == if i == CommentById(old(db.comments), id).value
                          then old(db.comments)[i].(isApproved := true) else old(db.comments)[i]
  {
    var found := CommentById(db.comments, id);
    if found.None? {
      return NotFound404;
    }
    db.comments := db.comments[found.value := db.comments[found.value].(isApproved := true)];
    status := Ok200;
  }

  // ---------------------------------------------------------------- users

  /** `register`: a taken username is a 400; the new user is the admin exactly when the
      user table was empty. A missing password fails when it is hashed (500), a missing
      username at commit (500). */
  method Register(db: LegacyDb, username: Option<string>, password: Option<string>, hash: string -> string)
    returns (status: Status)
    requires db.Valid()
    modifies db`users, db`nextUserId
    ensures db.Valid()
    ensures status == BadRequest400 <==> username.Some? && UserByName(old(db.users), username.value).Some?
    ensures status == Created201 <==>
      username.Some? && UserByName(old(db.users), username.value).None? && password.Some?
    ensures status == BadRequest400 || status == ServerError500 || status == Created201
    ensures status != Created201 ==> db.users == old(db.users)
    ensures status == Created201 ==>
      |db.users| == |old(db.users)| + 1 && db.users[..|old(db.users)|] == old(db.users) &&
      db.users[|old(db.users)|] == LegacyUser(old(db.nextUserId), username.value, hash(password.value), old(db.users) == [])
  {
    if username.Some? && UserByName(db.users, username.value).Some? {
      return BadRequest400;
    }
    if password.None? || username.None? {
      return ServerError500;
    }
    var u := LegacyUser(db.nextUserId, username.value, hash(password.value), |db.users| == 0);
    db.users := db.users + [u];
    db.nextUserId := db.nextUserId + 1;
    status := Created201;
  }

  /** `init_db`: on a database without users, add the admin. */
  method InitDb(db: LegacyDb, adminHash: string)
    requires db.Valid()
    modifies db`users, db`nextUserId
    ensures db.Valid()
    ensures old(db.users) != [] ==> db.users == old(db.users)
    ensures old(db.users) == [] ==> db.users == [LegacyUser(old(db.nextUserId), "admin", adminHash, true)]
  {
    if |db.users| == 0 {
      db.users := [LegacyUser(db.nextUserId, "admin", adminHash, true)];
      db.nextUserId := db.nextUserId + 1;
    }
  }

  /** The number of admin users. */
  function AdminCount(users: seq<LegacyUser>): nat {
    if users == [] then 0 else (if users[0].isAdmin then 1 else 0) + AdminCount(users[1..])
  }

  lemma {:induction false} AdminCountAppend(users: seq<LegacyUser>, u: LegacyUser)
    ensures AdminCount(users + [u]) == AdminCount(users) + (if u.isAdmin then 1 else 0)
  {
    if users != [] {
      assert (users + [u])[1..] == users[1..] + [u];
      AdminCountAppend(users[1..], u);
    }
  }

  /** Registration never creates a second admin: starting from at most one admin, a
      successful registration leaves at most one, and exactly one after the first. */
  lemma RegisterAdmins(users: seq<LegacyUser>, u: LegacyUser)
    requires AdminCount(users) <= 1
    requires u.isAdmin == (users == [])
    ensures AdminCount(users + [u]) <= 1
    ensures users == [] ==> AdminCount(users + [u]) == 1
  {
    AdminCountAppend(users, u);
  }

  // ---------------------------------------------------------------- uploads

  const ImageExtensions: set<string> := {"png", "jpg", "jpeg", "gif", "webp"}

  /** `allowed_file`: the name has a '.' and its lower-cased last extension names an
      image format. */
  predicate AllowedImage(filename: string) {
    '.' in filename && Lower(AfterLast(filename, '.')) in ImageExtensions
  }

  /** For a name split as `stem.ext` with no '.' in `ext`, only the extension decides. */
  lemma AllowedImageOf(stem: string, ext: string)
    requires '.' !in ext
    ensures AllowedImage(stem + "." + ext) <==> Lower(ext) in ImageExtensions
  {
    AfterLastOf(stem, '.', ext);
  }

  /** `upload_image`: an allowed image is stored as `<hex>.<ext>` under the images
      folder and recorded; `hex` is the random uuid. */
  method UploadImage(db: LegacyDb, filename: Option<string>, contentType: Option<string>, hex: string, callerId: int)
    returns (status: Status)
    modifies db`images, db`nextImageId
    ensures status == BadRequest400 <==> filename.None? || !AllowedImage(filename.value)
    ensures status == BadRequest400 || status == Ok200
    ensures status != Ok200 ==> db.images == old(db.images)
    ensures status == Ok200 ==>
      var ext := Lower(AfterLast(filename.value, '.'));
      && ext in ImageExtensions
      && db.images == old(db.images) + [Image(old(db.nextImageId), hex + "." + ext, filename.value,
           "/uploads/images/" + hex + "." + ext,
           if Truthy(contentType) then contentType.value else "image/" + ext, callerId)]
  {
    if filename.None? || filename.value == "" || !AllowedImage(filename.value) {
      return BadRequest400;
    }
    var ext := Lower(AfterLast(filename.value, '.'));
    var stored := hex + "." + ext;
    // the browser's content type, or `image/<ext>` without one
    var mime := if Truthy(contentType) then contentType.value else "image/" + ext;
    db.images := db.images + [Image(db.nextImageId, stored, filename.value, "/uploads/images/" + hex + "." + ext,
                                    mime, callerId)];
    db.nextImageId := db.nextImageId + 1;
    status := Ok200;
  }
}

=== FILE: media_picker.dfy ===
/** The media picker dialog (cms-frontend/src/components/MediaLibraryPicker.js): which
    files it offers for the allowed types, the search over titles and alt texts, the
    type options it lists, and the selection it confirms or cancels. */
module MediaLibraryPicker {
  import opened Wrappers
  import opened Text
  import opened Collections

  /** A media entry as the API lists it. */
  datatype MediaItem = MediaItem(
    id: int, title: Option<string>, altText: Option<string>,
    mimeType: Option<string>, kind: Option<string>)

  /** The first truthy string of `mime_type`, `type`, ''. */
  function TypeText(item: MediaItem): string {
    if item.mimeType.Some? && item.mimeType.value != "" then item.mimeType.value
    else if item.kind.Some? && item.kind.value != "" then item.kind.value
    else ""
  }

  /** The part of the type before the first '/'. */
  function MainType(item: MediaItem): string {
    Split(TypeText(item), '/')[0]
  }

  /** 'image/png' has main type 'image'. */
  lemma MainTypeOf(item: MediaItem, main: string, sub: string)
    requires '/' !in main
    requires TypeText(item) == main + "/" + sub
    ensures MainType(item) == main
  {
    SplitAfterWord(main, '/', sub);
    assert main + "/" + sub == main + ['/'] + sub;
  }

  /** The allowed-type filter runs unless the list is empty or contains 'all'. */
  predicate TypeFilterActive(allowedTypes: seq<string>) {
    |allowedTypes| > 0 && "all" !in allowedTypes
  }

  /** The media `fetchMedia` keeps from the API's answer. */
  function AllowedMedia(response: seq<MediaItem>, allowedTypes: seq<string>): (r: seq<MediaItem>)
    ensures !TypeFilterActive(allowedTypes) ==> r == response
    ensures TypeFilterActive(allowedTypes) ==>
      (forall k :: 0 <= k < |r| ==> r[k] in response && MainType(r[k]) in allowedTypes) &&
      (forall k :: 0 <= k < |response| && MainType(response[k]) in allowedTypes ==> response[k] in r)
  {
    if TypeFilterActive(allowedTypes) then Filter(response, (m: MediaItem) => MainType(m) in allowedTypes)
    else response
  }

  /** What `getMedia` resolves to: the body of the media listing. The backend answers
      with an object holding the page of items and its counts; `Listing` is a body that
      is itself the array of items, the shape the dialog is written for. */
  datatype MediaAnswer =
    | Envelope(items: seq<MediaItem>, total: int, pages: int, currentPage: int)
    | Listing(items: seq<MediaItem>)

  /** `fetchMedia` on `response`: the new `media` state and whether the error toast
      shows. Under an active type filter an object answer has no `filter` method, so the
      call throws, the toast shows and `media` keeps its value; otherwise the answer, or
      its allowed items, becomes the new state. */
  function Fetched(media: MediaAnswer, response: MediaAnswer, allowedTypes: seq<string>): (r: (MediaAnswer, bool))
    ensures r.1 <==> TypeFilterActive(allowedTypes) && response.Envelope?
    ensures r.1 ==> r.0 == media
    ensures !r.1 && response.Listing? ==> r.0 == Listing(AllowedMedia(response.items, allowedTypes))
    ensures !TypeFilterActive(allowedTypes) ==> r.0 == response
  {
    if !TypeFilterActive(allowedTypes) then (response, false)
    else if response.Listing? then (Listing(AllowedMedia(response.items, allowedTypes)), false)
    else (media, true)
  }

  /** `filteredMedia`, the list the dialog renders for the search `term`: None when
      `media` holds an object, whose missing `filter` method makes the render throw. */
  function Shown(media: MediaAnswer, term: string): (r: Option<seq<MediaItem>>)
    ensures r.Some? <==> media.Listing?
  {
    if media.Listing? then Some(SearchMedia(media.items, term)) else None
  }

  /** The backend's object answer never puts its items on screen: with a type filter the
      fetch fails and the rendered list stays what it was, and without one the render
      throws. */
  lemma EnvelopeNeverListed(media: MediaAnswer, response: MediaAnswer, allowedTypes: seq<string>, term: string)
    requires response.Envelope?
    ensures TypeFilterActive(allowedTypes) ==>
      Fetched(media, response, allowedTypes) == (media, true) &&
      Shown(Fetched(media, response, allowedTypes).0, term) == Shown(media, term)
    ensures !TypeFilterActive(allowedTypes) ==> Shown(Fetched(media, response, allowedTypes).0, term).None?
  {
  }

  /** The one place that opens the dialog allows images only, so the type filter is
      active, and the freshly opened dialog keeps its empty list. */
  lemma ImagePickerStaysEmpty(response: MediaAnswer, term: string)
    requires response.Envelope?
    ensures Fetched(Listing([]), response, ["image"]) == (Listing([]), true)
    ensures Shown(Fetched(Listing([]), response, ["image"]).0, term) == Some([])
  {
  }

  /** The item's title or alt text, lower-cased, contains the lower-cased term. A missing
      title or alt text matches nothing. */
  predicate MatchesSearch(item: MediaItem, term: string) {
    (item.title.Some? && Contains(Lower(item.title.value), Lower(term))) ||
    (item.altText.Some? && Contains(Lower(item.altText.value), Lower(term)))
  }

  /** `filteredMedia`: the media matching the search term, in order. */
  function SearchMedia(media: seq<MediaItem>, term: string): (r: seq<MediaItem>)
    ensures forall k :: 0 <= k < |r| ==> r[k] in media && MatchesSearch(r[k], term)
    ensures forall k :: 0 <= k < |media| && MatchesSearch(media[k], term) ==> media[k] in r
  {
    Filter(media, (m: MediaItem) => MatchesSearch(m, term))
  }

  predicate HasCaption(item: MediaItem) {
    item.title.Some? || item.altText.Some?
  }

  /** With an empty search term the list keeps exactly the items that have a title or an
      alt text. */
  lemma SearchEmptyTerm(media: seq<MediaItem>)
    ensures SearchMedia(media, "") == Filter(media, HasCaption)
  {
    forall k | 0 <= k < |media| ensures MatchesSearch(media[k], "") == HasCaption(media[k]) {
      if media[k].title.Some? { ContainsEmpty(Lower(media[k].title.value)); }
      if media[k].altText.Some? { ContainsEmpty(Lower(media[k].altText.value)); }
    }
    FilterSame(media, (m: MediaItem) => MatchesSearch(m, ""), HasCaption);
  }

  /** The search ignores the case of the term. */
  lemma SearchIgnoresTermCase(media: seq<MediaItem>, term: string)
    ensures SearchMedia(media, term) == SearchMedia(media, Lower(term))
  {
    LowerIdempotent(term);
    FilterSame(media, (m: MediaItem) => MatchesSearch(m, term), (m: MediaItem) => MatchesSearch(m, Lower(term)));
  }

  /** A value of the type drop-down. */
  datatype MediaType = All | Image | Video | Audio | Document {
    /** The value's name, as `allowedTypes` spells it. */
    function Name(): string {
      match this
      case All => "all"
      case Image => "image"
      case Video => "video"
      case Audio => "audio"
      case Document => "document"
    }

    /** Its position in the drop-down. */
    function Rank(): nat {
      match this
      case All => 0
      case Image => 1
      case Video => 2
      case Audio => 3
      case Document => 4
    }

    function Caption(): string {
      match this
      case All => "All Files"
      case Image => "Images"
      case Video => "Videos"
      case Audio => "Audio"
      case Document => "Documents"
    }
  }

  /** An entry of the type drop-down. */
  datatype FilterOption = FilterOption(value: MediaType, text: string)

  function OptionOf(t: MediaType): FilterOption {
    FilterOption(t, t.Caption())
  }

  /** `options` is the drop-down built from `allowedTypes` once every type of rank up to
      `upTo` has been considered. */
  ghost predicate ListedUpTo(options: seq<FilterOption>, allowedTypes: seq<string>, upTo: nat) {
    && |options| >= 1 && options[0] == OptionOf(All)
    && (forall k :: 0 <= k < |options| ==> options[k] == OptionOf(options[k].value) && options[k].value.Rank() <= upTo)
    && (forall i, j :: 0 <= i < j < |options| ==> options[i].value.Rank() < options[j].value.Rank())
    && (forall t: MediaType :: t.Rank() <= upTo ==> (OptionOf(t) in options <==> t == All || t.Name() in allowedTypes))
  }

  /** The drop-down holds only 'all' before any other type is considered. */
  lemma ListedStart(allowedTypes: seq<string>)
    ensures ListedUpTo([OptionOf(All)], allowedTypes, 0)
  {
    forall t: MediaType | t.Rank() <= 0 ensures t == All {
    }
  }

  /** The drop-down after type `t` has been considered: extended by its option when it
      is allowed. */
  function Considered(options: seq<FilterOption>, allowedTypes: seq<string>, t: MediaType): seq<FilterOption> {
    if t.Name() in allowedTypes then options + [OptionOf(t)] else options
  }

  /** Considering the next type keeps the drop-down well built, whether or not the type
      is allowed. */
  lemma ListedStep(options: seq<FilterOption>, allowedTypes: seq<string>, t: MediaType)
    requires t.Rank() >= 1 && ListedUpTo(options, allowedTypes, t.Rank() - 1)
    ensures ListedUpTo(Considered(options, allowedTypes, t), allowedTypes, t.Rank())
  {
    forall u: MediaType | u.Rank() == t.Rank() ensures u == t {
    }
    if t.Name() in allowedTypes {
      var o := options + [OptionOf(t)];
      forall u: MediaType | u.Rank() <= t.Rank() ensures OptionOf(u) in o <==> u == All || u.Name() in allowedTypes {
        if u != t {
          assert OptionOf(u) in o <==> OptionOf(u) in options;
        }
      }
    } else {
      assert OptionOf(t) !in options;
    }
  }

  /** The drop-down `getFilterOptions` builds, one type after the other. */
  function OptionsFor(allowedTypes: seq<string>): seq<FilterOption> {
    var withImage := Considered([OptionOf(All)], allowedTypes, Image);
    var withVideo := Considered(withImage, allowedTypes, Video);
    var withAudio := Considered(withVideo, allowedTypes, Audio);
    Considered(withAudio, allowedTypes, Document)
  }

  /** Once every type has been considered, the drop-down starts with 'all', lists exactly
      the allowed types, and keeps the fixed order. */
  lemma ListedAll(options: seq<FilterOption>, allowedTypes: seq<string>)
    requires ListedUpTo(options, allowedTypes, 4)
    ensures |options| >= 1 && options[0] == OptionOf(All)
    ensures forall t :: OptionOf(t) in options <==> t == All || t.Name() in allowedTypes
    ensures forall k :: 0 <= k < |options| ==> options[k] == OptionOf(options[k].value)
    ensures forall i, j :: 0 <= i < j < |options| ==> options[i].value.Rank() < options[j].value.Rank()
  {
    forall t: MediaType ensures t.Rank() <= 4 {
    }
  }

  /** The built drop-down has considered every type. */
  lemma OptionsForListed(allowedTypes: seq<string>)
    ensures ListedUpTo(OptionsFor(allowedTypes), allowedTypes, 4)
  {
    var o0 := [OptionOf(All)];
    ListedStart(allowedTypes);
    ListedStep(o0, allowedTypes, Image);
    var o1 := Considered(o0, allowedTypes, Image);
    ListedStep(o1, allowedTypes, Video);
    var o2 := Considered(o1, allowedTypes, Video);
    ListedStep(o2, allowedTypes, Audio);
    var o3 := Considered(o2, allowedTypes, Audio);
    ListedStep(o3, allowedTypes, Document);
  }

  /** `getFilterOptions`: 'all' first, then each of image, video, audio and document
      that is allowed, in that order. */
  method FilterOptions(allowedTypes: seq<string>) returns (options: seq<FilterOption>)
    ensures |options| >= 1 && options[0] == OptionOf(All)
    ensures forall t :: OptionOf(t) in options <==> t == All || t.Name() in allowedTypes
    ensures forall k :: 0 <= k < |options| ==> options[k] == OptionOf(options[k].value)
    ensures forall i, j :: 0 <= i < j < |options| ==> options[i].value.Rank() < options[j].value.Rank()
  {
    options := [OptionOf(All)];
    if "image" in allowedTypes {
      options := options + [OptionOf(Image)];
    }
    if "video" in allowedTypes {
      options := options + [OptionOf(Video)];
    }
    if "audio" in allowedTypes {
      options := options + [OptionOf(Audio)];
    }
    if "document" in allowedTypes {
      options := options + [OptionOf(Document)];
    }
    assert options == OptionsFor(allowedTypes);
    OptionsForListed(allowedTypes);
    ListedAll(options, allowedTypes);
  }

  /** The dialog's state. `selectedMedia`, `allowedTypes` and `maxSelection` are its
      props. */
  class Picker {
    const selectedMedia: Option<MediaItem>
    const allowedTypes: seq<string>
    const maxSelection: int
    var media: MediaAnswer
    var selected: Option<MediaItem>

    constructor (selectedMedia: Option<MediaItem>, allowedTypes: seq<string>, maxSelection: int)
      ensures this.selectedMedia == selectedMedia && this.allowedTypes == allowedTypes
      ensures this.maxSelection == maxSelection
      ensures media == Listing([]) && selected == selectedMedia
    {
      this.selectedMedia := selectedMedia;
      this.allowedTypes := allowedTypes;
      this.maxSelection := maxSelection;
      media := Listing([]);
      selected := selectedMedia;
    }

    /** `fetchMedia`, given the API's answer; `failed` is the error toast. */
    method FetchMedia(response: MediaAnswer) returns (failed: bool)
      modifies this`media
      ensures (media, failed) == Fetched(old(media), response, allowedTypes)
    {
      failed := false;
      if TypeFilterActive(allowedTypes) {
        if response.Envelope? {
          failed := true;
        } else {
          media := Listing(AllowedMedia(response.items, allowedTypes));
        }
      } else {
        media := response;
      }
    }

    /** `handleMediaSelect`: clicking an item selects it in single-selection mode. */
    method HandleMediaSelect(item: MediaItem)
      modifies this`selected
      ensures maxSelection == 1 ==> selected == Some(item)
      ensures maxSelection != 1 ==> selected == old(selected)
    {
      if maxSelection == 1 {
        selected := Some(item);
      }
    }

    /** `handleConfirmSelection`: hand the selection to `onSelect` and close, only when
        something is selected. */
    method HandleConfirmSelection() returns (chosen: Option<MediaItem>, closed: bool)
      ensures chosen == selected && (closed <==> selected.Some?)
    {
      if selected.Some? {
        chosen := selected;
        closed := true;
      } else {
        chosen := None;
        closed := false;
      }
    }

    /** `handleClose`: cancel, restoring the selection from the prop, and close. */
    method HandleClose() returns (closed: bool)
      modifies this`selected
      ensures selected == selectedMedia && closed
    {
      selected := selectedMedia;
      closed := true;
    }
  }
}

=== FILE: pdf_viewer.dfy ===
/** The embedded PDF viewer (cms-frontend/src/components/PDFViewer.js): the page shown,
    the page count once the document has loaded, and the loading and error flags. */
module PdfViewer {
  import opened Wrappers

  /** `numPages || 1`: the page count, 1 before the document loads (or for a count of 0). */
  function PageCount(numPages: Option<nat>): (r: nat)
    ensures r >= 1
    ensures numPages.Some? && numPages.value >= 1 ==> r == numPages.value
  {
    if numPages.Some? && numPages.value != 0 then numPages.value else 1
  }

  function Min(a: int, b: int): int { if a <= b then a else b }
  function Max(a: int, b: int): int { if a >= b then a else b }

  /** `changePage`'s update: the page moved by `offset`, clamped to the document. */
  function ChangedPage(page: int, offset: int, numPages: Option<nat>): (r: int)
    ensures 1 <= r <= PageCount(numPages)
    ensures 1 <= page + offset <= PageCount(numPages) ==> r == page + offset
    ensures page + offset < 1 ==> r == 1
    ensures page + offset > PageCount(numPages) ==> r == PageCount(numPages)
  {
    Max(1, Min(page + offset, PageCount(numPages)))
  }

  /** The Previous button is disabled on the first page. */
  predicate PrevDisabled(page: int) { page <= 1 }

  /** The Next button is disabled on the last page. */
  predicate NextDisabled(page: int, numPages: Option<nat>) { page >= PageCount(numPages) }

  /** On a page inside the document, an enabled button moves exactly one page and a
      disabled one would not move at all. */
  lemma EnabledButtonsMoveOnePage(page: int, numPages: Option<nat>)
    requires 1 <= page <= PageCount(numPages)
    ensures !PrevDisabled(page) ==> ChangedPage(page, -1, numPages) == page - 1
    ensures !NextDisabled(page, numPages) ==> ChangedPage(page, 1, numPages) == page + 1
    ensures PrevDisabled(page) ==> ChangedPage(page, -1, numPages) == page
    ensures NextDisabled(page, numPages) ==> ChangedPage(page, 1, numPages) == page
  {
  }

  /** Going forward and back again returns to the page, unless forward was blocked. */
  lemma NextThenPrev(page: int, numPages: Option<nat>)
    requires 1 <= page && !NextDisabled(page, numPages)
    ensures ChangedPage(ChangedPage(page, 1, numPages), -1, numPages) == page
  {
  }

  /** The viewer's state. */
  class Viewer {
    var numPages: Option<nat>
    var pageNumber: int
    var loading: bool
    var error: Option<string>

    constructor ()
      ensures numPages.None? && pageNumber == 1 && loading && error.None?
    {
      numPages := None;
      pageNumber := 1;
      loading := true;
      error := None;
    }

    /** The page shown lies inside the document. */
    predicate PageInRange()
      reads this
    {
      1 <= pageNumber <= PageCount(numPages)
    }

    /** `onDocumentLoadSuccess`: record the page count, stop loading, clear the error.
        The page number is kept as it was. */
    method OnLoadSuccess(count: nat)
      modifies this`numPages, this`loading, this`error
      ensures numPages == Some(count) && !loading && error.None?
      ensures pageNumber == old(pageNumber)
    {
      numPages := Some(count);
      loading := false;
      error := None;
    }

    /** `onDocumentLoadError`: record the error and stop loading. */
    method OnLoadError()
      modifies this`loading, this`error
      ensures error == Some("Failed to load PDF document") && !loading
    {
      error := Some("Failed to load PDF document");
      loading := false;
    }

    /** `changePage`: move by `offset`, staying inside the document. */
    method ChangePage(offset: int)
      modifies this`pageNumber
      ensures pageNumber == ChangedPage(old(pageNumber), offset, numPages)
      ensures PageInRange()
    {
      pageNumber := Max(1, Min(pageNumber + offset, PageCount(numPages)));
    }
  }
}

=== FILE: post_editor.dfy ===
/** The CMS post editor (cms-frontend/src/pages/admin/PostEditor.js): the checks made
    before a post is published, the random choice of sample tags and their split into
    existing and new tags, and the extension filters over the media library. */
module PostEditor {
  import opened Wrappers
  import opened Text
  import opened Collections

  // ---------------------------------------------------------------- publishing

  /** The editor form: every field holds text (the form's defaults are all ''). */
  type FormData = map<string, string>

  /** A field's text, "" when the field is absent (absent and '' are both falsy). */
  function Field(data: FormData, name: string): string {
    if name in data then data[name] else ""
  }

  /** A value of the publish request: form text, or the list of tag names. */
  datatype Value = Str(text: string) | Names(names: seq<string>)

  type Request = map<string, Value>

  /** What `handlePublish` does: stop because title or slug is missing, stop because
      there is no content, or send the request. */
  datatype PublishOutcome = MissingTitleOrSlug | EmptyContent | Publish(request: Request)

  /** The content published: the form's content, or the editor's HTML when the form's
      content is empty. */
  function ChosenContent(data: FormData, editorHtml: string): string {
    if Field(data, "content") != "" then Field(data, "content") else editorHtml
  }

  /** Content the editor treats as no content: blank, or an empty paragraph. */
  predicate BlankContent(c: string) {
    Trim(c) == "" || Trim(c) == "<p></p>"
  }

  /** Every form field as request text. */
  function Spread(data: FormData): (r: Request)
    ensures r.Keys == data.Keys
    ensures forall n :: n in data ==> r[n] == Str(data[n])
  {
    map n | n in data :: Str(data[n])
  }

  /** `{...data, content, status: 'published', tags}`. */
  function PublishRequest(data: FormData, content: string, tags: seq<string>): (r: Request)
    ensures "content" in r && r["content"] == Str(content)
    ensures "status" in r && r["status"] == Str("published")
    ensures "tags" in r && r["tags"] == Names(tags)
  {
    Spread(data)["content" := Str(content)]["status" := Str("published")]["tags" := Names(tags)]
  }

  /** A publish request keeps every other field of the form and adds only content,
      status and tags. */
  lemma PublishRequestKeepsFields(data: FormData, content: string, tags: seq<string>, n: string)
    ensures n in data && n != "content" && n != "status" && n != "tags" ==>
      n in PublishRequest(data, content, tags) && PublishRequest(data, content, tags)[n] == Str(data[n])
    ensures n in PublishRequest(data, content, tags) ==> n in data || n == "content" || n == "status" || n == "tags"
  {
    var r := Spread(data);
    assert n in data ==> n in r && r[n] == Str(data[n]);
  }

  /** `handlePublish`, up to the API call. */
  function HandlePublish(data: FormData, editorHtml: string, selectedTags: seq<string>): (r: PublishOutcome)
    ensures r.MissingTitleOrSlug? <==> Field(data, "title") == "" || Field(data, "slug") == ""
    ensures r.EmptyContent? <==>
      Field(data, "title") != "" && Field(data, "slug") != "" && BlankContent(ChosenContent(data, editorHtml))
    ensures r.Publish? ==>
      var c := ChosenContent(data, editorHtml);
      !BlankContent(c) && Trim(c) != "" &&
      (c == Field(data, "content") || (Field(data, "content") == "" && c == editorHtml)) &&
      r.request == PublishRequest(data, c, selectedTags) &&
      r.request["content"] == Str(c) && r.request["status"] == Str("published") &&
      r.request["tags"] == Names(selectedTags)
  {
    if Field(data, "title") == "" || Field(data, "slug") == "" then MissingTitleOrSlug
    else
      var content := ChosenContent(data, editorHtml);
      if content == "" || Trim(content) == "<p></p>" || Trim(content) == "" then EmptyContent
      else Publish(PublishRequest(data, content, selectedTags))
  }

  // ---------------------------------------------------------------- sample tags

  const SampleTagNames: seq<string> := [
    "biotechnology", "research", "innovation", "science", "laboratory",
    "molecular biology", "genetics", "bioengineering", "pharmaceuticals",
    "synthetic biology", "CRISPR", "protein engineering", "fermentation",
    "bioinformatics", "systems biology", "metabolic engineering"]

  /** A draw is the index `Math.floor(Math.random() * 16)` picks. */
  predicate ValidPicks(picks: seq<nat>) {
    forall i :: 0 <= i < |picks| ==> picks[i] < |SampleTagNames|
  }

  /** The names the draws picked. */
  function Drawn(picks: seq<nat>): (r: set<string>)
    requires ValidPicks(picks)
  {
    set i | 0 <= i < |picks| :: SampleTagNames[picks[i]]
  }

  lemma DrawnAppend(picks: seq<nat>, p: nat)
    requires ValidPicks(picks) && p < |SampleTagNames|
    ensures ValidPicks(picks + [p])
    ensures Drawn(picks + [p]) == Drawn(picks) + {SampleTagNames[p]}
  {
    var all := picks + [p];
    assert forall i :: 0 <= i < |picks| ==> all[i] == picks[i];
    assert all[|picks|] == p;
  }

  /** The random tag choice: `countRoll` is `Math.floor(Math.random() * 3)`, so there
      are 3 to 5 draws, and `picks` holds the index each draw picks. A name drawn again
      is skipped. */
  method SelectTagNames(countRoll: nat, picks: seq<nat>) returns (selected: seq<string>)
    requires countRoll < 3
    requires |picks| == countRoll + 3 && ValidPicks(picks)
    ensures 1 <= |selected| <= |picks|
    ensures NoDuplicates(selected)
    ensures (set t | t in selected) == Drawn(picks)
    ensures selected[0] == SampleTagNames[picks[0]]
  {
    var numberOfTags := countRoll + 3;
    selected := [];
    var i := 0;
    while i < numberOfTags
      invariant 0 <= i <= numberOfTags
      invariant ValidPicks(picks[..i])
      invariant |selected| <= i && (i > 0 ==> |selected| >= 1)
      invariant i > 0 ==> selected[0] == SampleTagNames[picks[0]]
      invariant NoDuplicates(selected)
      invariant (set t | t in selected) == Drawn(picks[..i])
    {
      var randomTag := SampleTagNames[picks[i]];
      if randomTag !in selected {
        selected := selected + [randomTag];
      }
      assert picks[..i + 1] == picks[..i] + [picks[i]];
      DrawnAppend(picks[..i], picks[i]);
      i := i + 1;
    }
    assert picks[..i] == picks;
  }

  /** A tag the API lists. */
  datatype TagRow = TagRow(id: int, name: string)

  function RowNames(rows: seq<TagRow>): (r: seq<string>)
    ensures |r| == |rows| && forall k :: 0 <= k < |rows| ==> r[k] == rows[k].name
  {
    seq(|rows|, k requires 0 <= k < |rows| => rows[k].name)
  }

  /** The existing tags whose name was selected, in the order the API listed them. */
  function ExistingTags(tags: seq<TagRow>, selected: seq<string>): seq<TagRow> {
    Filter(tags, (t: TagRow) => t.name in selected)
  }

  /** The selected names no existing tag carries, in the order they were drawn. */
  function NewTagNames(existing: seq<TagRow>, selected: seq<string>): seq<string> {
    Filter(selected, (n: string) => !(exists k :: 0 <= k < |existing| && existing[k].name == n))
  }

  /** The tag names put in the editor: existing tags first, then new names. */
  function SelectedTagList(tags: seq<TagRow>, selected: seq<string>): seq<string> {
    var existing := ExistingTags(tags, selected);
    RowNames(existing) + NewTagNames(existing, selected)
  }

  /** As a set, the tag list is exactly the selected names. */
  lemma SelectedTagListNames(tags: seq<TagRow>, selected: seq<string>, n: string)
    ensures n in SelectedTagList(tags, selected) <==> n in selected
  {
    var existing := ExistingTags(tags, selected);
    var names := RowNames(existing);
    var newNames := NewTagNames(existing, selected);
    if n in selected {
      if exists k :: 0 <= k < |existing| && existing[k].name == n {
        var k :| 0 <= k < |existing| && existing[k].name == n;
        assert names[k] == n;
      } else {
        var j :| 0 <= j < |selected| && selected[j] == n;
        assert newNames == Filter(selected, (m: string) => !(exists k :: 0 <= k < |existing| && existing[k].name == m));
      }
    }
    if n in names {
      var k :| 0 <= k < |names| && names[k] == n;
      assert existing[k] in tags && existing[k].name in selected;
    }
  }

  /** Tag rows with pairwise different names. */
  predicate NamesUnique(tags: seq<TagRow>) {
    forall i, j :: 0 <= i < j < |tags| ==> tags[i].name != tags[j].name
  }

  /** With duplicate-free draws and uniquely named tags, no name is listed twice. */
  lemma SelectedTagListNoDuplicates(tags: seq<TagRow>, selected: seq<string>)
    requires NoDuplicates(selected) && NamesUnique(tags)
    ensures NoDuplicates(SelectedTagList(tags, selected))
  {
    var existing := ExistingTags(tags, selected);
    var isNew := (m: string) => !(exists k :: 0 <= k < |existing| && existing[k].name == m);
    var names := RowNames(existing);
    var newNames := NewTagNames(existing, selected);
    FilterDistinctBy(tags, (t: TagRow) => t.name in selected, (t: TagRow) => t.name);
    FilterDistinctBy(selected, isNew, (m: string) => m);
    var r := names + newNames;
    forall i, j | 0 <= i < j < |r| ensures r[i] != r[j] {
      if j < |names| {
        assert r[i] == existing[i].name && r[j] == existing[j].name;
      } else if i >= |names| {
        assert r[i] == newNames[i - |names|] && r[j] == newNames[j - |names|];
      } else {
        assert r[i] == existing[i].name;
        assert isNew(newNames[j - |names|]);
      }
    }
  }

  // ---------------------------------------------------------------- media filters

  /** A media library entry; only its file name matters to the filters. */
  datatype MediaItem = MediaItem(id: int, filename: Option<string>, url: string)

  const ImageExtensions: seq<string> := [".jpg", ".jpeg", ".png", ".gif", ".webp"]
  const PdfExtensions: seq<string> := [".pdf"]
  const WordExtensions: seq<string> := [".doc", ".docx"]
  const DownloadExtensions: seq<string> := [".zip", ".xlsx", ".pptx", ".csv", ".txt"]

  /** The entry has a non-empty file name whose lower-cased form contains one of `exts`
      anywhere. */
  predicate HasExtension(m: MediaItem, exts: seq<string>) {
    m.filename.Some? && m.filename.value != "" &&
    exists k :: 0 <= k < |exts| && Contains(Lower(m.filename.value), exts[k])
  }

  /** The media of one kind, in library order. */
  function MediaOfKind(media: seq<MediaItem>, exts: seq<string>): (r: seq<MediaItem>)
    ensures forall k :: 0 <= k < |r| ==> r[k] in media && HasExtension(r[k], exts)
    ensures forall k :: 0 <= k < |media| && HasExtension(media[k], exts) ==> media[k] in r
  {
    Filter(media, (m: MediaItem) => HasExtension(m, exts))
  }

  /** '.docx' adds nothing to the Word list: every name containing it contains '.doc'. */
  lemma WordMatchesDoc(media: seq<MediaItem>)
    ensures MediaOfKind(media, WordExtensions) == MediaOfKind(media, [".doc"])
  {
    forall i | 0 <= i < |media| ensures HasExtension(media[i], WordExtensions) == HasExtension(media[i], [".doc"]) {
      if HasExtension(media[i], WordExtensions) {
        var s := Lower(media[i].filename.value);
        var k :| 0 <= k < |WordExtensions| && Contains(s, WordExtensions[k]);
        if k == 1 {
          assert ".doc" + "x" == WordExtensions[1];
          ContainsPrefixOf(s, ".doc", "x");
        }
        assert Contains(s, [".doc"][0]);
      }
      if HasExtension(media[i], [".doc"]) {
        var s := Lower(media[i].filename.value);
        assert Contains(s, [".doc"][0]);
        assert Contains(s, WordExtensions[0]);
      }
    }
    FilterSame(media, (m: MediaItem) => HasExtension(m, WordExtensions), (m: MediaItem) => HasExtension(m, [".doc"]));
  }

  /** The kinds can overlap: an entry whose name contains both '.pdf' and '.zip', such as
      'notes.pdf.zip', is listed both as a PDF and as a download. */
  lemma KindsOverlap(media: seq<MediaItem>, k: nat)
    requires k < |media| && media[k].filename.Some?
    requires Contains(Lower(media[k].filename.value), ".pdf") && Contains(Lower(media[k].filename.value), ".zip")
    ensures media[k] in MediaOfKind(media, PdfExtensions) && media[k] in MediaOfKind(media, DownloadExtensions)
  {
    var s := Lower(media[k].filename.value);
    assert Contains(s, PdfExtensions[0]);
    assert Contains(s, DownloadExtensions[0]);
  }
}

=== FILE: post_page.dfy ===
/** The public post page (cms-frontend/src/pages/public/PostPage.js): the like button,
    which keeps the liked slugs in the browser's stored list, and the comment form. */
module PostPage {
  import opened Wrappers
  import opened Text
  import opened Collections

  /** The stored list with the first occurrence of `x` spliced out, if there is one. */
  function RemoveFirst(s: seq<string>, x: string): (r: seq<string>)
    ensures x !in s ==> r == s
    ensures x in s ==> |r| == |s| - 1
    ensures multiset(r) == multiset(s) - multiset{x}
  {
    match FirstIndex(s, (y: string) => y == x)
    case None => s
    case Some(i) =>
      assert s == s[..i] + [s[i]] + s[i + 1..];
      s[..i] + s[i + 1..]
  }

  /** The occurrence spliced out is the first one: the result is the list around the
      earliest index holding `x`. */
  lemma RemoveFirstSplicesFirst(s: seq<string>, x: string, i: nat)
    requires i < |s| && s[i] == x && x !in s[..i]
    ensures RemoveFirst(s, x) == s[..i] + s[i + 1..]
  {
    var j := FirstIndex(s, (y: string) => y == x);
    assert j == Some(i);
  }

  /** Appending `x` and splicing out its first occurrence restores a list without `x`. */
  lemma RemoveFirstAppended(s: seq<string>, x: string)
    requires x !in s
    ensures RemoveFirst(s + [x], x) == s
  {
    var i := FirstIndex(s + [x], (y: string) => y == x);
    assert (s + [x])[|s|] == x;
    assert i == Some(|s|);
  }

  /** The like button's state: whether the post is liked, the count shown, and the
      stored list of liked slugs. */
  datatype LikeState = LikeState(liked: bool, likeCount: int, likedPosts: seq<string>)

  /** The state when the page opens: liked when the stored list holds the slug; the count
      starts at the post's view count, or 0. */
  function InitialLikes(slug: string, stored: seq<string>, viewCount: Option<int>): (r: LikeState)
    ensures r.liked <==> slug in stored
    ensures r.likedPosts == stored
    ensures r.likeCount == if viewCount.Some? then viewCount.value else 0
  {
    LikeState(slug in stored, if viewCount.Some? && viewCount.value != 0 then viewCount.value else 0, stored)
  }

  /** The page opens with the button agreeing with the stored list, provided the list
      holds the slug at most once. */
  lemma InitialConsistent(slug: string, stored: seq<string>, viewCount: Option<int>)
    requires multiset(stored)[slug] <= 1
    ensures Consistent(InitialLikes(slug, stored, viewCount), slug)
    ensures InitialLikes(slug, stored, viewCount).likeCount >= 0 <==> viewCount.None? || viewCount.value >= 0
  {
  }

  /** `handleLike`: liking appends the slug and counts one more; unliking splices out the
      slug's first occurrence and counts one less, never below 0. */
  function ToggleLike(st: LikeState, slug: string): (r: LikeState)
    ensures r.liked == !st.liked
    ensures !st.liked ==> r.likedPosts == st.likedPosts + [slug] && r.likeCount == st.likeCount + 1
    ensures st.liked ==> multiset(r.likedPosts) == multiset(st.likedPosts) - multiset{slug}
    ensures st.liked ==> r.likedPosts == RemoveFirst(st.likedPosts, slug)
    ensures st.liked ==> r.likeCount == if st.likeCount >= 1 then st.likeCount - 1 else 0
    ensures st.likeCount >= 0 ==> r.likeCount >= 0
  {
    if st.liked then LikeState(false, Max(0, st.likeCount - 1), RemoveFirst(st.likedPosts, slug))
    else LikeState(true, st.likeCount + 1, st.likedPosts + [slug])
  }

  function Max(a: int, b: int): int { if a >= b then a else b }

  /** The button agrees with the stored list: the slug is stored at most once, and
      exactly when the post is liked. */
  predicate Consistent(st: LikeState, slug: string) {
    multiset(st.likedPosts)[slug] <= 1 && (st.liked <==> slug in st.likedPosts)
  }

  /** Every click keeps the button and the stored list in agreement. */
  lemma ToggleKeepsConsistent(st: LikeState, slug: string)
    requires Consistent(st, slug)
    ensures Consistent(ToggleLike(st, slug), slug)
  {
    var r := ToggleLike(st, slug);
    if st.liked {
      assert multiset(r.likedPosts)[slug] == 0;
      assert slug !in multiset(r.likedPosts);
    } else {
      assert multiset(st.likedPosts)[slug] == 0;
      assert multiset(st.likedPosts + [slug]) == multiset(st.likedPosts) + multiset{slug};
    }
  }

  /** `x` after `n` applications of `step`. */
  function Repeat<T>(step: T -> T, x: T, n: nat): T
    decreases n
  {
    if n == 0 then x else Repeat(step, step(x), n - 1)
  }

  /** A property every step keeps holds after any number of steps. */
  lemma {:induction false} RepeatKeeps<T>(step: T -> T, inv: T -> bool, x: T, n: nat)
    requires inv(x) && forall y :: inv(y) ==> inv(step(y))
    ensures inv(Repeat(step, x, n))
    decreases n
  {
    if n > 0 {
      RepeatKeeps(step, inv, step(x), n - 1);
    }
  }

  /** The like state after `n` clicks on the button. */
  function Clicks(st: LikeState, slug: string, n: nat): LikeState {
    Repeat((s: LikeState) => ToggleLike(s, slug), st, n)
  }

  /** However often the button is clicked after the page opens, it agrees with the
      stored list. */
  lemma ClicksKeepConsistent(slug: string, stored: seq<string>, viewCount: Option<int>, n: nat)
    requires multiset(stored)[slug] <= 1
    ensures Consistent(Clicks(InitialLikes(slug, stored, viewCount), slug, n), slug)
  {
    var click := (s: LikeState) => ToggleLike(s, slug);
    var consistent := (s: LikeState) => Consistent(s, slug);
    forall y | consistent(y) ensures consistent(click(y)) {
      ToggleKeepsConsistent(y, slug);
    }
    InitialConsistent(slug, stored, viewCount);
    RepeatKeeps(click, consistent, InitialLikes(slug, stored, viewCount), n);
  }

  /** Liking and then unliking a post not yet liked restores the stored list and the
      count. */
  lemma LikeThenUnlike(st: LikeState, slug: string)
    requires Consistent(st, slug) && !st.liked && st.likeCount >= 0
    ensures ToggleLike(ToggleLike(st, slug), slug) == st
  {
    RemoveFirstAppended(st.likedPosts, slug);
  }

  /** The like state after the route's slug changes while the page stays mounted: the
      effect only ever turns `liked` on, so a liked button stays liked; the count is
      reloaded from the new post; the stored list is untouched. */
  function Navigated(st: LikeState, newSlug: string, viewCount: Option<int>): (r: LikeState)
    ensures r.liked <==> st.liked || newSlug in st.likedPosts
    ensures r.likedPosts == st.likedPosts
    ensures r.likeCount == InitialLikes(newSlug, st.likedPosts, viewCount).likeCount
  {
    LikeState(st.liked || newSlug in st.likedPosts, InitialLikes(newSlug, st.likedPosts, viewCount).likeCount,
              st.likedPosts)
  }

  /** Leaving a post that is not liked is the same as opening the new post afresh. */
  lemma NavigateFromUnliked(st: LikeState, newSlug: string, viewCount: Option<int>)
    requires !st.liked
    ensures Navigated(st, newSlug, viewCount) == InitialLikes(newSlug, st.likedPosts, viewCount)
  {
  }

  /** Leaving a liked post for one that is not stored keeps the button liked, so it no
      longer agrees with the stored list; the next click then takes the unlike branch,
      splices nothing out, and still counts one less. */
  lemma StaleLikeAfterNavigate(st: LikeState, newSlug: string, viewCount: Option<int>)
    requires st.liked && newSlug !in st.likedPosts
    ensures !Consistent(Navigated(st, newSlug, viewCount), newSlug)
    ensures var next := ToggleLike(Navigated(st, newSlug, viewCount), newSlug);
      !next.liked && next.likedPosts == st.likedPosts &&
      next.likeCount == Max(0, InitialLikes(newSlug, st.likedPosts, viewCount).likeCount - 1)
  {
  }

  /** A comment as the API returns it. */
  datatype CommentView = CommentView(id: int, authorName: string, content: string)

  /** The comment form's three fields. */
  datatype CommentDraft = CommentDraft(name: string, email: string, content: string)

  const EmptyDraft := CommentDraft("", "", "")

  /** What `addComment` resolves to: the comment the server saved, or, when the request
      fails, a stand-in built from the draft whose id is the clock reading `now`. It
      never rejects. */
  function AddCommentResult(draft: CommentDraft, answer: Option<CommentView>, now: int): (r: CommentView)
    ensures answer.Some? ==> r == answer.value
    ensures answer.None? ==> r.id == now && r.authorName == draft.name && r.content == draft.content
  {
    match answer
    case Some(c) => c
    case None => CommentView(now, draft.name, draft.content)
  }

  /** The page's state for one post. */
  class PostView {
    var slug: string
    var liked: bool
    var likeCount: int
    var likedPosts: seq<string>
    var comments: seq<CommentView>
    var newComment: CommentDraft

    constructor (slug: string, stored: seq<string>, viewCount: Option<int>, comments: seq<CommentView>)
      ensures this.slug == slug && Likes() == InitialLikes(slug, stored, viewCount)
      ensures this.comments == comments && newComment == EmptyDraft
    {
      this.slug := slug;
      liked := slug in stored;
      likeCount := if viewCount.Some? && viewCount.value != 0 then viewCount.value else 0;
      likedPosts := stored;
      this.comments := comments;
      newComment := EmptyDraft;
    }

    function Likes(): LikeState
      reads this
    {
      LikeState(liked, likeCount, likedPosts)
    }

    /** The route's slug changes to `newSlug` without remounting the page: the effect
        reloads the post's count and its comments and checks the stored list again. */
    method Navigate(newSlug: string, viewCount: Option<int>, comments: seq<CommentView>)
      modifies this`slug, this`liked, this`likeCount, this`comments
      ensures slug == newSlug && Likes() == Navigated(old(Likes()), newSlug, viewCount)
      ensures this.comments == comments && newComment == old(newComment)
    {
      slug := newSlug;
      if newSlug in likedPosts {
        liked := true;
      }
      likeCount := if viewCount.Some? && viewCount.value != 0 then viewCount.value else 0;
      this.comments := comments;
    }

    /** `handleLike`: splice or push the stored list, adjust the count, flip `liked`. */
    method HandleLike()
      modifies this`liked, this`likeCount, this`likedPosts
      ensures Likes() == ToggleLike(old(Likes()), slug)
    {
      var stored := likedPosts;
      if liked {
        stored := RemoveFirst(stored, slug);
        likeCount := Max(0, likeCount - 1);
      } else {
        stored := stored + [slug];
        likeCount := likeCount + 1;
      }
      likedPosts := stored;
      liked := !liked;
    }

    /** `handleCommentSubmit`: blank content sends nothing; otherwise the comment is
        sent, whatever `addComment` resolves to is shown first and the form is cleared.
        `answer` is the server's reply, None when the request failed; the catch branch
        is never reached, because `addComment` answers a failure with a stand-in. */
    method HandleCommentSubmit(answer: Option<CommentView>, now: int) returns (sent: bool)
      modifies this`comments, this`newComment
      ensures sent <==> Trim(old(newComment.content)) != ""
      ensures sent ==>
        comments == [AddCommentResult(old(newComment), answer, now)] + old(comments) && newComment == EmptyDraft
      ensures sent && answer.None? ==>
        comments[0].authorName == old(newComment.name) && comments[0].content == old(newComment.content)
      ensures !sent ==> comments == old(comments) && newComment == old(newComment)
    {
      if Trim(newComment.content) == "" {
        return false;
      }
      sent := true;
      comments := [AddCommentResult(newComment, answer, now)] + comments;
      newComment := EmptyDraft;
    }
  }
}

=== FILE: text.dfy ===
/** String helpers shared by the backends and the frontends: the parts of Python's and
    JavaScript's string libraries the modelled code calls (lower-casing, split, join,
    strip/trim, substring search, decimal formatting), restricted to ASCII. */
module Text {

  /** The ASCII characters that Python's `str.strip`, JavaScript's `trim` and the regex
      class `\s` all treat as whitespace. */
  predicate IsSpace(c: char) {
    c == ' ' || c == '\t' || c == '\n' || c == '\r' || c == '\U{0B}' || c == '\U{0C}'
  }

  predicate IsUpper(c: char) { 'A' <= c <= 'Z' }

  function LowerChar(c: char): (r: char)
    ensures IsUpper(c) ==> r as int == c as int + 32
    ensures !IsUpper(c) ==> r == c
  {
    if IsUpper(c) then (c as int + 32) as char else c
  }

  /** Python's `str.lower` / JavaScript's `toLowerCase`, on ASCII letters. */
  function Lower(s: string): (r: string)
    ensures |r| == |s|
    ensures forall i :: 0 <= i < |s| ==> r[i] == LowerChar(s[i])
  {
    seq(|s|, i requires 0 <= i < |s| => LowerChar(s[i]))
  }

  /** Python's `str.replace(a, b)` for single characters. */
  function ReplaceChar(s: string, a: char, b: char): (r: string)
    ensures |r| == |s|
    ensures forall i :: 0 <= i < |s| ==> r[i] == (if s[i] == a then b else s[i])
  {
    seq(|s|, i requires 0 <= i < |s| => if s[i] == a then b else s[i])
  }

  /** `sub` occurs in `s` (Python's `in`, JavaScript's `includes`). */
  predicate Contains(s: string, sub: string) {
    exists i :: 0 <= i <= |s| - |sub| && OccursAt(s, sub, i)
  }

  predicate OccursAt(s: string, sub: string, i: int)
    requires 0 <= i <= |s| - |sub|
  {
    s[i..i + |sub|] == sub
  }

  /** Every string contains the empty string. */
  lemma ContainsEmpty(s: string)
    ensures Contains(s, "")
  {
    assert OccursAt(s, "", 0);
  }

  /** Lower-casing twice is lower-casing once. */
  lemma LowerIdempotent(s: string)
    ensures Lower(Lower(s)) == Lower(s)
  {
  }

  /** Whatever contains `a + b` contains `a`. */
  lemma ContainsPrefixOf(s: string, a: string, b: string)
    requires Contains(s, a + b)
    ensures Contains(s, a)
  {
    var i :| 0 <= i <= |s| - |a + b| && OccursAt(s, a + b, i);
    assert s[i..i + |a|] == (a + b)[..|a|] == a;
    assert OccursAt(s, a, i);
  }

  /** Leading whitespace removed. */
  function TrimStart(s: string): (r: string)
    ensures |r| <= |s| && r == s[|s| - |r|..]
    ensures r != [] ==> !IsSpace(r[0])
    ensures s != [] && IsSpace(s[0]) ==> |r| < |s|
  {
    if s != [] && IsSpace(s[0]) then TrimStart(s[1..]) else s
  }

  /** Trailing whitespace removed. */
  function TrimEnd(s: string): (r: string)
    ensures |r| <= |s| && r == s[..|r|]
    ensures r != [] ==> !IsSpace(r[|r| - 1])
  {
    if s != [] && IsSpace(s[|s| - 1]) then TrimEnd(s[..|s| - 1]) else s
  }

  /** Python's `str.strip()` / JavaScript's `trim()`. */
  function Trim(s: string): (r: string)
    ensures |r| <= |s|
    ensures r != [] ==> !IsSpace(r[0]) && !IsSpace(r[|r| - 1])
  {
    TrimEnd(TrimStart(s))
  }

  /** The string is empty or has only whitespace. */
  predicate IsBlank(s: string) {
    forall i :: 0 <= i < |s| ==> IsSpace(s[i])
  }

  lemma {:induction false} TrimStartBlank(s: string)
    ensures TrimStart(s) == [] <==> IsBlank(s)
  {
    if s == [] {
    } else if IsSpace(s[0]) {
      TrimStartBlank(s[1..]);
      BlankCons(s);
    } else {
      assert !IsBlank(s);
    }
  }

  lemma BlankCons(s: string)
    requires s != [] && IsSpace(s[0])
    ensures IsBlank(s) <==> IsBlank(s[1..])
  {
    if IsBlank(s[1..]) {
      forall i | 0 <= i < |s| ensures IsSpace(s[i]) {
        if i > 0 { assert s[i] == s[1..][i - 1]; }
      }
    }
  }

  /** `trim()` yields the empty string exactly for blank input. */
  lemma TrimBlank(s: string)
    ensures Trim(s) == [] <==> IsBlank(s)
  {
    TrimStartBlank(s);
    var t := TrimStart(s);
    if t != [] {
      assert !IsSpace(t[0]);
      assert TrimEnd(t) != [] by {
        if TrimEnd(t) == [] { TrimEndKeepsNonSpace(t); }
      }
    }
  }

  lemma {:induction false} TrimEndKeepsNonSpace(s: string)
    requires s != [] && !IsSpace(s[0])
    ensures TrimEnd(s) != []
  {
    if IsSpace(s[|s| - 1]) {
      assert |s| > 1;
      TrimEndKeepsNonSpace(s[..|s| - 1]);
    }
  }

  /** `'\s+'` replaced by `rep` everywhere (JavaScript's `replace(/\s+/g, rep)`). */
  function ReplaceSpaceRuns(s: string, rep: char): (r: string)
    decreases |s|
  {
    if s == [] then []
    else if IsSpace(s[0]) then [rep] + ReplaceSpaceRuns(TrimStart(s), rep)
    else [s[0]] + ReplaceSpaceRuns(s[1..], rep)
  }

  /** The string has no whitespace at all. */
  predicate NoSpace(s: string) {
    forall i :: 0 <= i < |s| ==> !IsSpace(s[i])
  }

  lemma NoSpaceCons(c: char, t: string)
    requires !IsSpace(c) && NoSpace(t)
    ensures NoSpace([c] + t)
  {
    forall i | 0 <= i < |[c] + t| ensures !IsSpace(([c] + t)[i]) {
      if i > 0 { assert ([c] + t)[i] == t[i - 1]; }
    }
  }

  /** After the replacement no whitespace is left, provided `rep` is not whitespace. */
  lemma {:induction false} ReplaceSpaceRunsNoSpace(s: string, rep: char)
    requires !IsSpace(rep)
    ensures NoSpace(ReplaceSpaceRuns(s, rep))
    decreases |s|
  {
    if s == [] {
    } else if IsSpace(s[0]) {
      ReplaceSpaceRunsNoSpace(TrimStart(s), rep);
      NoSpaceCons(rep, ReplaceSpaceRuns(TrimStart(s), rep));
    } else {
      ReplaceSpaceRunsNoSpace(s[1..], rep);
      NoSpaceCons(s[0], ReplaceSpaceRuns(s[1..], rep));
    }
  }

  /** A string with no whitespace is left as it is. */
  lemma {:induction false} ReplaceSpaceRunsNoOp(s: string, rep: char)
    requires NoSpace(s)
    ensures ReplaceSpaceRuns(s, rep) == s
  {
    if s != [] {
      ReplaceSpaceRunsNoOp(s[1..], rep);
    }
  }

  /** A string already trimmed stays trimmed behind one leading space. */
  lemma TrimSpacePrefix(t: string)
    requires Trim(t) == t
    ensures Trim(" " + t) == t
  {
    assert (" " + t)[1..] == t;
    assert TrimStart(" " + t) == TrimStart(t);
  }

  /** The string has no upper-case ASCII letter. */
  predicate NoUpper(s: string) {
    forall i :: 0 <= i < |s| ==> !IsUpper(s[i])
  }

  lemma LowerNoUpper(s: string)
    ensures NoUpper(Lower(s))
  {
  }

  lemma {:induction false} ReplaceSpaceRunsNoUpper(s: string, rep: char)
    requires NoUpper(s) && !IsUpper(rep)
    ensures NoUpper(ReplaceSpaceRuns(s, rep))
    decreases |s|
  {
    if s == [] {
    } else if IsSpace(s[0]) {
      var t := TrimStart(s);
      assert NoUpper(t) by {
        forall i | 0 <= i < |t| ensures !IsUpper(t[i]) { assert t[i] == s[|s| - |t| + i]; }
      }
      ReplaceSpaceRunsNoUpper(t, rep);
      var r := ReplaceSpaceRuns(t, rep);
      assert forall i :: 0 < i < |[rep] + r| ==> ([rep] + r)[i] == r[i - 1];
    } else {
      assert NoUpper(s[1..]) by {
        forall i | 0 <= i < |s[1..]| ensures !IsUpper(s[1..][i]) { assert s[1..][i] == s[i + 1]; }
      }
      ReplaceSpaceRunsNoUpper(s[1..], rep);
      var r := ReplaceSpaceRuns(s[1..], rep);
      assert forall i :: 0 < i < |[s[0]] + r| ==> ([s[0]] + r)[i] == r[i - 1];
    }
  }

  // ---------------------------------------------------------------- split and join

  /** Python's `str.split(sep)` and JavaScript's `split(sep)` for a one-character
      separator: the pieces between separators, always at least one. */
  function Split(s: string, sep: char): (r: seq<string>)
    ensures |r| >= 1
  {
    if s == [] then [[]]
    else
      var rest := Split(s[1..], sep);
      if s[0] == sep then [[]] + rest else [[s[0]] + rest[0]] + rest[1..]
  }

  /** Python's `sep.join(parts)` / JavaScript's `parts.join(sep)`. */
  function Join(parts: seq<string>, sep: string): string {
    if |parts| == 0 then []
    else if |parts| == 1 then parts[0]
    else parts[0] + sep + Join(parts[1..], sep)
  }

  lemma {:induction false} SplitNoSep(w: string, sep: char)
    requires sep !in w
    ensures Split(w, sep) == [w]
  {
    if w != [] {
      SplitNoSep(w[1..], sep);
      assert [w[0]] + w[1..] == w;
    }
  }

  lemma {:induction false} SplitAfterWord(w: string, sep: char, rest: string)
    requires sep !in w
    ensures Split(w + [sep] + rest, sep) == [w] + Split(rest, sep)
  {
    if w == [] {
      assert w + [sep] + rest == [sep] + rest;
      assert ([sep] + rest)[1..] == rest;
    } else {
      var s := w + [sep] + rest;
      assert s[1..] == w[1..] + [sep] + rest;
      SplitAfterWord(w[1..], sep, rest);
      assert [w[0]] + w[1..] == w;
    }
  }

  /** Splitting a join on the same separator gives the parts back, when no part holds
      the separator (and there is at least one part: `Split("")` is `[""]`). */
  lemma {:induction false} SplitJoin(parts: seq<string>, sep: char)
    requires |parts| >= 1
    requires forall k :: 0 <= k < |parts| ==> sep !in parts[k]
    ensures Split(Join(parts, [sep]), sep) == parts
  {
    if |parts| == 1 {
      SplitNoSep(parts[0], sep);
    } else {
      SplitJoin(parts[1..], sep);
      SplitAfterWord(parts[0], sep, Join(parts[1..], [sep]));
      assert parts == [parts[0]] + parts[1..];
    }
  }

  /** Every part after the first with one space in front of it. */
  function SpacePrefixed(parts: seq<string>): (r: seq<string>)
    requires |parts| >= 1
    ensures |r| == |parts| && r[0] == parts[0]
    ensures forall k :: 1 <= k < |parts| ==> r[k] == " " + parts[k]
  {
    [parts[0]] + seq(|parts| - 1, k requires 0 <= k < |parts| - 1 => " " + parts[k + 1])
  }

  /** Joining a sequence of two or more parts: the first, the separator, then the rest joined. */
  lemma JoinFirst(parts: seq<string>, sep: string)
    requires |parts| >= 2
    ensures Join(parts, sep) == parts[0] + (sep + Join(parts[1..], sep))
  {
  }

  /** Past the first part, space-prefixing `parts` is the space-prefixed second part followed
      by what space-prefixing `parts[1..]` gives past its own first part. */
  lemma SpacePrefixedTail(parts: seq<string>)
    requires |parts| >= 2
    ensures SpacePrefixed(parts)[1..] == [" " + parts[1]] + SpacePrefixed(parts[1..])[1..]
  {
  }

  /** Joining with ", " is joining the space-prefixed parts with ",". */
  lemma {:induction false} JoinSpaced(parts: seq<string>)
    requires |parts| >= 1
    ensures Join(parts, ", ") == Join(SpacePrefixed(parts), ",")
  {
    if |parts| > 1 {
      var rest := parts[1..];
      var spr := SpacePrefixed(rest);
      var tail := SpacePrefixed(parts)[1..];
      JoinSpaced(rest);
      SpacePrefixedTail(parts);
      JoinFirst(parts, ", ");
      JoinFirst(SpacePrefixed(parts), ",");
      // the joined tail is the joined `spr` with one space in front
      assert Join(tail, ",") == " " + Join(spr, ",") by {
        if |rest| > 1 {
          JoinFirst(tail, ",");
          JoinFirst(spr, ",");
          assert tail[1..] == spr[1..];
        }
      }
      assert ", " == "," + " ";
    }
  }

  // ---------------------------------------------------------------- extensions

  /** The text after the last `c`: Python's `s.rsplit(c, 1)[1]`. */
  function AfterLast(s: string, c: char): (r: string)
    requires c in s
    ensures c !in r
    ensures |r| < |s| && s[|s| - |r| - 1] == c && r == s[|s| - |r|..]
  {
    if s[|s| - 1] == c then []
    else
      assert c in s[..|s| - 1] by {
        var i :| 0 <= i < |s| && s[i] == c;
        assert s[..|s| - 1][i] == c;
      }
      AfterLast(s[..|s| - 1], c) + [s[|s| - 1]]
  }

  /** The text after the last `c` is determined by any split `stem + c + ext` whose
      `ext` has no `c`. */
  lemma {:induction false} AfterLastOf(stem: string, c: char, ext: string)
    requires c !in ext
    ensures c in stem + [c] + ext
    ensures AfterLast(stem + [c] + ext, c) == ext
  {
    var s := stem + [c] + ext;
    assert s[|stem|] == c;
    if ext != [] {
      var ext' := ext[..|ext| - 1];
      assert s[..|s| - 1] == stem + [c] + ext';
      AfterLastOf(stem, c, ext');
      assert ext == ext' + [ext[|ext| - 1]];
    } else {
      assert s[|s| - 1] == c;
    }
  }

  // ---------------------------------------------------------------- decimal numbers

  function DigitChar(d: nat): (r: char)
    requires d < 10
    ensures '0' <= r <= '9'
  {
    ('0' as int + d) as char
  }

  /** Python's `str(n)` / an f-string `{n}` for a natural number. */
  function NatToString(n: nat): (r: string)
    ensures |r| >= 1
    ensures n >= 10 ==> |r| >= 2
  {
    if n < 10 then [DigitChar(n)] else NatToString(n / 10) + [DigitChar(n % 10)]
  }

  /** Different numbers print differently. */
  lemma {:induction false} NatToStringInjective(a: nat, b: nat)
    requires NatToString(a) == NatToString(b)
    ensures a == b
  {
    var sa, sb := NatToString(a), NatToString(b);
    if a < 10 && b < 10 {
      assert sa[0] == DigitChar(a) && sb[0] == DigitChar(b);
    } else if a >= 10 && b >= 10 {
      assert sa[|sa| - 1] == DigitChar(a % 10);
      assert sb[|sb| - 1] == DigitChar(b % 10);
      assert sa[..|sa| - 1] == NatToString(a / 10);
      assert sb[..|sb| - 1] == NatToString(b / 10);
      NatToStringInjective(a / 10, b / 10);
    }
  }
}

=== FILE: wrappers.dfy ===
/** Option, the value-or-nothing type used for nullable columns, optional request
    fields and JavaScript's null/undefined. */
module Wrappers {

  datatype Option<+T> = None | Some(value: T) {

    /** The value, or `default` when there is none: Python's `dict.get(k, d)`, which keeps
        a present value even when it is falsy. It also stands for JavaScript's `x || d`
        where `d` is the only falsy value `x` can hold, such as `s || ''`. */
    function GetOr(default: T): T {
      match this
      case Some(v) => v
      case None => default
    }
  }
}
